=== FILE: README.md ===
# Habitat planner layout engine, in Dafny

This project models the layout and constraint engine of a browser-based
planner for surface habitats. In the planner, a crew configuration
(area per person, crew size, people per habitat, habitat count, tile
size) determines how many habitats there are and the footprint of each
in tiles. The habitats are packed onto a tile world. An occupancy grid
keeps them from overlapping. A height map, painted with a brush, limits
the slope under each habitat. The user can then:

- drag a habitat to a new place, or resize it with its edge handles
  while keeping its tile area;
- edit the headcount of each habitat;
- furnish habitats with living modules from a ten-entry catalog, under a
  rule that allows at most half overlap;
- read an issues report that compares the placed module area with what
  the crew and the mission length require;
- lay corridors and paths between habitat ports, and erase them.
  Corridor and path segments follow Bresenham lines and must stay within
  a per-step height limit. An older corridor router builds axis-aligned
  L-shaped legs.

Every operation is a pure function over immutable values:

- a grid or height map is `seq<seq<int>>`;
- a habitat is its origin, its size and its area budget;
- a router is its on/off flag, the port being drawn from, the waypoints
  so far and the committed links.

Each scan the program performs with a loop is a recursive function. Its
contract relates the result to a quantified reference (for example
"free iff every tile is 0", "ok iff every step is within the limit").
Lemmas state the invariants the interactive operations preserve:

- the grid counts the habitats covering each tile, at most one;
- modules stay on the footprint and within the overlap rule when they are
  added, dragged, resized or removed; after the house itself changes size
  they stay on the footprint only, and the overlap rule can break;
- the headcount stays within the capacity and the crew size;
- the routers are tidy.

Modules, in dependency order:

- `Common`: points, rectangles, integer rounding and division helpers,
  sums.
- `Occupancy`: `src/game/occupancy.js`.
- `Terrain`: `src/game/terrain.js`.
- `Layout`: `src/game/layoutCalc.js`.
- `Derivation`: the derived configuration in `src/Game.jsx`.
- `Catalog` and `Rules`: `src/game/modules/moduleLibrary.js` and
  `src/game/modules/rules.js`.
- `Placement`: the initial scene, the slope rule and habitat moves in
  `src/game/mainScene.js`.
- `Resize`: `src/game/resizeKeepArea.js`.
- `Crew`: the headcount edits in `src/game/mainScene.js`.
- `ModuleLayer`: `src/game/modules/moduleLayer.js`.
- `Issues`: `src/game/issuesPanel.js`.
- `Steps`: the shared walking-slope rule.
- `Corridors`: `src/game/corridors.js`.
- `Router`: the port-to-port corridor and path tools, the eraser and the
  tool switch in `src/game/mainScene.js`.

Coordinates are in tiles throughout. The model assumes the scene's
`tilePx` equals the renderer's `TILE_PX` (32, the default). Under that
assumption habitat containers snap to whole tiles, the program's pixel
positions divided by the tile size are integers, and its
`Math.round(px / tile)` steps are identities on them. "## Left out" says
what differs when the two sizes disagree.

## Model

| member | source | states |
|---|---|---|
| Occupancy.MakeGrid | src/game/occupancy.js:1-3 | the grid has `h` rows of `w` cells and every cell is free (0) |
| Occupancy.RectFree | src/game/occupancy.js:5-11 | a rectangle that leaves the grid is never free; one inside the grid is free exactly when every tile under it is 0 |
| Occupancy.MarkRect | src/game/occupancy.js:13-16 | exactly the rectangle's tiles take the value; every other tile and the grid's shape are unchanged |
| Occupancy.MarkThenFree | src/game/occupancy.js:5-16 | after a non-empty rectangle is marked with a non-zero value it is not free; after it is cleared it is free |
| Occupancy.FreshGridFree | src/game/occupancy.js:1-11 | every in-bounds rectangle of a fresh grid is free |
| Terrain.MakeHeightMap | src/game/terrain.js:4-10 | an `h` x `w` map with every tile at the initial height |
| Terrain.PaintHeight | src/game/terrain.js:13-18 | a tile off the map is refused and the map is unchanged; on the map the tile takes the rounded value clamped with the lower bound winning, so it lies in [minH, maxH] when minH <= maxH; no other tile changes |
| Terrain.RectSpan | src/game/terrain.js:22-33 | the scan finds nothing exactly when no tile of the rows and columns is on the map; otherwise its low and high values bound every tile on the map and both occur |
| Terrain.RectSlope | src/game/terrain.js:21-36 | the slope is non-negative, is 0 when no tile of the rectangle is on the map, bounds the difference of every pair of tiles under it, and equals the difference of some pair |
| Terrain.FlatSlope | src/game/terrain.js:21-36 | a flat map has slope 0 under every rectangle |
| Layout.AreaPerHabitat | src/game/layoutCalc.js:4-9 | the result is the ceiling of area x crew / max(1, habitats) |
| Layout.RowsSlotsShape | src/game/layoutCalc.js:37-47 | the nested loop yields `total - r*cols` slots from row `r` on, slot `k` at row `k / cols` and column `k % cols` |
| Layout.GridLayout | src/game/layoutCalc.js:31-49 | the packing plan: ceil(sqrt(total)) columns, enough rows, the slot positions and the map size (its properties are Layout.GridLayoutPositions and Layout.GridLayoutFootprints) |
| Layout.GridLayoutPositions | src/game/layoutCalc.js:31-49 | at least one column, enough rows x columns for every habitat, exactly `total` positions in row-major slot order |
| Layout.SlotInside | src/game/layoutCalc.js:34-45 | every slot's footprint lies inside mapW x mapH |
| Layout.SlotsDisjoint | src/game/layoutCalc.js:42-45 | the footprints of two different slots share no tile |
| Layout.GridLayoutFootprints | src/game/layoutCalc.js:31-49 | the packed footprints all lie inside the map and are pairwise disjoint |
| Derivation.HumansPerHabitat | src/Game.jsx:28-31 | at least 1, and the configured value when that is at least 1 |
| Derivation.HabitatsCount | src/Game.jsx:32-45 | at least the configured count and at least 1; enough habitats for the crew; and the least such count above the configured one |
| Derivation.ModuleAreaM2 | src/Game.jsx:38-41 | at least 1, and the nearest integer to area x people per habitat whenever above 1 |
| Derivation.ScanFactors | src/Game.jsx:55-63 | the descending scan keeps a valid factor pair and ends with one whose side difference is no larger than that of any factor pair it passed |
| Derivation.PickExactFactors | src/Game.jsx:52-65 | nothing exactly when `N` has no factor pair with both sides at least the minimum; otherwise a pair with w <= h and the least side difference of all such pairs |
| Derivation.PickCeilRect | src/Game.jsx:66-70 | both sides at least the minimum, and the rectangle holds at least `N` tiles |
| Derivation.ChooseFootprint | src/Game.jsx:71-74 | sides at least 3 and area at least `N`; exactly `N` whenever a factor pair exists |
| Derivation.Derive | src/Game.jsx:20-74 | the derived habitats can hold the crew, and each footprint has sides of at least 3 and covers the exact tile count |
| Derivation.ScenarioA | src/Game.jsx:20-74 | 25 m² per person, crew 4, 2 per habitat, 1 m tiles give 2 habitats of 50 m², each 5 x 10 tiles |
| Derivation.FillRound | src/Game.jsx:86-94 | one pass over the shuffled order conserves people placed plus people left; no entry drops or passes the capacity; a pass that places nobody found every habitat full |
| Derivation.AssignRounds | src/Game.jsx:81-96 | the passes end with every entry in [0, cap] and the total equal to the smaller of the people to place and the capacity left |
| Derivation.RandomAssign | src/Game.jsx:77-98 | one entry per habitat, each in [0, cap], summing to min(max(0, crew), habitats x cap), for every shuffle |
| Catalog.OrderIsEnumeration | src/game/modules/moduleLibrary.js:2-13 | the catalog order lists each of the ten kinds exactly once |
| Catalog.Spec | src/game/modules/moduleLibrary.js:2-13 | base areas are positive; only stowage grows with the mission length; stowage and command have no avoid list; no kind avoids itself; galley, sleep, med and command are clean |
| Catalog.PerCrewAreaOfKind | src/game/modules/moduleLibrary.js:3-12 | stowage needs 0.02 m² per crew member per day; every other kind needs a fixed non-negative amount |
| Rules.AreaForModule | src/game/modules/rules.js:5-9 | never below the base area for a non-negative crew and mission length, and exactly the base area with no crew |
| Rules.AreaMonotoneInCrew | src/game/modules/rules.js:5-9 | a larger crew never needs less area |
| Rules.AreaMonotoneInDays | src/game/modules/rules.js:5-9 | a longer mission never needs less area |
| Rules.AccumulateMeaning | src/game/modules/rules.js:15-19 | the loop records every kind's area and adds it to the running total |
| Rules.RequiredAreas | src/game/modules/rules.js:12-21 | every kind has an entry equal to its area, and the total is the sum of the entries over the catalog |
| Rules.RequiredAreasMonotone | src/game/modules/rules.js:12-21 | more crew and more days never lower any entry or the total |
| Rules.RecommendedWcs | src/game/modules/rules.js:24-27 | at least one WCS, one per three crew members rounded down |
| Rules.ModulePlanIssues | src/game/modules/rules.js:30-46 | three lines: the need and the available area; a shortfall exactly when the available area is below the need, and then of exactly the missing amount; the WCS recommendation |
| Placement.TerrainOK | src/game/mainScene.js:243-246 | the slope under the rectangle is at most 0.05 x its longer side x the tile size (a definition; its meaning is Placement.TerrainOKMeaning) |
| Placement.TerrainOKMeaning | src/game/mainScene.js:243-246 | the slope rule holds exactly when no two tiles under the rectangle differ by more than 0.05 x max(w, h) x tile metres |
| Placement.MarkAllCounts | src/game/mainScene.js:252-253 | marking pairwise disjoint footprints one by one yields the grid that counts the habitats on each tile |
| Placement.SceneCount | src/game/mainScene.js:83 | the number of habitats is clamped to [1, 200] and kept when already in range |
| Placement.InitialScene | src/game/mainScene.js:80-127 | the scene has the clamped number of habitats, all of the derived size, a world at least as large as the viewport, and a flat height map |
| Placement.PackingSize | src/game/mainScene.js:95-99 | the packed map holds at least one footprint plus the margins in each direction |
| Placement.WorldSize | src/game/mainScene.js:101-104 | the world is at least as large as the screen in tiles and holds one footprint plus both margins in each direction |
| Placement.InitialFits | src/game/mainScene.js:95-117 | every packed footprint lies inside the world and no two share a tile |
| Placement.InitialSceneConsistent | src/game/mainScene.js:108-122 | the initial grid counts the habitats on each tile, at most one |
| Placement.MoveHabitat | src/game/mainScene.js:268-295 | refused for the slope rule exactly when the target breaks it; on success only the moved habitat's origin changes; otherwise nothing changes |
| Placement.MoveHabitatSound | src/game/mainScene.js:268-295 | a move is accepted exactly when the target lies on the grid, touches no other habitat and passes the slope rule; the grid keeps counting the habitats; a refused move gives back the same grid |
| Resize.AreaMax | src/game/resizeKeepArea.js:50 | the area budget is at least 1 and is the habitat's area when that is positive |
| Resize.Shrink | src/game/resizeKeepArea.js:116-117 | the side shrinks to the largest value in [3, s] that fits the budget, or to 3 |
| Resize.Grow | src/game/resizeKeepArea.js:119 | the side grows until one more would exceed the budget or the world |
| Resize.ChooseByTargetW | src/game/resizeKeepArea.js:93-121 | both sides at least 3; within the area budget whenever it allows 3 x 3; the height cannot grow by one more; the requested width is honoured when it fits |
| Resize.ChooseByTargetH | src/game/resizeKeepArea.js:123-145 | the mirror of choosing by width, with the sides exchanged |
| Resize.ChooseExample | src/game/resizeKeepArea.js:93-121 | a 36-tile budget and a requested width of 10 give 10 x 3 |
| Resize.Judge | src/game/resizeKeepArea.js:177-196 | accepted exactly when the rectangle is free and passes the slope rule; a slope failure is reported before occupancy |
| Resize.ResizeHorizontal | src/game/resizeKeepArea.js:147-198 | a preview within the budget and the world; accepted exactly when free and on acceptable terrain; the fixed edge stays put when the world allows |
| Resize.ResizeVertical | src/game/resizeKeepArea.js:201-251 | the same for the top and bottom handles |
| Resize.RunDrags | src/game/resizeKeepArea.js:301-312 | each drag replaces the preview; after any drag the preview is judged against the grid with the footprint lifted, both its sides are at least 3, and its area is within the budget whenever the budget allows 3 x 3 |
| Resize.End | src/game/resizeKeepArea.js:261-293 | an accepted preview becomes the habitat's origin and size and is marked; otherwise the old footprint is marked again; the area budget and every other habitat are unchanged |
| Resize.ResizeGestureAsWritten | src/game/resizeKeepArea.js:254-317 | a gesture without a drag commits whatever accepted preview an earlier gesture left |
| Resize.StalePreviewOverlaps | src/game/resizeKeepArea.js:254-317 | two 3 x 3 habitats and a stale preview onto the second: the as-written gesture puts the first on top of the second |
| Resize.ResizeGesture | src/game/resizeKeepArea.js:254-317 | a gesture changes only the resized habitat, keeps its area budget, and without a drag changes nothing; a resized habitat has both sides at least 3 and w x h within its budget whenever the budget is at least 3 x 3 |
| Resize.ResizeGestureSound | src/game/resizeKeepArea.js:254-317 | the grid keeps counting the habitats; a resized habitat passes the slope rule, has both sides at least 3 and w x h within its area budget (when that budget is at least 3 x 3); a gesture that commits nothing gives back the same grid |
| Crew.InitialAssignment | src/game/mainScene.js:228-229 | the assignment is cut or padded with zeros to one entry per habitat |
| Crew.InitialAssignmentSum | src/game/mainScene.js:228-229 | padding keeps the headcount total |
| Crew.SumExceptIsSumMinus | src/game/mainScene.js:309 | the total without entry `idx` is the total less that entry |
| Crew.SetHumans | src/game/mainScene.js:304-323 | an edit is applied exactly when the clamped value differs, is within the capacity and keeps the total within the crew size; then the entry becomes the request clamped to [0, capacity] (the capacity for a request above it, 0 for a negative one) and no other entry changes; otherwise nothing changes |
| Crew.SetHumansKeepsValid | src/game/mainScene.js:304-323 | every edit keeps every entry within [0, capacity] and the total within the crew size |
| ModuleLayer.OverlapTiles | src/game/modules/moduleLayer.js:29-37 | the overlap is never negative |
| ModuleLayer.OverlapBounded | src/game/modules/moduleLayer.js:29-37 | the overlap never exceeds either rectangle's area |
| ModuleLayer.OverlapPositiveIff | src/game/modules/moduleLayer.js:29-37 | the overlap is positive exactly when the rectangles share a tile |
| ModuleLayer.WithinBounds | src/game/modules/moduleLayer.js:39-46 | a module lies on the house's footprint (a definition; Squeeze and the `…KeepsPlaced` lemmas state what keeps it) |
| ModuleLayer.Compatible | src/game/modules/moduleLayer.js:53-56 | two modules overlap by at most half of the smaller area (a definition; its meaning is ModuleLayer.CompatibleMeaning) |
| ModuleLayer.CompatibleMeaning | src/game/modules/moduleLayer.js:53-56 | the doubled integer test agrees with the program's test: refused exactly when the overlap is positive and exceeds 0.5 x the smaller area |
| ModuleLayer.ScanAllowed | src/game/modules/moduleLayer.js:51-57 | the loop over the other modules passes exactly when the candidate is compatible with every module from the current one on, except the one skipped |
| ModuleLayer.PlacementAllowed | src/game/modules/moduleLayer.js:49-59 | the bounds check followed by the loop accepts exactly the modules that satisfy ModuleLayer.Allowed |
| ModuleLayer.Allowed | src/game/modules/moduleLayer.js:49-59 | the candidate lies on the footprint and is compatible with every other module (a definition; ModuleLayer.PlacementAllowed relates it to the loop) |
| ModuleLayer.ReplaceKeepsPlaced | src/game/modules/moduleLayer.js:49-59 | replacing a module with one that passes the placement check keeps every module on the footprint and every pair within the half-overlap rule |
| ModuleLayer.AppendKeepsPlaced | src/game/modules/moduleLayer.js:49-59 | appending a module that passes the check keeps the layer invariant |
| ModuleLayer.SearchCols | src/game/modules/moduleLayer.js:172-175 | the first column of the row where the module fits, or none when it fits nowhere in the row |
| ModuleLayer.SearchRows | src/game/modules/moduleLayer.js:171-176 | the first spot in row-major order where the module fits, or none when it fits nowhere |
| ModuleLayer.AddModule | src/game/modules/moduleLayer.js:155-185 | fails exactly when the clamped module fits nowhere; otherwise appends it, selects it, and places it at the clamped spot if allowed there or else at the first allowed spot in row-major order |
| ModuleLayer.AddModuleKeepsPlaced | src/game/modules/moduleLayer.js:155-185 | adding keeps the layer invariant and the selection valid |
| ModuleLayer.Select | src/game/modules/moduleLayer.js:89 | a press selects the module and changes nothing else |
| ModuleLayer.Drag | src/game/modules/moduleLayer.js:90-104 | only the dragged module may move, to the clamped tile, and only when the placement check allows it |
| ModuleLayer.DragKeepsPlaced | src/game/modules/moduleLayer.js:90-104 | dragging keeps the layer invariant |
| ModuleLayer.Resized | src/game/modules/moduleLayer.js:188-197 | an arrow key changes one side by 1 (2 with Shift), clamped so the module stays on the footprint |
| ModuleLayer.ResizeSelected | src/game/modules/moduleLayer.js:188-206 | with nothing selected nothing changes; otherwise only the selected module changes, and only when the new size passes the check |
| ModuleLayer.ResizeSelectedKeepsPlaced | src/game/modules/moduleLayer.js:188-206 | resizing keeps the layer invariant |
| ModuleLayer.Squeeze | src/game/modules/moduleLayer.js:136-145 | after a house resize each module lies on the footprint; its sides are capped by the house's; each coordinate is the position closest to the old one in [0, max(0, house side - old module side)]; id and kind are kept and a module that already fitted is untouched |
| ModuleLayer.OnUpdate | src/game/modules/moduleLayer.js:130-148 | an unchanged house size changes nothing; after a change every module is squeezed onto the new footprint, in place, and the new size is remembered |
| ModuleLayer.ShrinkBreaksPlaced | src/game/modules/moduleLayer.js:130-148 | two side-by-side 2 x 2 modules that satisfy the layer invariant in a 4 x 2 house cover the same tiles after the house narrows to 2 x 2, and stay so when it widens again |
| ModuleLayer.OnUpdateKeepsFitting | src/game/modules/moduleLayer.js:130-148 | modules already on the new footprint are not moved |
| ModuleLayer.FindId | src/game/modules/moduleLayer.js:226 | the index of the first module carrying the id, or none when no module carries it |
| ModuleLayer.RemoveAt | src/game/modules/moduleLayer.js:227-233 | the module leaves the list, the others keep their order, and a selection of it is cleared |
| ModuleLayer.Remove | src/game/modules/moduleLayer.js:225-234 | an unknown id changes nothing; a known one removes its first module |
| ModuleLayer.RemoveOnlyThatId | src/game/modules/moduleLayer.js:225-234 | with unique ids, no module with the id remains, every other module stays, and the list shrinks exactly when the id was present |
| ModuleLayer.RemoveAtKeepsPlaced | src/game/modules/moduleLayer.js:225-234 | removing keeps the layer invariant |
| ModuleLayer.RemoveSelected | src/game/modules/moduleLayer.js:209-220 | with nothing selected nothing changes; otherwise the selected module is removed and the selection cleared |
| Issues.EstimateTotalAreaTiles | src/game/issuesPanel.js:89-99 | the sum over habitats of the area budget, or w x h without one, or 0 (its properties are Issues.EstimateIsBudgetSum and the two `EstimateUnchangedBy…` lemmas) |
| Issues.EstimateIsBudgetSum | src/game/issuesPanel.js:89-99 | when every habitat has an area budget the estimate is the sum of the budgets |
| Issues.EstimateUnchangedByMove | src/game/issuesPanel.js:89-99 | moving a habitat never changes the area estimate |
| Issues.EstimateUnchangedByResize | src/game/issuesPanel.js:89-99 | resizing a habitat that has an area budget never changes the area estimate |
| Issues.InnerEffect | src/game/issuesPanel.js:116-130 | the inner loop takes half of each positive overlap of module `i` with later modules from both modules |
| Issues.OuterEffect | src/game/issuesPanel.js:115-131 | the pair loop ends with each module's area less half of its overlaps with every other module |
| Issues.EffectiveTiles | src/game/issuesPanel.js:111-131 | each module's effective tiles are its area less half of the sum of its overlaps with all other modules of the habitat |
| Issues.NoOverlapFullArea | src/game/issuesPanel.js:111-131 | a module that overlaps no other counts with its full area |
| Issues.AddModsMeaning | src/game/issuesPanel.js:134-137 | the per-kind accumulation adds, for each kind, the square metres of that kind's modules |
| Issues.PlacedAreas | src/game/issuesPanel.js:102-140 | the square metres placed per kind are the sum over all habitats of the kind's effective areas, floored at zero |
| Issues.CrewLineOf | src/game/issuesPanel.js:155-162 | missing crew exactly when fewer are placed than the crew size, and excess exactly when more, with the exact difference |
| Issues.OverCapacity | src/game/issuesPanel.js:165-169 | the habitats listed, in increasing order, are exactly those above a positive capacity |
| Issues.HabitatLineOf | src/game/issuesPanel.js:170-177 | no line without a positive capacity; otherwise a request for more habitats exactly when the habitats cannot hold the crew |
| Issues.DeficitsFromOrdered | src/game/issuesPanel.js:191-199 | deficits follow the catalog order |
| Issues.DeficitsFromMembers | src/game/issuesPanel.js:191-199 | a kind is listed exactly when its placed area falls more than 0.1 m² short of its need |
| Issues.Deficits | src/game/issuesPanel.js:187-199 | the deficit list over the whole catalog (its meaning is Issues.DeficitsMeaning) |
| Issues.DeficitsMeaning | src/game/issuesPanel.js:187-199 | the deficit list is in catalog order, holds exactly the short kinds, and carries each kind's placed and needed area |
| Issues.Update | src/game/issuesPanel.js:145-212 | the report's problem flag is raised exactly when there is a deficit, missing crew, an overfull habitat or a request for more habitats; Issues.UpdateProblemFlag states this over the inputs |
| Issues.UpdateProblemFlag | src/game/issuesPanel.js:145-212 | the report is flagged exactly for a deficit, missing crew, an overfull habitat or missing habitats; excess crew and a plan shortfall alone do not flag it |
| Issues.ValidCrewReportsNoExcess | src/game/issuesPanel.js:155-169 | a headcount within the capacity and the crew size reports no overfull habitat and no excess crew |
| Issues.DerivedSceneHasEnoughHabitats | src/Game.jsx:43-45 | a scene built from a configuration never reports missing habitats while the derived count is within 200 |
| Steps.StepLimit | src/game/corridors.js:15 | the step limit is positive for a positive tile size and 3 m for a zero tile size |
| Steps.TileH | src/game/corridors.js:23-24 | a tile off the map reads as height 0 |
| Steps.ScanFrom | src/game/mainScene.js:413-416 | the check passes exactly when every consecutive pair of tiles is within the limit |
| Corridors.ColumnFrom | src/game/corridors.js:42-47 | the vertical scan passes exactly when every step down the column is within the limit |
| Corridors.RowFrom | src/game/corridors.js:53-58 | the horizontal scan passes exactly when every step along the row is within the limit |
| Corridors.AxisSegmentOK | src/game/corridors.js:36-61 | a diagonal run is always refused (the full meaning is Corridors.AxisSegmentOKMeaning) |
| Corridors.AxisSegmentOKMeaning | src/game/corridors.js:36-61 | a run passes exactly when it is axis-aligned and walkable tile by tile |
| Corridors.TryElbow | src/game/corridors.js:64-70 | no elbow exactly when neither L passes; horizontal-first is tried before vertical-first |
| Corridors.TryElbowSound | src/game/corridors.js:64-70 | an elbow found is two axis-aligned, walkable runs from `a` through the corner to `b` |
| Corridors.LegsFail | src/game/corridors.js:73-90 | the leg loop fails exactly when some leg has no elbow |
| Corridors.LegsRoute | src/game/corridors.js:73-90 | a route found starts at the current point, visits every target in order, and every run of it passes |
| Corridors.BuildPath | src/game/corridors.js:73-90 | the start followed by the legs through the waypoints to the end, or none (its meaning is Corridors.BuildPathMeaning) |
| Corridors.BuildPathMeaning | src/game/corridors.js:73-90 | no path exactly when some leg has no elbow; otherwise a path from `a` through the waypoints in order to `b`, two points per leg, every run passing |
| Corridors.MidBottom | src/game/corridors.js:26-32 | the tile just below the middle of a habitat's bottom edge, `(x + floor(w / 2), y + h)` (a definition) |
| Corridors.OnClick | src/game/corridors.js:147-198 | a press never switches the tool (its meaning is Corridors.OnClickMeaning) |
| Corridors.OnClickMeaning | src/game/corridors.js:147-198 | a corridor is committed exactly when the press is on another habitat and a path exists; a waypoint is added exactly when an elbow reaches a new tile on bare ground; a press on a habitat starts a corridor when none is in progress; nothing else changes |
| Corridors.OnRight | src/game/corridors.js:201-207 | while drawing, a right press drops the last waypoint; otherwise nothing changes |
| Corridors.DispatchAsWritten | src/game/corridors.js:216-217 | both listeners run on every press, the click handler first; the tool stays on or off and no corridor is lost |
| Corridors.RightPressAsWrittenKeepsWaypoints | src/game/corridors.js:147-207 | as written, a right press on bare ground that an elbow reaches and that is not the last waypoint adds it and drops it again, leaving the state unchanged |
| Corridors.Dispatch | src/game/corridors.js:201-207 | the intended dispatch: a right press while drawing drops exactly the last waypoint, never commits or starts a corridor |
| Corridors.Activate | src/game/corridors.js:209-219 | turning the tool on clears the drawing and keeps the corridors; on again changes nothing |
| Corridors.Deactivate | src/game/corridors.js:221-231 | turning the tool off clears the drawing and keeps the corridors; off again changes nothing |
| Corridors.TransitionsKeepTidy | src/game/corridors.js:147-231 | every handler keeps an idle router without a drawing and every reference to an existing habitat |
| Router.PortCenter | src/game/mainScene.js:367-387 | a port's tile lies on the footprint: on the top, bottom, left or right edge, halfway along it |
| Router.BresenhamMoves | src/game/mainScene.js:409-411 | with the error invariant, an axis with no distance left is never stepped and some axis always is |
| Router.AdvanceKeepsInv | src/game/mainScene.js:409-411 | one loop step keeps the error invariant and moves one king step toward the end point |
| Router.Line | src/game/mainScene.js:400-412 | the rasterised line starts at `a`, ends at `b`, and moves one king step toward `b` at a time |
| Router.LineStaysInBox | src/game/mainScene.js:400-412 | every tile of the line lies in the box spanned by its ends; a line from a point to itself is that point |
| Router.SegmentOK | src/game/mainScene.js:397-418 | a segment passes exactly when every step of its rasterised line is within three times the tile size |
| Router.PolyFrom | src/game/mainScene.js:424-426 | the loop passes exactly when every segment from the given index on passes |
| Router.Materialize | src/game/mainScene.js:420-428 | the polyline is the start port, the waypoints and the end port; none exactly when some segment fails |
| Router.MaterializeWalkable | src/game/mainScene.js:420-428 | every tile step of every segment of a materialised polyline is within the limit |
| Router.Revalidate | src/game/mainScene.js:499-503 | one link re-validated against the current habitats and terrain (its meaning is part of Router.RedrawMeaning) |
| Router.Redraw | src/game/mainScene.js:497-505 | every link is re-validated, one by one, and none is added or dropped |
| Router.RedrawMeaning | src/game/mainScene.js:497-505 | redrawing changes only polylines, keeps the old one when the new one does not materialise, and is idempotent |
| Router.Draw | src/game/mainScene.js:543-570 | drawing never switches the tool (its meaning is Router.DrawMeaning) |
| Router.DrawMeaning | src/game/mainScene.js:543-570 | a link is committed exactly when the press is on another port and the polyline materialises; a waypoint is added exactly when the segment from the last point passes and the tile is new; nothing else changes |
| Router.DropLast | src/game/mainScene.js:573-576 | while drawing, a right press drops the last waypoint; otherwise nothing changes |
| Router.RightUndoesAdd | src/game/mainScene.js:564-576 | dropping a waypoint just added gives back the drawing |
| Router.EraseAt | src/game/mainScene.js:839-840 | `splice(index, 1)`: an index in range removes that entry and shifts the later ones down; an index past the end removes nothing |
| Router.EraseAtRemovesOne | src/game/mainScene.js:839-840 | a splice removes exactly one element |
| Router.Erase | src/game/mainScene.js:846-852 | erasing a hit removes it from its own list and re-validates that list; the other list is untouched |
| Router.DispatchAsWritten | src/game/mainScene.js:580-587 | both press handlers run on every press, the click handler first |
| Router.RightPressAsWrittenKeepsWaypoints | src/game/mainScene.js:564-585 | as written, a right press on bare ground that the click handler accepts leaves the waypoints as they were |
| Router.RightPressExample | src/game/mainScene.js:564-585 | concrete drawing where the program keeps the waypoint a right press should remove |
| Router.Click | src/game/mainScene.js:536-571 | a press never touches the eraser flag (the drawing part is Router.DrawMeaning, the erasing part Router.Erase) |
| Router.Dispatch | src/game/mainScene.js:573-576 | a right press only runs the right-button handler |
| Router.RightPressPops | src/game/mainScene.js:573-576 | with the intended dispatch a right press drops exactly the last waypoint |
| Router.EraserClick | src/game/mainScene.js:833-844 | off, over the tool bar or with nothing near: nothing changes |
| Router.EraserClickRemovesOne | src/game/mainScene.js:833-844 | a hit removes exactly one link from its own list and leaves the other list and both drawings alone |
| Router.Activate | src/game/mainScene.js:580-587 | turning a router on keeps its links and its drawing |
| Router.Deactivate | src/game/mainScene.js:588-597 | turning a router off clears its drawing and keeps its links; off again changes nothing |
| Router.SetTool | src/game/mainScene.js:196-204 | exactly the chosen drawing tool or the eraser is on, and both link lists are kept |
| Router.SetToolStartsClean | src/game/mainScene.js:196-204 | a router that a tool switch turns on starts with no port and no waypoints |
| Router.PressKeepsTidy | src/game/mainScene.js:536-585 | every press keeps idle routers without a drawing and every link on existing habitats |

## Left out

- Rendering is not modelled: graphics, labels, tweens, alerts, cursors, the HUD, the height palette, the grid overlay and the tool bar. Only their effect on the model state is kept.
- Preview handlers are not modelled. They only draw.
- Pointer positions arrive as tiles. Pixel snapping and `Math.floor(worldX / tile)` are the identity on tile integers.
- The scene's tile size `tilePx` (`src/game/mainScene.js:76`, user-settable) is assumed equal to `TILE_PX`. The house renderer places and sizes containers with `TILE_PX` (`src/game/houseRenderer.js:6-12`). The move drop, module placement, ports, the module layer's `houseTiles` and the corridor router divide by `tilePx` (`src/game/mainScene.js:268-270`, `:345-346`, `:367-387`, `src/game/modules/moduleLayer.js:13-21`, `src/game/corridors.js:14-33`). With `tilePx` = 16 the module layer sees a house of 2w x 2h tiles, and port and drop tiles double. None of that is modelled.
- Derivation.Config, Derivation.RandomAssign: the form's crew size, people per habitat and habitat count are assumed to be integers. `src/components/LiveControls.jsx:27-37` passes them through `Number(...)` with no integer check, and `src/Game.jsx:26-35` uses them as they are. With a fractional capacity or crew, `randomAssign` (`src/Game.jsx:77-98`) overfills: crew 4.5, capacity 2.5 and 2 habitats end as 3 and 2, above both the crew and the capacity. With a fractional habitat count above what the crew needs (2.5, say), `new Array(habitats)` throws a RangeError. The model's integer fields rule out both.
- Crew.SetHumans and Placement.SceneCount: integer inputs are assumed to be below 2^31. The program's `x | 0` (`src/game/mainScene.js:18`, `:305`) wraps to a 32-bit signed integer, so a prompt entry of 3000000000 becomes -1294967296 and sets 0 people, where the model clamps it to the capacity. For `clampInt` the wrapped value is still clamped into [1, 200], so `Placement.SceneCount`'s contract holds either way.
- `Math.sqrt` is modelled by exact integer floor and ceiling square roots. These agree with the floating-point ones for every realistic habitat count and tile area.
- JavaScript floating-point numbers are modelled as reals. This covers the 0.05 slope factor, the 0.5 overlap share, the 0.02 stowage rate and the 0.1 m² deficit tolerance.
- `Math.random` in the crew assignment becomes a shuffle parameter. `RandomAssign` is proved for every shuffle, which is more general than any particular random run.
- The viewport size that sets the minimum world size is a parameter.
- Module ids, built from the clock and randomness, are a parameter.
- `bestRectForArea` (`src/game/layoutCalc.js:12-28`) is not modelled. Nothing in the derivation calls it.
- `applyHouseSize` (`src/game/resizeKeepArea.js:4-39`) is not modelled as a separate step. Besides the graphics it sets the container's size, and the module layer reads the house size from that container. So `ModuleLayer.OnUpdate` also runs with every drag preview's size and with the rolled-back size, not only with committed sizes. The model keeps `OnUpdate` as an operation on a given house size and does not wire it to the resize gesture. `OnUpdate` does not preserve `ModuleLayer.Placed`, and a squeeze is never undone when the house grows back (`ModuleLayer.ShrinkBreaksPlaced`). A rejected or rolled-back resize can therefore leave modules shrunk, moved, or overlapping by more than half.
- `heightToColor` is not modelled. It is colour only.
- The eraser's nearest-link search (`_pickNearestLink` and its point-to-segment distance in pixels) is abstracted as the press's `near` field. That field names the hit link.
- The port hit test `_pickPortAt` is abstracted as the press's `port` field. The floor of each port rectangle's centre is computed exactly by `Router.PortCenter`.
- The tool-bar hit test `isOverUI` is abstracted as a flag on the press.
- The corridor router in `src/game/corridors.js` records the start habitat by object identity. The model records its index in the habitat list.
- The press over a habitat is an index too. A press in several bounds picks the first habitat, as `find` does.
- The corridor router's redraw is not modelled. It only draws.
- `list()` in `src/game/modules/moduleLayer.js:224` is not modelled as a separate operation. It copies the module fields and so is the identity on the model's modules.
- The module layer's keyboard listener is registered once per house and reacts only when that house has a selection. The model applies it to one house's layer.
- `Derivation.ExactTiles` and `Derivation.Derive` require a positive tile size (`tileMeters`). With 0 the program divides by zero and goes on with `Infinity`; the value comes from the configuration and is not edited in the interface.
- Placement.TerrainOKMeaning: proved for a non-negative tile size. A negative tile size makes the limit negative, and the rule then refuses even a flat rectangle.
- The issues report's text lines are modelled as datatypes. The problem flag is modelled from which lines the program's pattern matches. The excess-crew line uses a different word and is not matched.
- Habitat containers, Phaser drag events and the physics world are not modelled. A move or resize is a function from the old scene to the new one.

## Findings

| source | as written | input that shows it | evidently intended | confidence | as-written member | corrected member |
|---|---|---|---|---|---|---|
| src/game/resizeKeepArea.js:254-317 | `preview` is declared once per habitat and never cleared, so `dragend` commits the last preview of any earlier gesture when no `drag` event fired in this one, without re-checking the grid | habitats at (0,0) and (6,0), 3 x 3 each; an earlier gesture on the first left an accepted preview at (6,0); the user clicks a handle without moving | each gesture commits only a preview judged during that gesture | medium, not executed (depends on the drag threshold letting `dragstart`/`dragend` fire without `drag`) | Resize.ResizeGestureAsWritten, Resize.StalePreviewOverlaps | Resize.ResizeGesture, Resize.ResizeGestureSound |
| src/game/mainScene.js:584-585 | both the click handler and the right-button handler listen to `pointerdown`, so a right press on bare ground first adds its tile as a waypoint and then pops it again; the same registration at 731-732 affects paths | corridor drawn from the bottom port of a 2 x 2 habitat at (0,0), one waypoint at (1,3), flat ground, right press at (2,3): the waypoint stays | a right press removes the last waypoint and does nothing else | high, not executed | Router.DispatchAsWritten, Router.RightPressExample | Router.Dispatch, Router.RightPressPops |
| src/game/corridors.js:216-217 | `activate` registers both `onClick` and `onRight` for `pointerdown`, and `onClick` does not check the button, so a right press on bare ground first adds its tile as a waypoint and then pops it again | corridor in progress with waypoints `wps`, right press on a bare tile that an elbow reaches from the last waypoint and that differs from it: the state is unchanged | a right press removes the last waypoint and does nothing else | medium, not executed (nothing among the modelled files calls this router's `activate`) | Corridors.DispatchAsWritten, Corridors.RightPressAsWrittenKeepsWaypoints | Corridors.Dispatch |

=== FILE: catalog.dfy ===
/** The catalog of habitat module kinds: base area, per-crew area,
    zoning and the kinds each one should not sit next to. Areas are in
    square metres. */
module Catalog {
  import opened Common

  datatype Kind = Galley | Sleep | Sport | Hygiene | Wcs | Med | Stowage | Maintenance | Eclss | Cmd

  datatype Zoning = Clean | Dirty

  /** The per-crew area: a constant, or a rate applied to the mission
      length in days. */
  datatype PerCrew = Fixed(amount: real) | PerDay(rate: real)

  datatype ModuleSpec = ModuleSpec(
    short: string,
    baseArea: real,
    perCrew: PerCrew,
    zoning: Zoning,
    avoidNear: Option<seq<Kind>>)

  /** The catalog's declaration order, which every report follows. */
  const Order: seq<Kind> := [Galley, Sleep, Sport, Hygiene, Wcs, Med, Stowage, Maintenance, Eclss, Cmd]

  /** Position of a kind in the declaration order. */
  function IndexOf(k: Kind): (i: nat)
    ensures i < |Order| && Order[i] == k
  {
    match k
    case Galley => 0
    case Sleep => 1
    case Sport => 2
    case Hygiene => 3
    case Wcs => 4
    case Med => 5
    case Stowage => 6
    case Maintenance => 7
    case Eclss => 8
    case Cmd => 9
  }

  /** The order lists each of the ten kinds exactly once. */
  lemma OrderIsEnumeration()
    ensures |Order| == 10
    ensures forall i, j :: 0 <= i < j < |Order| ==> Order[i] != Order[j]
    ensures forall k: Kind :: k in Order
  {
    forall k: Kind ensures k in Order {
      var i := IndexOf(k);
    }
  }

  function Spec(k: Kind): (s: ModuleSpec)
    ensures s.baseArea > 0.0
    ensures s.perCrew.PerDay? <==> k == Stowage
    ensures s.perCrew.Fixed? ==> s.perCrew.amount >= 0.0
    ensures s.perCrew.PerDay? ==> s.perCrew.rate > 0.0
    ensures s.avoidNear.None? <==> k == Stowage || k == Cmd
    ensures s.avoidNear.Some? ==> k !in s.avoidNear.value
    ensures s.zoning == Clean <==> k in {Galley, Sleep, Med, Cmd}
  {
    match k
    case Galley => ModuleSpec("GLY", 6.0, Fixed(1.0), Clean, Some([Sport, Hygiene, Wcs]))
    case Sleep => ModuleSpec("SLP", 2.0, Fixed(2.5), Clean, Some([Sport, Maintenance]))
    case Sport => ModuleSpec("SPT", 6.0, Fixed(1.2), Dirty, Some([Sleep]))
    case Hygiene => ModuleSpec("HYG", 3.0, Fixed(0.6), Dirty, Some([Galley]))
    case Wcs => ModuleSpec("WCS", 2.0, Fixed(0.5), Dirty, Some([Galley, Sleep]))
    case Med => ModuleSpec("MED", 4.0, Fixed(0.5), Clean, Some([Sport]))
    case Stowage => ModuleSpec("STW", 6.0, PerDay(0.02), Dirty, None)
    case Maintenance => ModuleSpec("MNT", 4.0, Fixed(0.4), Dirty, Some([Sleep]))
    case Eclss => ModuleSpec("ECS", 4.0, Fixed(0.3), Dirty, Some([Sleep]))
    case Cmd => ModuleSpec("CMD", 5.0, Fixed(1.0), Clean, None)
  }

  /** The per-crew area for a mission of `days` days. */
  function PerCrewArea(p: PerCrew, days: real): real
  {
    match p
    case Fixed(a) => a
    case PerDay(r) => r * days
  }

  /** Stowage needs 0.02 square metres per crew member per mission day;
      every other kind's per-crew area ignores the mission length. */
  lemma PerCrewAreaOfKind(k: Kind, days: real)
    ensures k == Stowage ==> PerCrewArea(Spec(k).perCrew, days) == 0.02 * days
    ensures k != Stowage ==> PerCrewArea(Spec(k).perCrew, days) == PerCrewArea(Spec(k).perCrew, 0.0) >= 0.0
  {
  }

  /** Every catalog per-crew area is non-negative for a non-negative
      mission length and grows with it. */
  lemma PerCrewAreaMonotone(k: Kind, d1: real, d2: real)
    requires 0.0 <= d1 <= d2
    ensures 0.0 <= PerCrewArea(Spec(k).perCrew, d1) <= PerCrewArea(Spec(k).perCrew, d2)
  {
  }
}

=== FILE: common.dfy ===
/** Shared vocabulary of the layout engine: optional values, tile points and
    rectangles, the two clamp flavours the program uses, integer rounding
    helpers and exact integer square roots. */
module Common {

  datatype Option<+T> = None | Some(value: T)

  /** A tile coordinate. */
  datatype Point = Point(x: int, y: int)

  /** A width and height in tiles. */
  datatype Size = Size(w: int, h: int)

  /** A tile rectangle: origin (top-left) and size, all in tiles. */
  datatype Rect = Rect(ox: int, oy: int, w: int, h: int)

  predicate InRect(r: Rect, x: int, y: int)
  {
    r.ox <= x < r.ox + r.w && r.oy <= y < r.oy + r.h
  }

  /** Two rectangles that share no tile. */
  predicate Disjoint(a: Rect, b: Rect)
  {
    a.ox + a.w <= b.ox || b.ox + b.w <= a.ox || a.oy + a.h <= b.oy || b.oy + b.h <= a.oy
  }

  lemma DisjointNoCommonTile(a: Rect, b: Rect, x: int, y: int)
    requires Disjoint(a, b)
    ensures !(InRect(a, x, y) && InRect(b, x, y))
  {
  }

  /** `Math.ceil(x)` on an exact rational. */
  function Ceil(x: real): (r: int)
    ensures x <= r as real < x + 1.0
  {
    -((-x).Floor)
  }

  function Max(a: int, b: int): int { if a >= b then a else b }
  function Min(a: int, b: int): int { if a <= b then a else b }
  function Abs(a: int): int { if a >= 0 then a else -a }
  function RAbs(a: real): real { if a >= 0.0 then a else -a }

  /** `Math.max(lo, Math.min(hi, v))`: when the bounds cross, `lo` wins.
      This is Phaser's clamp, the scene's `clampInt` and the terrain clamp. */
  function ClampLo(v: int, lo: int, hi: int): (r: int)
    ensures lo <= hi ==> lo <= r <= hi
    ensures lo <= v <= hi ==> r == v
    ensures hi < lo ==> r == lo
  {
    Max(lo, Min(hi, v))
  }

  /** `Math.min(hi, Math.max(lo, v))`: when the bounds cross, `hi` wins.
      This is the clamp of the module layer. */
  function ClampHi(v: int, lo: int, hi: int): (r: int)
    ensures lo <= hi ==> lo <= r <= hi
    ensures lo <= v <= hi ==> r == v
    ensures hi < lo ==> r == hi
  {
    Min(hi, Max(lo, v))
  }

  /** `Math.ceil(a / b)` for a positive divisor. */
  function CeilDiv(a: int, b: int): (r: int)
    requires b > 0
    ensures b * (r - 1) < a <= b * r
  {
    (a + b - 1) / b
  }

  /** `Math.floor(a / b)` for a positive divisor (Dafny's division is
      Euclidean, which agrees with floor when the divisor is positive). */
  function FloorDiv(a: int, b: int): (r: int)
    requires b > 0
    ensures b * r <= a < b * (r + 1)
  {
    a / b
  }

  /** `Math.round(x)`: rounds half up. */
  function Round(x: real): (r: int)
    ensures r as real <= x + 0.5 < r as real + 1.0
  {
    (x + 0.5).Floor
  }

  /** Smallest `s` with `s * s >= n`, found by counting up from `k`. */
  function CeilSqrtFrom(n: nat, k: nat): (s: nat)
    requires k == 0 || (k - 1) * (k - 1) < n
    ensures s * s >= n
    ensures s == 0 || (s - 1) * (s - 1) < n
    decreases n - k
  {
    if k * k >= n then k
    else
      assert k <= k * k || k == 0;
      CeilSqrtFrom(n, k + 1)
  }

  /** `Math.ceil(Math.sqrt(n))` over exact integers. */
  function CeilSqrt(n: nat): (s: nat)
    ensures s * s >= n
    ensures s == 0 || (s - 1) * (s - 1) < n
  {
    CeilSqrtFrom(n, 0)
  }

  /** Largest `s` with `s * s <= n`, found by counting up from `k`. */
  function FloorSqrtFrom(n: nat, k: nat): (s: nat)
    requires k * k <= n
    ensures s * s <= n < (s + 1) * (s + 1)
    decreases n - k
  {
    if (k + 1) * (k + 1) > n then k
    else
      assert k < (k + 1) * (k + 1);
      FloorSqrtFrom(n, k + 1)
  }

  /** `Math.floor(Math.sqrt(n))` over exact integers. */
  function FloorSqrt(n: nat): (s: nat)
    ensures s * s <= n < (s + 1) * (s + 1)
  {
    FloorSqrtFrom(n, 0)
  }

  function Sum(s: seq<int>): int
  {
    if |s| == 0 then 0 else Sum(s[..|s| - 1]) + s[|s| - 1]
  }

  /** Replacing one entry changes the sum by the difference. */
  lemma {:induction false} SumUpdate(s: seq<int>, i: nat, v: int)
    requires i < |s|
    ensures Sum(s[i := v]) == Sum(s) - s[i] + v
    decreases |s|
  {
    if i == |s| - 1 {
      assert s[i := v][..|s| - 1] == s[..|s| - 1];
    } else {
      assert s[i := v][..|s| - 1] == s[..|s| - 1][i := v];
      SumUpdate(s[..|s| - 1], i, v);
    }
  }

  /** A sum of entries each at most `c` is at most `c` times the length. */
  lemma {:induction false} SumBounded(s: seq<int>, c: int)
    requires forall i :: 0 <= i < |s| ==> s[i] <= c
    ensures Sum(s) <= c * |s|
    decreases |s|
  {
    if |s| > 0 {
      SumBounded(s[..|s| - 1], c);
    }
  }

  /** A sum of entries all equal to `c` is `c` times the length. */
  lemma {:induction false} SumConst(s: seq<int>, c: int)
    requires forall i :: 0 <= i < |s| ==> s[i] == c
    ensures Sum(s) == c * |s|
    decreases |s|
  {
    if |s| > 0 {
      SumConst(s[..|s| - 1], c);
    }
  }

  /** A sum of non-negative entries is non-negative. */
  lemma {:induction false} SumNonNeg(s: seq<int>)
    requires forall i :: 0 <= i < |s| ==> s[i] >= 0
    ensures Sum(s) >= 0
    decreases |s|
  {
    if |s| > 0 {
      SumNonNeg(s[..|s| - 1]);
    }
  }

  /** With non-negative entries, each entry is at most the sum. */
  lemma SumAtLeast(s: seq<int>, i: nat)
    requires forall k :: 0 <= k < |s| ==> s[k] >= 0
    requires i < |s|
    ensures Sum(s) >= s[i]
  {
    SumUpdate(s, i, 0);
    SumNonNeg(s[i := 0]);
  }

  /** With non-negative entries, two distinct entries together are at most the sum. */
  lemma SumAtLeastTwo(s: seq<int>, i: nat, j: nat)
    requires forall k :: 0 <= k < |s| ==> s[k] >= 0
    requires i < |s| && j < |s| && i != j
    ensures Sum(s) >= s[i] + s[j]
  {
    SumUpdate(s, i, 0);
    SumAtLeast(s[i := 0], j);
  }

  /** Euclidean division recovers quotient and remainder. */
  lemma DivModOf(q: int, j: int, cols: int)
    requires cols > 0 && 0 <= j < cols
    ensures (q * cols + j) / cols == q && (q * cols + j) % cols == j
  {
    var k := q * cols + j;
    var q', j' := k / cols, k % cols;
    assert k == q' * cols + j' && 0 <= j' < cols;
    assert (q - q') * cols == q * cols - q' * cols;
    assert (q - q') * cols == j' - j;
    if q > q' {
      MulLe(1, q - q', cols);
    } else if q < q' {
      MulLe(1, q' - q, cols);
    }
  }

  /** Multiplying by a non-negative factor keeps the order. */
  lemma MulLe(a: int, b: int, c: int)
    requires a <= b && c >= 0
    ensures a * c <= b * c
  {
    assert b * c - a * c == (b - a) * c;
  }
}

=== FILE: corridors.dfy ===
/** The orthogonal corridor router: corridors run from the middle of one
    habitat's bottom edge to another's, through user-placed waypoints,
    each leg an L of two axis-aligned runs whose every tile step is within
    the walking-slope limit. */
module Corridors {
  import opened Common
  import opened Terrain
  import opened Steps
  import Placement

  /** The tiles of an axis-aligned run, from its lower end to its upper end. */
  function AxisTiles(a: Point, b: Point): (ts: seq<Point>)
    requires a.x == b.x || a.y == b.y
  {
    if a.x == b.x then
      var y0 := Min(a.y, b.y);
      seq(Max(a.y, b.y) - y0 + 1, k => Point(a.x, y0 + k))
    else
      var x0 := Min(a.x, b.x);
      seq(Max(a.x, b.x) - x0 + 1, k => Point(x0 + k, a.y))
  }

  /** The vertical scan: tile (x, y) against (x, y - 1) for y up to `y1`. */
  function ColumnFrom(m: HeightMap, limit: real, x: int, y: int, y1: int): (ok: bool)
    ensures ok <==> forall t :: y <= t <= y1 ==> StepOK(m, limit, Point(x, t - 1), Point(x, t))
    decreases y1 - y + 1
  {
    if y > y1 then true
    else if !StepOK(m, limit, Point(x, y - 1), Point(x, y)) then false
    else ColumnFrom(m, limit, x, y + 1, y1)
  }

  /** The horizontal scan: tile (x, y) against (x - 1, y) for x up to `x1`. */
  function RowFrom(m: HeightMap, limit: real, y: int, x: int, x1: int): (ok: bool)
    ensures ok <==> forall t :: x <= t <= x1 ==> StepOK(m, limit, Point(t - 1, y), Point(t, y))
    decreases x1 - x + 1
  {
    if x > x1 then true
    else if !StepOK(m, limit, Point(x - 1, y), Point(x, y)) then false
    else RowFrom(m, limit, y, x + 1, x1)
  }

  /** `axisSegmentOK`: a run is acceptable when it is axis-aligned and no
      step along it is too steep. A single tile is a vertical run. */
  function AxisSegmentOK(m: HeightMap, limit: real, a: Point, b: Point): (ok: bool)
    ensures a.x != b.x && a.y != b.y ==> !ok
  {
    if a.x != b.x && a.y != b.y then false
    else if a.x == b.x then ColumnFrom(m, limit, a.x, Min(a.y, b.y) + 1, Max(a.y, b.y))
    else RowFrom(m, limit, a.y, Min(a.x, b.x) + 1, Max(a.x, b.x))
  }

  /** A run passes exactly when it is axis-aligned and its tiles, in order,
      form a walkable sequence. */
  lemma AxisSegmentOKMeaning(m: HeightMap, limit: real, a: Point, b: Point)
    ensures AxisSegmentOK(m, limit, a, b) <==> (a.x == b.x || a.y == b.y) && Walkable(m, limit, AxisTiles(a, b))
  {
    if a.x == b.x {
      var ts := AxisTiles(a, b);
      var y0 := Min(a.y, b.y);
      if AxisSegmentOK(m, limit, a, b) {
        forall i | 1 <= i < |ts| ensures StepOK(m, limit, ts[i - 1], ts[i]) {
          assert ts[i - 1] == Point(a.x, (y0 + i) - 1) && ts[i] == Point(a.x, y0 + i);
        }
      }
      if Walkable(m, limit, ts) {
        forall t | y0 + 1 <= t <= Max(a.y, b.y) ensures StepOK(m, limit, Point(a.x, t - 1), Point(a.x, t)) {
          var i := t - y0;
          assert ts[i - 1] == Point(a.x, t - 1) && ts[i] == Point(a.x, t);
        }
      }
    } else if a.y == b.y {
      var ts := AxisTiles(a, b);
      var x0 := Min(a.x, b.x);
      if AxisSegmentOK(m, limit, a, b) {
        forall i | 1 <= i < |ts| ensures StepOK(m, limit, ts[i - 1], ts[i]) {
          assert ts[i - 1] == Point((x0 + i) - 1, a.y) && ts[i] == Point(x0 + i, a.y);
        }
      }
      if Walkable(m, limit, ts) {
        forall t | x0 + 1 <= t <= Max(a.x, b.x) ensures StepOK(m, limit, Point(t - 1, a.y), Point(t, a.y)) {
          var i := t - x0;
          assert ts[i - 1] == Point(t - 1, a.y) && ts[i] == Point(t, a.y);
        }
      }
    }
  }

  /** The run check does not depend on which end is which. */
  lemma AxisSegmentOKSymmetric(m: HeightMap, limit: real, a: Point, b: Point)
    ensures AxisSegmentOK(m, limit, a, b) == AxisSegmentOK(m, limit, b, a)
  {
  }

  /** `tryElbow`: an L from `a` to `b` turning at (b.x, a.y) if both of
      its runs pass, otherwise at (a.x, b.y) if both of those pass,
      otherwise none. */
  function TryElbow(m: HeightMap, limit: real, a: Point, b: Point): (r: Option<seq<Point>>)
    ensures var p1 := Point(b.x, a.y); var p2 := Point(a.x, b.y);
      var ok1 := AxisSegmentOK(m, limit, a, p1) && AxisSegmentOK(m, limit, p1, b);
      var ok2 := AxisSegmentOK(m, limit, a, p2) && AxisSegmentOK(m, limit, p2, b);
      (r.None? <==> !ok1 && !ok2) &&
      (ok1 ==> r == Some([a, p1, b])) &&
      (!ok1 && ok2 ==> r == Some([a, p2, b]))
  {
    var p1 := Point(b.x, a.y);
    if AxisSegmentOK(m, limit, a, p1) && AxisSegmentOK(m, limit, p1, b) then Some([a, p1, b])
    else
      var p2 := Point(a.x, b.y);
      if AxisSegmentOK(m, limit, a, p2) && AxisSegmentOK(m, limit, p2, b) then Some([a, p2, b])
      else None
  }

  /** Every pair of consecutive points of `pts` is an acceptable run. */
  predicate Chained(m: HeightMap, limit: real, pts: seq<Point>)
  {
    forall i :: 1 <= i < |pts| ==> AxisSegmentOK(m, limit, pts[i - 1], pts[i])
  }

  /** An elbow found is an L of two acceptable runs from `a` to `b`, and
      each run is axis-aligned and walkable tile by tile. */
  lemma TryElbowSound(m: HeightMap, limit: real, a: Point, b: Point)
    requires TryElbow(m, limit, a, b).Some?
    ensures var e := TryElbow(m, limit, a, b).value;
      |e| == 3 && e[0] == a && e[2] == b && Chained(m, limit, e) &&
      (e[1].x == a.x || e[1].y == a.y) && (e[1].x == b.x || e[1].y == b.y) &&
      Walkable(m, limit, AxisTiles(a, e[1])) && Walkable(m, limit, AxisTiles(e[1], b))
  {
    var e := TryElbow(m, limit, a, b).value;
    AxisSegmentOKMeaning(m, limit, a, e[1]);
    AxisSegmentOKMeaning(m, limit, e[1], b);
  }

  /** The point a leg starts from: the path's start for the first leg,
      the previous target afterwards. */
  function From(a: Point, ts: seq<Point>, k: int): Point
    requires 0 <= k <= |ts|
  {
    if k == 0 then a else ts[k - 1]
  }

  /** The leg loop of `buildPath`: for every target, the elbow from the
      current point without its first point, stopping at the first leg
      with no elbow. */
  function Legs(m: HeightMap, limit: real, cur: Point, ts: seq<Point>): Option<seq<Point>>
    decreases |ts|
  {
    if |ts| == 0 then Some([])
    else
      match TryElbow(m, limit, cur, ts[0])
      case None => None
      case Some(e) =>
        match Legs(m, limit, ts[0], ts[1..])
        case None => None
        case Some(rest) => Some(e[1..] + rest)
  }

  /** `pts` starts at `a` and passes every target, in order, at every
      second point. */
  predicate Visits(pts: seq<Point>, a: Point, ts: seq<Point>)
  {
    |pts| == 1 + 2 * |ts| && pts[0] == a &&
    forall k :: 0 <= k < |ts| ==> pts[2 * k + 2] == ts[k]
  }

  /** The leg loop fails exactly when some leg has no elbow. */
  lemma {:induction false} LegsFail(m: HeightMap, limit: real, cur: Point, ts: seq<Point>)
    ensures Legs(m, limit, cur, ts).None? <==>
      exists k :: 0 <= k < |ts| && TryElbow(m, limit, From(cur, ts, k), ts[k]).None?
    decreases |ts|
  {
    if |ts| > 0 {
      var t := ts[0];
      var tail := ts[1..];
      LegsFail(m, limit, t, tail);
      if TryElbow(m, limit, cur, t).None? {
        assert TryElbow(m, limit, From(cur, ts, 0), ts[0]).None?;
      } else if Legs(m, limit, t, tail).None? {
        var j :| 0 <= j < |tail| && TryElbow(m, limit, From(t, tail, j), tail[j]).None?;
        assert From(t, tail, j) == From(cur, ts, j + 1) && tail[j] == ts[j + 1];
      } else {
        forall k | 0 <= k < |ts| ensures TryElbow(m, limit, From(cur, ts, k), ts[k]).Some? {
          if k > 0 {
            assert From(t, tail, k - 1) == From(cur, ts, k) && tail[k - 1] == ts[k];
            assert TryElbow(m, limit, From(t, tail, k - 1), tail[k - 1]).Some?;
          }
        }
      }
    }
  }

  /** A route the leg loop finds starts at the current point, visits every
      target in order, and every run of it passes. */
  lemma {:induction false} LegsRoute(m: HeightMap, limit: real, cur: Point, ts: seq<Point>)
    requires Legs(m, limit, cur, ts).Some?
    ensures Visits([cur] + Legs(m, limit, cur, ts).value, cur, ts)
    ensures Chained(m, limit, [cur] + Legs(m, limit, cur, ts).value)
    decreases |ts|
  {
    if |ts| > 0 {
      var t := ts[0];
      var tail := ts[1..];
      var e := TryElbow(m, limit, cur, t).value;
      TryElbowSound(m, limit, cur, t);
      LegsRoute(m, limit, t, tail);
      var rest := Legs(m, limit, t, tail).value;
      var pts := [cur] + (e[1..] + rest);
      var sub := [t] + rest;
      assert pts == [cur, e[1]] + sub;
      forall k | 0 <= k < |ts| ensures pts[2 * k + 2] == ts[k] {
        if k > 0 {
          assert pts[2 * k + 2] == sub[2 * (k - 1) + 2];
          assert tail[k - 1] == ts[k];
        }
      }
      forall i | 1 <= i < |pts| ensures AxisSegmentOK(m, limit, pts[i - 1], pts[i]) {
        if i >= 3 {
          assert pts[i - 1] == sub[i - 3] && pts[i] == sub[i - 2];
        } else if i == 1 {
          assert pts[0] == e[0] && pts[1] == e[1];
        } else {
          assert pts[1] == e[1] && pts[2] == e[2];
        }
      }
    }
  }

  /** `buildPath`: the start, then the legs through every waypoint and on
      to the end, or none when some leg has no elbow. */
  function BuildPath(m: HeightMap, limit: real, a: Point, wps: seq<Point>, b: Point): Option<seq<Point>>
  {
    match Legs(m, limit, a, wps + [b])
    case None => None
    case Some(rest) => Some([a] + rest)
  }

  /** A built path starts at `a`, passes the waypoints in order, ends at
      `b`, has two points per leg after the first, and every run of it is
      axis-aligned and within the slope limit; there is no path exactly
      when one leg has no elbow. */
  lemma BuildPathMeaning(m: HeightMap, limit: real, a: Point, wps: seq<Point>, b: Point)
    ensures var ts := wps + [b];
      BuildPath(m, limit, a, wps, b).None? <==>
      exists k :: 0 <= k < |ts| && TryElbow(m, limit, From(a, ts, k), ts[k]).None?
    ensures BuildPath(m, limit, a, wps, b).Some? ==>
      var p := BuildPath(m, limit, a, wps, b).value;
      |p| == 1 + 2 * (|wps| + 1) && p[0] == a && p[|p| - 1] == b &&
      (forall k :: 0 <= k < |wps| ==> p[2 * k + 2] == wps[k]) &&
      Chained(m, limit, p)
  {
    var ts := wps + [b];
    LegsFail(m, limit, a, ts);
    if BuildPath(m, limit, a, wps, b).Some? {
      LegsRoute(m, limit, a, ts);
      var p := BuildPath(m, limit, a, wps, b).value;
      assert p[2 * |wps| + 2] == ts[|wps|];
      forall k | 0 <= k < |wps| ensures p[2 * k + 2] == wps[k] {
        assert ts[k] == wps[k];
      }
    }
  }

  /** `midBottomTile`: the tile just below the middle of a habitat's
      bottom edge. */
  function MidBottom(hb: Placement.Habitat): Point
  {
    Point(hb.origin.x + hb.w / 2, hb.origin.y + hb.h)
  }

  /** A committed corridor: the two habitats' indices and the waypoints
      it was drawn through. */
  datatype Corridor = Corridor(aIdx: nat, bIdx: nat, waypoints: seq<Point>)

  /** The router state: whether the tool is on, the habitat a corridor is
      being drawn from, the waypoints placed so far, and the corridors. */
  datatype State = State(active: bool, start: Option<nat>, wps: seq<Point>, list: seq<Corridor>)

  /** A pointer press: whether it is over the tool bar, the habitat under
      it (the first in the list whose bounds contain it), its tile, and
      whether the right button is down. */
  datatype Press = Press(overUI: bool, house: Option<nat>, tile: Point, right: bool)

  /** The habitats the state and the press refer to exist. */
  predicate Refers(s: State, p: Press, n: nat)
  {
    (s.start.Some? ==> s.start.value < n) && (p.house.Some? ==> p.house.value < n)
  }

  /** `onClick`. Off or over the tool bar: nothing. Not drawing: a press on
      a habitat starts a corridor there. Drawing, on another habitat:
      commit the corridor if a path exists, otherwise nothing. Drawing, on
      bare ground: add the tile as a waypoint if an elbow reaches it from
      the last waypoint (or from the start habitat) and it does not repeat
      the last waypoint. Drawing, on the start habitat: nothing. */
  function OnClick(s: State, houses: seq<Placement.Habitat>, m: HeightMap, limit: real, p: Press): (r: State)
    requires Refers(s, p, |houses|)
    ensures r.active == s.active
  {
    if !s.active || p.overUI then s
    else if s.start.None? then
      if p.house.None? then s else s.(start := p.house, wps := [])
    else if p.house.Some? && p.house != s.start then
      var a := MidBottom(houses[s.start.value]);
      var b := MidBottom(houses[p.house.value]);
      if BuildPath(m, limit, a, s.wps, b).None? then s
      else State(s.active, None, [], s.list + [Corridor(s.start.value, p.house.value, s.wps)])
    else if p.house.None? then
      var from := if |s.wps| > 0 then s.wps[|s.wps| - 1] else MidBottom(houses[s.start.value]);
      if TryElbow(m, limit, from, p.tile).None? then s
      else if |s.wps| == 0 || s.wps[|s.wps| - 1] != p.tile then s.(wps := s.wps + [p.tile])
      else s
    else s
  }

  /** What a press does to the corridor list and the drawing: a corridor
      is committed, and the drawing reset, exactly when the press lands on
      a habitat other than the start and a path exists through the
      waypoints; a waypoint is added exactly when the press is on bare
      ground, an elbow reaches it, and it does not repeat the last one;
      nothing else ever changes. */
  lemma OnClickMeaning(s: State, houses: seq<Placement.Habitat>, m: HeightMap, limit: real, p: Press)
    requires Refers(s, p, |houses|)
    ensures var r := OnClick(s, houses, m, limit, p);
      var drawing := s.active && !p.overUI && s.start.Some?;
      var commit := drawing && p.house.Some? && p.house != s.start &&
        BuildPath(m, limit, MidBottom(houses[s.start.value]), s.wps, MidBottom(houses[p.house.value])).Some?;
      var from := if |s.wps| > 0 then s.wps[|s.wps| - 1] else if s.start.Some? then MidBottom(houses[s.start.value]) else Point(0, 0);
      var add := drawing && p.house.None? && TryElbow(m, limit, from, p.tile).Some? &&
        (|s.wps| == 0 || s.wps[|s.wps| - 1] != p.tile);
      var begin := s.active && !p.overUI && s.start.None? && p.house.Some?;
      (commit <==> |r.list| == |s.list| + 1) &&
      (commit ==> r.list == s.list + [Corridor(s.start.value, p.house.value, s.wps)] && r.start.None? && r.wps == []) &&
      (add <==> r.wps == s.wps + [p.tile]) &&
      (begin ==> r.start == p.house && r.wps == [] && r.list == s.list) &&
      (!commit && !add && !begin ==> r == s)
  {
  }

  /** `onRight`: while drawing, a right press drops the last waypoint. */
  function OnRight(s: State, p: Press): (r: State)
    ensures s.active && s.start.Some? && p.right && |s.wps| > 0 ==> r == s.(wps := s.wps[..|s.wps| - 1])
    ensures !(s.active && s.start.Some? && p.right && |s.wps| > 0) ==> r == s
  {
    if !s.active || s.start.None? then s
    else if p.right then s.(wps := if |s.wps| > 0 then s.wps[..|s.wps| - 1] else [])
    else s
  }

  /** A press as `activate` registers the listeners: `onClick` and
      `onRight` both listen to the pointer-down event, in that order, and
      both run; `onClick` never looks at the button. */
  function DispatchAsWritten(s: State, houses: seq<Placement.Habitat>, m: HeightMap, limit: real, p: Press): (r: State)
    requires Refers(s, p, |houses|)
    ensures r.active == s.active && |r.list| >= |s.list|
  {
    OnRight(OnClick(s, houses, m, limit, p), p)
  }

  /** A press as evidently intended: a right press only drops the last
      waypoint, any other press is a click. */
  function Dispatch(s: State, houses: seq<Placement.Habitat>, m: HeightMap, limit: real, p: Press): (r: State)
    requires Refers(s, p, |houses|)
    ensures p.right && s.active && s.start.Some? && |s.wps| > 0 ==> r == s.(wps := s.wps[..|s.wps| - 1])
    ensures p.right ==> r.list == s.list && r.start == s.start
    ensures r.active == s.active
  {
    if p.right then OnRight(s, p) else OnClick(s, houses, m, limit, p)
  }

  /** As written, a right press on bare ground whose tile an elbow reaches
      from the last point, and which does not repeat the last waypoint,
      first adds that tile and then drops it again: the waypoint the press
      was meant to remove stays, and nothing else changes. */
  lemma RightPressAsWrittenKeepsWaypoints(s: State, houses: seq<Placement.Habitat>, m: HeightMap, limit: real, p: Press)
    requires Refers(s, p, |houses|)
    requires s.active && !p.overUI && p.right && p.house.None? && s.start.Some?
    requires var from := if |s.wps| > 0 then s.wps[|s.wps| - 1] else MidBottom(houses[s.start.value]);
      TryElbow(m, limit, from, p.tile).Some? && (|s.wps| == 0 || s.wps[|s.wps| - 1] != p.tile)
    ensures DispatchAsWritten(s, houses, m, limit, p) == s
  {
    OnClickMeaning(s, houses, m, limit, p);
    var r := OnClick(s, houses, m, limit, p);
    assert r == s.(wps := s.wps + [p.tile]);
    assert (s.wps + [p.tile])[..|s.wps|] == s.wps;
  }

  /** `activate`: turning the tool on starts with no drawing in progress;
      turning it on again does nothing. */
  function Activate(s: State): (r: State)
    ensures s.active ==> r == s
    ensures !s.active ==> r.active && r.start.None? && r.wps == [] && r.list == s.list
  {
    if s.active then s else State(true, None, [], s.list)
  }

  /** `deactivate`: turning the tool off drops the drawing in progress and
      keeps the corridors; turning it off again does nothing. */
  function Deactivate(s: State): (r: State)
    ensures !s.active ==> r == s
    ensures s.active ==> !r.active && r.start.None? && r.wps == [] && r.list == s.list
  {
    if !s.active then s else State(false, None, [], s.list)
  }

  /** Idle routers hold no drawing in progress, and every committed
      corridor joins two existing habitats. */
  predicate Tidy(s: State, n: nat)
  {
    (!s.active ==> s.start.None? && s.wps == []) &&
    (s.start.Some? ==> s.start.value < n) &&
    forall i :: 0 <= i < |s.list| ==> s.list[i].aIdx < n && s.list[i].bIdx < n
  }

  /** Every transition keeps the router tidy. */
  lemma TransitionsKeepTidy(s: State, houses: seq<Placement.Habitat>, m: HeightMap, limit: real, p: Press)
    requires Tidy(s, |houses|) && (p.house.Some? ==> p.house.value < |houses|)
    ensures Tidy(OnClick(s, houses, m, limit, p), |houses|)
    ensures Tidy(OnRight(s, p), |houses|)
    ensures Tidy(Activate(s), |houses|) && Tidy(Deactivate(s), |houses|)
  {
  }
}

=== FILE: crew.dfy ===
/** Crew headcounts per habitat: the scene's initial assignment and the
    edit request a habitat raises when its headcount is changed. */
module Crew {
  import opened Common

  /** The scene's assignment: the derived distribution cut or padded with
      zeros to exactly `count` habitats. */
  function InitialAssignment(a: seq<int>, count: nat): (r: seq<int>)
    ensures |r| == count
    ensures forall k :: 0 <= k < count ==> r[k] == (if k < |a| then a[k] else 0)
  {
    if |a| >= count then a[..count] else a + seq(count - |a|, _ => 0)
  }

  /** Padding with zeros keeps the total. */
  lemma InitialAssignmentSum(a: seq<int>, count: nat)
    requires |a| <= count
    ensures Sum(InitialAssignment(a, count)) == Sum(a)
    decreases count
  {
    if count > |a| {
      var r := InitialAssignment(a, count);
      assert r[..count - 1] == InitialAssignment(a, count - 1);
      InitialAssignmentSum(a, count - 1);
    } else {
      assert InitialAssignment(a, count) == a;
    }
  }

  /** The `reduce` of the edit handler: the total of all entries but `idx`. */
  function SumExcept(s: seq<int>, idx: int): int
    decreases |s|
  {
    if |s| == 0 then 0
    else SumExcept(s[..|s| - 1], idx) + (if idx == |s| - 1 then 0 else s[|s| - 1])
  }

  /** The total without one entry is the total minus that entry. */
  lemma {:induction false} SumExceptIsSumMinus(s: seq<int>, idx: int)
    requires 0 <= idx < |s|
    ensures SumExcept(s, idx) == Sum(s) - s[idx]
    decreases |s|
  {
    if idx == |s| - 1 {
      SumExceptSkipsNothing(s[..|s| - 1], idx);
    } else {
      SumExceptIsSumMinus(s[..|s| - 1], idx);
    }
  }

  /** An index past the end leaves out nothing. */
  lemma {:induction false} SumExceptSkipsNothing(s: seq<int>, idx: int)
    requires idx >= |s|
    ensures SumExcept(s, idx) == Sum(s)
    decreases |s|
  {
    if |s| > 0 {
      SumExceptSkipsNothing(s[..|s| - 1], idx);
    }
  }

  datatype EditOutcome = Unchanged | OverCapacity | OverCrew | Updated

  /** `requestSetHumans`: clamp the request to [0, capacity]; an unchanged
      value does nothing; a value above the capacity (possible only when
      the capacity is negative) or one that would push the total past the
      crew size is refused; otherwise only entry `idx` changes. */
  function SetHumans(assign: seq<int>, idx: int, newVal: int, capacity: int, crewSize: int): (r: (seq<int>, EditOutcome))
    requires 0 <= idx < |assign|
    ensures var v := ClampLo(newVal, 0, capacity);
      r.1 == Updated <==> v != assign[idx] && v <= capacity && Sum(assign) - assign[idx] + v <= crewSize
    ensures r.1 != Updated ==> r.0 == assign
    ensures r.1 == Updated ==>
      |r.0| == |assign| && 0 <= r.0[idx] <= capacity && Sum(r.0) <= crewSize &&
      (forall k :: 0 <= k < |assign| && k != idx ==> r.0[k] == assign[k])
    ensures r.1 == Updated ==> r.0 == assign[idx := ClampLo(newVal, 0, capacity)]
    ensures r.1 == Updated && 0 <= newVal <= capacity ==> r.0[idx] == newVal
    ensures r.1 == Updated && newVal > capacity ==> r.0[idx] == capacity
    ensures r.1 == Updated && newVal < 0 ==> r.0[idx] == 0
    ensures r.1 == OverCapacity <==> capacity < 0 && assign[idx] != 0
  {
    var v := Max(0, Min(capacity, newVal));
    if v == assign[idx] then (assign, Unchanged)
    else
      var newTotal := SumExcept(assign, idx) + v;
      SumExceptIsSumMinus(assign, idx);
      SumUpdate(assign, idx, v);
      if v > capacity then (assign, OverCapacity)
      else if newTotal > crewSize then (assign, OverCrew)
      else (assign[idx := v], Updated)
  }

  /** The headcount invariant: every entry within [0, capacity] and the
      total within the crew size. */
  predicate CrewValid(assign: seq<int>, capacity: int, crewSize: int)
  {
    (forall k :: 0 <= k < |assign| ==> 0 <= assign[k] <= capacity) && Sum(assign) <= crewSize
  }

  /** Every edit keeps the headcount invariant. */
  lemma SetHumansKeepsValid(assign: seq<int>, idx: int, newVal: int, capacity: int, crewSize: int)
    requires 0 <= idx < |assign| && CrewValid(assign, capacity, crewSize)
    ensures CrewValid(SetHumans(assign, idx, newVal, capacity, crewSize).0, capacity, crewSize)
  {
  }
}

=== FILE: derivation.dfy ===
/** Derivation of the session from the start-form configuration: habitat
    count, footprint in tiles, and the initial crew distribution. */
module Derivation {
  import opened Common

  /** Smallest side a habitat footprint may have, in tiles. */
  const MinTileSide: int := 3

  /** The form values the derivation reads. */
  datatype Config = Config(area: real, crewSize: int, humansPerHabitats: int,
                           overallHabitats: int, tileMeters: real)

  datatype Derived = Derived(moduleAreaM2: int, humansPerHabitat: int, habitatsCount: int,
                             exactTiles: int, wTiles: int, hTiles: int)

  /** Capacity of one habitat: at least 1 (an empty or zero field reads as 1). */
  function HumansPerHabitat(c: Config): (r: int)
    ensures r >= 1
    ensures c.humansPerHabitats >= 1 ==> r == c.humansPerHabitats
  {
    Max(1, c.humansPerHabitats)
  }

  /** Number of habitats: what the form asks for (at least 1), raised to what
      the crew needs at the given capacity. */
  function HabitatsCount(c: Config): (r: int)
    ensures r >= 1 && r >= c.overallHabitats
    ensures r * HumansPerHabitat(c) >= c.crewSize
    ensures r == Max(1, c.overallHabitats) || (r - 1) * HumansPerHabitat(c) < c.crewSize
  {
    var hpp := HumansPerHabitat(c);
    Max(Max(1, c.overallHabitats), CeilDiv(c.crewSize, hpp))
  }

  /** Floor area of one habitat in square metres: round(area * capacity), at least 1. */
  function ModuleAreaM2(c: Config): (r: int)
    ensures r >= 1
    ensures r > 1 ==> r as real - 0.5 <= c.area * HumansPerHabitat(c) as real < r as real + 0.5
  {
    Max(1, Round(c.area * HumansPerHabitat(c) as real))
  }

  /** The same area in tiles: round(m² / tileMeters²), at least 1. */
  function ExactTiles(c: Config): (r: int)
    requires c.tileMeters > 0.0
    ensures r >= 1
  {
    Max(1, Round(ModuleAreaM2(c) as real / (c.tileMeters * c.tileMeters)))
  }

  predicate IsFactorSize(n: int, minSide: int, a: int, b: int)
  {
    a >= minSide && b >= minSide && a * b == n
  }

  /** `a` is a side of a factor pair whose other side is long enough. */
  predicate Factor(n: int, minSide: int, a: int)
    requires a >= 1
  {
    a >= minSide && n % a == 0 && n / a >= minSide
  }

  /** A pair as `pickExactFactors` returns it: an exact factor pair with the
      shorter side first. */
  predicate GoodSize(n: int, minSide: int, p: Option<Size>)
  {
    p.Some? ==> IsFactorSize(n, minSide, p.value.w, p.value.h) && p.value.w <= p.value.h
  }

  function Delta(p: Size): int
  {
    Abs(p.w - p.h)
  }

  lemma SquareBelow(a: int, n: nat)
    requires a >= 0 && a * a <= n
    ensures a <= FloorSqrt(n)
  {
    var s := FloorSqrt(n);
    if a > s {
      MulLe(s + 1, a, s + 1);
      MulLe(s + 1, a, a);
    }
  }

  /** A side no larger than the floor square root has its square within `n`. */
  lemma SquareWithin(w: int, s: int, n: int)
    requires 0 <= w <= s && s * s <= n
    ensures w * w <= n
  {
    MulLe(w, s, w);
    MulLe(w, s, s);
  }

  /** A side whose square is within `n = w * h` is no longer than its partner. */
  lemma CofactorAtLeast(w: int, h: int, n: int)
    requires w >= 1 && w * h == n && w * w <= n
    ensures h >= w
  {
    if h < w {
      MulLe(h + 1, w, w);
    }
  }

  /** A divisor no larger than max(minSide, floor(sqrt(n))) is the shorter side. */
  lemma ShorterSide(n: int, minSide: int, w: int)
    requires n >= 1 && minSide >= 1 && minSide <= w <= Max(minSide, FloorSqrt(n))
    requires n % w == 0 && n / w >= minSide
    ensures IsFactorSize(n, minSide, w, n / w) && w <= n / w
  {
    var h := n / w;
    assert n == w * h;
    if w <= FloorSqrt(n) {
      SquareWithin(w, FloorSqrt(n), n);
      CofactorAtLeast(w, h, n);
    }
  }

  /** One iteration of `pickExactFactors`: width `w` replaces the best pair
      so far only when it divides `n` and is strictly closer to a square. */
  function Consider(n: int, minSide: int, w: int, best: Option<Size>): (b: Option<Size>)
    requires n >= 1 && minSide >= 1 && minSide <= w <= Max(minSide, FloorSqrt(n))
    requires GoodSize(n, minSide, best)
    ensures GoodSize(n, minSide, b)
    ensures best.Some? ==> b.Some? && Delta(b.value) <= Delta(best.value)
    ensures Factor(n, minSide, w) ==> b.Some? && Delta(b.value) <= Abs(w - n / w)
  {
    if n % w == 0 && n / w >= minSide && (best.None? || Abs(w - n / w) < Delta(best.value)) then
      ShorterSide(n, minSide, w);
      Some(Size(w, n / w))
    else best
  }

  /** The loop of `pickExactFactors`: widths `w` down to `minSide`, keeping
      the first pair with the smallest |w - h|. */
  function ScanFactors(n: int, minSide: int, w: int, best: Option<Size>): (r: Option<Size>)
    requires n >= 1 && minSide >= 1
    requires w <= Max(minSide, FloorSqrt(n))
    requires GoodSize(n, minSide, best)
    ensures GoodSize(n, minSide, r)
    ensures best.Some? ==> r.Some? && Delta(r.value) <= Delta(best.value)
    ensures forall a :: minSide <= a <= w && Factor(n, minSide, a) ==>
      r.Some? && Delta(r.value) <= Abs(a - n / a)
    decreases w - minSide + 1
  {
    if w < minSide then best
    else ScanFactors(n, minSide, w - 1, Consider(n, minSide, w, best))
  }

  /** `pickExactFactors(N, minSide)`: an exact factor pair with both sides at
      least `minSide`, the one closest to a square, or nothing when no such
      pair exists. */
  function PickExactFactors(n: int, minSide: int): (r: Option<Size>)
    requires n >= 1 && minSide >= 1
    ensures r.Some? ==> IsFactorSize(n, minSide, r.value.w, r.value.h) && r.value.w <= r.value.h
    ensures r.None? <==> forall a, b :: !IsFactorSize(n, minSide, a, b)
    ensures r.Some? ==> forall a, b :: IsFactorSize(n, minSide, a, b) ==> Delta(r.value) <= Abs(a - b)
  {
    var r := ScanFactors(n, minSide, Max(minSide, FloorSqrt(n)), None);
    forall a, b | IsFactorSize(n, minSide, a, b)
      ensures r.Some? && Delta(r.value) <= Abs(a - b)
    {
      if a <= b {
        MulLe(a, b, a);
        SquareBelow(a, n);
        DivModOf(b, 0, a);
        assert Factor(n, minSide, a);
      } else {
        MulLe(b, a, b);
        SquareBelow(b, n);
        DivModOf(a, 0, b);
        assert b * a == n;
        assert Factor(n, minSide, b);
      }
    }
    r
  }

  /** `pickCeilRect(N, minSide)`: the ceil-square-root width and the rows it
      needs; both sides at least `minSide` and the area covers `N`. */
  function PickCeilRect(n: nat, minSide: int): (r: Size)
    requires minSide >= 1
    ensures r.w >= minSide && r.h >= minSide
    ensures r.w * r.h >= n
  {
    var w := Max(minSide, CeilSqrt(n));
    var h := Max(minSide, CeilDiv(n, w));
    MulLe(CeilDiv(n, w), h, w);
    Size(w, h)
  }

  /** The footprint of every habitat: an exact factor pair when one exists,
      otherwise the covering rectangle. */
  function ChooseFootprint(n: int): (r: Size)
    requires n >= 1
    ensures r.w >= MinTileSide && r.h >= MinTileSide && r.w * r.h >= n
    ensures (exists a, b :: IsFactorSize(n, MinTileSide, a, b)) ==> r.w * r.h == n
  {
    var exact := PickExactFactors(n, MinTileSide);
    if exact.Some? then exact.value else PickCeilRect(n, MinTileSide)
  }

  /** The whole derivation of `Game.jsx`, minus the crew distribution. */
  function Derive(c: Config): (d: Derived)
    requires c.tileMeters > 0.0
    ensures d.habitatsCount >= 1 && d.humansPerHabitat >= 1
    ensures d.habitatsCount * d.humansPerHabitat >= c.crewSize
    ensures d.wTiles >= MinTileSide && d.hTiles >= MinTileSide
    ensures d.wTiles * d.hTiles >= d.exactTiles >= 1
  {
    var n := ExactTiles(c);
    var fp := ChooseFootprint(n);
    Derived(ModuleAreaM2(c), HumansPerHabitat(c), HabitatsCount(c), n, fp.w, fp.h)
  }

  /** Worked example: 25 m² per person, crew 4, 2 per habitat, 1 habitat
      requested, 1 m tiles: two habitats of 50 m², each 5 x 10 tiles. */
  lemma ScenarioA()
    ensures var d := Derive(Config(25.0, 4, 2, 1, 1.0));
      d.habitatsCount == 2 && d.moduleAreaM2 == 50 && d.exactTiles == 50 &&
      d.wTiles == 5 && d.hTiles == 10
  {
    var c := Config(25.0, 4, 2, 1, 1.0);
    assert ModuleAreaM2(c) == 50;
    assert ExactTiles(c) == 50;
    assert FloorSqrt(50) == 7 by {
      assert FloorSqrtFrom(50, 7) == 7;
    }
    var p := PickExactFactors(50, 3);
    assert ScanFactors(50, 3, 7, None) == Some(Size(5, 10)) by {
      assert ScanFactors(50, 3, 2, Some(Size(5, 10))) == Some(Size(5, 10));
      assert ScanFactors(50, 3, 4, Some(Size(5, 10))) == Some(Size(5, 10));
      assert ScanFactors(50, 3, 5, None) == Some(Size(5, 10));
    }
  }

  /** A shuffle order for `n` habitats: every index exactly once. */
  predicate IsOrder(order: seq<nat>, n: nat)
  {
    |order| == n && (forall j :: 0 <= j < |order| ==> order[j] < n) &&
    forall k :: 0 <= k < n ==> k in order
  }

  /** One round of `randomAssign`: walk the order, giving one more person to
      each habitat below capacity, until nobody is left. */
  function FillRound(res: seq<int>, order: seq<nat>, i: nat, left: int, cap: int): (r: (seq<int>, int))
    requires i <= |order|
    requires forall j :: 0 <= j < |order| ==> order[j] < |res|
    ensures |r.0| == |res|
    ensures Sum(r.0) + r.1 == Sum(res) + left
    ensures r.1 <= left && (left >= 0 ==> r.1 >= 0)
    ensures forall k :: 0 <= k < |res| ==> res[k] <= r.0[k] <= Max(res[k], cap)
    ensures r.1 == left && left > 0 ==> forall j :: i <= j < |order| ==> res[order[j]] >= cap
    decreases |order| - i
  {
    if i == |order| || left <= 0 then (res, left)
    else
      var k := order[i];
      if res[k] < cap then
        SumUpdate(res, k, res[k] + 1);
        FillRound(res[k := res[k] + 1], order, i + 1, left - 1, cap)
      else
        FillRound(res, order, i + 1, left, cap)
  }

  /** The outer loop of `randomAssign`: reshuffle and fill again until
      nobody is left or a whole round placed nobody. */
  function AssignRounds(res: seq<int>, left: int, cap: int, shuffle: nat -> seq<nat>, round: nat): (r: seq<int>)
    requires cap >= 0
    requires forall t :: IsOrder(shuffle(t), |res|)
    requires forall k :: 0 <= k < |res| ==> 0 <= res[k] <= cap
    ensures |r| == |res|
    ensures forall k :: 0 <= k < |r| ==> 0 <= r[k] <= cap
    ensures Sum(r) == Min(Sum(res) + Max(0, left), |res| * cap)
    decreases Max(0, left)
  {
    SumBounded(res, cap);
    if left <= 0 then res
    else
      assert IsOrder(shuffle(round), |res|);
      var step := FillRound(res, shuffle(round), 0, left, cap);
      if step.1 == left then
        forall k | 0 <= k < |res| ensures res[k] == cap {
          var order := shuffle(round);
          assert k in order;
          var j :| 0 <= j < |order| && order[j] == k;
        }
        SumConst(res, cap);
        step.0
      else
        AssignRounds(step.0, step.1, cap, shuffle, round + 1)
  }

  /** `randomAssign(crew, habitats, cap)` with the random shuffles supplied:
      no habitat exceeds its capacity and exactly min(crew, habitats * cap)
      people are placed, whatever the shuffles. */
  function RandomAssign(crew: int, habitats: nat, cap: int, shuffle: nat -> seq<nat>): (r: seq<int>)
    requires cap >= 0
    requires forall t :: IsOrder(shuffle(t), habitats)
    ensures |r| == habitats
    ensures forall k :: 0 <= k < habitats ==> 0 <= r[k] <= cap
    ensures Sum(r) == Min(Max(0, crew), habitats * cap)
  {
    var zeros := seq(habitats, _ => 0);
    SumConst(zeros, 0);
    AssignRounds(zeros, crew, cap, shuffle, 0)
  }
}

=== FILE: issues.dfy ===
/** The issues report: the crew balance, habitats over capacity, whether
    there are enough habitats, the area plan, and the module kinds whose
    placed area (net of half of every overlap) falls short of the need. */
module Issues {
  import opened Common
  import opened Catalog
  import opened Rules
  import opened ModuleLayer
  import Occupancy
  import Terrain
  import Placement
  import Resize
  import Derivation
  import Crew

  // ------------------------------------------------------ total area

  /** A habitat's contribution to the area estimate: its area budget when
      non-zero, else its current size when both sides are non-zero. */
  function HabitatTiles(hb: Placement.Habitat): int
  {
    if hb.areaTiles != 0 then hb.areaTiles
    else if hb.w != 0 && hb.h != 0 then hb.w * hb.h
    else 0
  }

  /** `estimateTotalAreaTiles`: the contributions of all habitats. */
  function EstimateTotalAreaTiles(habs: seq<Placement.Habitat>): int
  {
    if |habs| == 0 then 0
    else EstimateTotalAreaTiles(habs[..|habs| - 1]) + HabitatTiles(habs[|habs| - 1])
  }

  function Budgets(habs: seq<Placement.Habitat>): (s: seq<int>)
    ensures |s| == |habs| && forall k :: 0 <= k < |habs| ==> s[k] == habs[k].areaTiles
  {
    seq(|habs|, k requires 0 <= k < |habs| => habs[k].areaTiles)
  }

  /** When every habitat has a budget, the estimate is the sum of the
      budgets: the current sizes play no part. */
  lemma {:induction false} EstimateIsBudgetSum(habs: seq<Placement.Habitat>)
    requires forall k :: 0 <= k < |habs| ==> habs[k].areaTiles != 0
    ensures EstimateTotalAreaTiles(habs) == Sum(Budgets(habs))
    decreases |habs|
  {
    if |habs| > 0 {
      assert Budgets(habs)[..|habs| - 1] == Budgets(habs[..|habs| - 1]);
      EstimateIsBudgetSum(habs[..|habs| - 1]);
    }
  }

  /** Habitats contributing the same tiles, index by index, give the same
      estimate. */
  lemma {:induction false} EstimateSameTiles(a: seq<Placement.Habitat>, b: seq<Placement.Habitat>)
    requires |a| == |b| && forall k :: 0 <= k < |a| ==> HabitatTiles(a[k]) == HabitatTiles(b[k])
    ensures EstimateTotalAreaTiles(a) == EstimateTotalAreaTiles(b)
    decreases |a|
  {
    if |a| > 0 {
      EstimateSameTiles(a[..|a| - 1], b[..|b| - 1]);
    }
  }

  /** Moving a habitat never changes the area estimate. */
  lemma EstimateUnchangedByMove(g: Occupancy.Grid, m: Terrain.HeightMap, tileMeters: real,
                                habs: seq<Placement.Habitat>, i: int, to: Point)
    requires Placement.Fits(g, habs) && 0 <= i < |habs|
    ensures EstimateTotalAreaTiles(Placement.MoveHabitat(g, m, tileMeters, habs, i, to).habs) == EstimateTotalAreaTiles(habs)
  {
    var r := Placement.MoveHabitat(g, m, tileMeters, habs, i, to);
    EstimateSameTiles(r.habs, habs);
  }

  /** Resizing a habitat that has an area budget never changes the area
      estimate, since the budget is kept. */
  lemma EstimateUnchangedByResize(g: Occupancy.Grid, m: Terrain.HeightMap, tileMeters: real,
                                  habs: seq<Placement.Habitat>, i: int, drags: seq<Resize.DragStep>)
    requires Placement.Fits(g, habs) && 0 <= i < |habs| && habs[i].areaTiles != 0
    ensures EstimateTotalAreaTiles(Resize.ResizeGesture(g, m, tileMeters, habs, i, drags).1) == EstimateTotalAreaTiles(habs)
  {
    var r := Resize.ResizeGesture(g, m, tileMeters, habs, i, drags);
    EstimateSameTiles(r.1, habs);
  }

  // -------------------------------------------------- effective area

  /** Overlap of modules `a` and `b` of one habitat, in tiles. */
  function Ov(mods: seq<Mod>, a: int, b: int): real
    requires 0 <= a < |mods| && 0 <= b < |mods|
  {
    OverlapTiles(Box(mods[a]), Box(mods[b])) as real
  }

  /** Reference: the overlaps of module `k` with every other module among
      the first `hi`. */
  function OthersOverlap(mods: seq<Mod>, k: int, hi: int): real
    requires 0 <= k < |mods| && 0 <= hi <= |mods|
    decreases hi
  {
    if hi == 0 then 0.0
    else OthersOverlap(mods, k, hi - 1) + (if hi - 1 == k then 0.0 else Ov(mods, k, hi - 1))
  }

  /** Reference: a module's effective tiles are its area less half of its
      overlap with every other module of the habitat. */
  function EffRef(mods: seq<Mod>, k: int): real
    requires 0 <= k < |mods|
  {
    Area(mods[k]) as real - 0.5 * OthersOverlap(mods, k, |mods|)
  }

  /** One inner step of the pair loop: a positive overlap of `i` and `j`
      is taken half from each. */
  function Cut(mods: seq<Mod>, eff: seq<real>, i: int, j: int): (r: seq<real>)
    requires |eff| == |mods| && 0 <= i < j < |mods|
    ensures |r| == |mods|
  {
    var o := OverlapTiles(Box(mods[i]), Box(mods[j]));
    if o > 0 then eff[i := eff[i] - 0.5 * o as real][j := eff[j] - 0.5 * o as real] else eff
  }

  /** The inner loop over `j` from the given index to the end. */
  function Inner(mods: seq<Mod>, eff: seq<real>, i: int, j: int): (r: seq<real>)
    requires |eff| == |mods| && 0 <= i < j <= |mods|
    ensures |r| == |mods|
    decreases |mods| - j
  {
    if j == |mods| then eff else Inner(mods, Cut(mods, eff, i, j), i, j + 1)
  }

  /** The outer loop over `i`. */
  function Outer(mods: seq<Mod>, eff: seq<real>, i: int): (r: seq<real>)
    requires |eff| == |mods| && 0 <= i <= |mods|
    ensures |r| == |mods|
    decreases |mods| - i
  {
    if i == |mods| then eff else Outer(mods, Inner(mods, eff, i, i + 1), i + 1)
  }

  /** Overlaps of module `i` with modules `lo .. hi - 1`. */
  function RowCut(mods: seq<Mod>, i: int, lo: int, hi: int): real
    requires 0 <= i < |mods| && 0 <= lo && hi <= |mods|
    decreases hi - lo
  {
    if hi <= lo then 0.0 else RowCut(mods, i, lo, hi - 1) + Ov(mods, i, hi - 1)
  }

  /** Overlaps of modules `0 .. hi - 1` with module `k`. */
  function ColCut(mods: seq<Mod>, k: int, hi: int): real
    requires 0 <= k < |mods| && 0 <= hi <= |mods|
    decreases hi
  {
    if hi == 0 then 0.0 else ColCut(mods, k, hi - 1) + Ov(mods, hi - 1, k)
  }

  lemma {:induction false} RowCutPeelLow(mods: seq<Mod>, i: int, lo: int, hi: int)
    requires 0 <= i < |mods| && 0 <= lo < hi <= |mods|
    ensures RowCut(mods, i, lo, hi) == Ov(mods, i, lo) + RowCut(mods, i, lo + 1, hi)
    decreases hi - lo
  {
    if hi > lo + 1 {
      RowCutPeelLow(mods, i, lo, hi - 1);
    }
  }

  /** The tiles after the outer loop has finished rows `0 .. i - 1`. */
  function EffAfter(mods: seq<Mod>, i: int): (r: seq<real>)
    requires 0 <= i <= |mods|
    ensures |r| == |mods|
  {
    seq(|mods|, k requires 0 <= k < |mods| =>
      Area(mods[k]) as real - 0.5 * (ColCut(mods, k, Min(k, i)) + (if k < i then RowCut(mods, k, k + 1, |mods|) else 0.0)))
  }

  lemma {:induction false} InnerEffect(mods: seq<Mod>, eff: seq<real>, i: int, j: int)
    requires |eff| == |mods| && 0 <= i < j <= |mods|
    ensures var r := Inner(mods, eff, i, j);
      r[i] == eff[i] - 0.5 * RowCut(mods, i, j, |mods|) &&
      (forall k :: j <= k < |mods| ==> r[k] == eff[k] - 0.5 * Ov(mods, i, k)) &&
      (forall k :: 0 <= k < j && k != i ==> r[k] == eff[k])
    decreases |mods| - j
  {
    if j < |mods| {
      InnerEffect(mods, Cut(mods, eff, i, j), i, j + 1);
      RowCutPeelLow(mods, i, j, |mods|);
    }
  }

  lemma StepEffect(mods: seq<Mod>, i: int)
    requires 0 <= i < |mods|
    ensures Inner(mods, EffAfter(mods, i), i, i + 1) == EffAfter(mods, i + 1)
  {
    var e := EffAfter(mods, i);
    var r := Inner(mods, e, i, i + 1);
    var e' := EffAfter(mods, i + 1);
    InnerEffect(mods, e, i, i + 1);
    forall k | 0 <= k < |mods| ensures r[k] == e'[k] {
      if k > i {
        assert ColCut(mods, k, i + 1) == ColCut(mods, k, i) + Ov(mods, i, k);
      }
    }
  }

  lemma {:induction false} OuterEffect(mods: seq<Mod>, i: int)
    requires 0 <= i <= |mods|
    ensures Outer(mods, EffAfter(mods, i), i) == EffAfter(mods, |mods|)
    decreases |mods| - i
  {
    if i < |mods| {
      StepEffect(mods, i);
      OuterEffect(mods, i + 1);
    }
  }

  lemma {:induction false} OthersOverlapSplit(mods: seq<Mod>, k: int, t: int)
    requires 0 <= k < |mods| && 0 <= t <= |mods|
    ensures t <= k ==> OthersOverlap(mods, k, t) == ColCut(mods, k, t)
    ensures t > k ==> OthersOverlap(mods, k, t) == ColCut(mods, k, k) + RowCut(mods, k, k + 1, t)
    decreases t
  {
    if t > 0 {
      OthersOverlapSplit(mods, k, t - 1);
      OverlapSymmetric(Box(mods[t - 1]), Box(mods[k]));
    }
  }

  /** The per-habitat pass of `placedAreasPerModuleEffective`: start from
      each module's area and take half of every positive pairwise overlap
      from both modules of the pair. The module list itself is not
      changed; the tiles are returned alongside it. */
  function EffectiveTiles(mods: seq<Mod>): (eff: seq<real>)
    ensures |eff| == |mods|
    ensures forall k :: 0 <= k < |mods| ==> eff[k] == EffRef(mods, k)
  {
    var start := seq(|mods|, k requires 0 <= k < |mods| => Area(mods[k]) as real);
    assert start == EffAfter(mods, 0);
    OuterEffect(mods, 0);
    var eff := Outer(mods, start, 0);
    assert forall k :: 0 <= k < |mods| ==> eff[k] == EffRef(mods, k) by {
      forall k | 0 <= k < |mods| ensures eff[k] == EffRef(mods, k) {
        OthersOverlapSplit(mods, k, |mods|);
      }
    }
    eff
  }

  /** Without overlaps every module counts with its full area. */
  lemma {:induction false} NoOverlapFullArea(mods: seq<Mod>, k: int, t: int)
    requires 0 <= k < |mods| && 0 <= t <= |mods|
    requires forall j :: 0 <= j < |mods| && j != k ==> OverlapTiles(Box(mods[k]), Box(mods[j])) == 0
    ensures OthersOverlap(mods, k, t) == 0.0
    ensures t == |mods| ==> EffectiveTiles(mods)[k] == Area(mods[k]) as real
    decreases t
  {
    if t > 0 {
      NoOverlapFullArea(mods, k, t - 1);
    }
  }

  /** Square metres a module contributes: effective tiles floored at zero,
      scaled by the tile side squared. */
  function M2(eff: real, tileMeters: real): (a: real)
    ensures a >= 0.0
    ensures eff <= 0.0 ==> a == 0.0
  {
    var e := if eff > 0.0 then eff else 0.0;
    MulNonNeg(e, tileMeters * tileMeters);
    e * tileMeters * tileMeters
  }

  lemma MulNonNeg(a: real, b: real)
    requires a >= 0.0
    ensures (b >= 0.0 ==> a * b >= 0.0)
  {
  }

  /** `placed[k] || 0`. */
  function Lookup(per: map<Kind, real>, k: Kind): real
  {
    if k in per then per[k] else 0.0
  }

  /** Reference: the square metres of kind `key` among `mods`. */
  function KindSum(mods: seq<Mod>, eff: seq<real>, tileMeters: real, key: Kind): real
    requires |eff| == |mods|
  {
    if |mods| == 0 then 0.0
    else (if mods[0].key == key then M2(eff[0], tileMeters) else 0.0) + KindSum(mods[1..], eff[1..], tileMeters, key)
  }

  /** Reference: the square metres of kind `key` over all habitats. */
  function HousesKindSum(houses: seq<seq<Mod>>, tileMeters: real, key: Kind): real
  {
    if |houses| == 0 then 0.0
    else KindSum(houses[0], EffectiveTiles(houses[0]), tileMeters, key) + HousesKindSum(houses[1..], tileMeters, key)
  }

  /** The `forEach` adding each module's square metres under its kind. */
  function AddMods(per: map<Kind, real>, mods: seq<Mod>, eff: seq<real>, tileMeters: real): map<Kind, real>
    requires |eff| == |mods|
    decreases |mods|
  {
    if |mods| == 0 then per
    else AddMods(per[mods[0].key := Lookup(per, mods[0].key) + M2(eff[0], tileMeters)], mods[1..], eff[1..], tileMeters)
  }

  lemma {:induction false} AddModsMeaning(per: map<Kind, real>, mods: seq<Mod>, eff: seq<real>, tileMeters: real, key: Kind)
    requires |eff| == |mods|
    ensures Lookup(AddMods(per, mods, eff, tileMeters), key) == Lookup(per, key) + KindSum(mods, eff, tileMeters, key)
    decreases |mods|
  {
    if |mods| > 0 {
      AddModsMeaning(per[mods[0].key := Lookup(per, mods[0].key) + M2(eff[0], tileMeters)], mods[1..], eff[1..], tileMeters, key);
    }
  }

  function AddHouses(per: map<Kind, real>, houses: seq<seq<Mod>>, tileMeters: real): map<Kind, real>
    decreases |houses|
  {
    if |houses| == 0 then per
    else AddHouses(AddMods(per, houses[0], EffectiveTiles(houses[0]), tileMeters), houses[1..], tileMeters)
  }

  lemma {:induction false} AddHousesMeaning(per: map<Kind, real>, houses: seq<seq<Mod>>, tileMeters: real, key: Kind)
    ensures Lookup(AddHouses(per, houses, tileMeters), key) == Lookup(per, key) + HousesKindSum(houses, tileMeters, key)
    decreases |houses|
  {
    if |houses| > 0 {
      var per' := AddMods(per, houses[0], EffectiveTiles(houses[0]), tileMeters);
      AddModsMeaning(per, houses[0], EffectiveTiles(houses[0]), tileMeters, key);
      AddHousesMeaning(per', houses[1..], tileMeters, key);
    }
  }

  /** `placedAreasPerModuleEffective`: per kind, the square metres of its
      modules over all habitats. */
  function PlacedAreas(houses: seq<seq<Mod>>, tileMeters: real): (per: map<Kind, real>)
    ensures forall key :: Lookup(per, key) == HousesKindSum(houses, tileMeters, key)
  {
    var per := AddHouses(map[], houses, tileMeters);
    assert forall key :: Lookup(per, key) == HousesKindSum(houses, tileMeters, key) by {
      forall key ensures Lookup(per, key) == HousesKindSum(houses, tileMeters, key) {
        AddHousesMeaning(map[], houses, tileMeters, key);
      }
    }
    per
  }

  // ---------------------------------------------------------- report

  datatype CrewLine = AddCrew(missing: int) | RemoveCrew(excess: int) | CrewBalanced(total: int)

  datatype HabitatLine = AddHabitats(missing: int) | HabitatsEnough(count: int, capacity: int)

  datatype Deficit = Deficit(kind: Kind, got: real, need: real)

  datatype Report = Report(
    crew: CrewLine,
    overCapacity: seq<nat>,
    habitats: Option<HabitatLine>,
    plan: seq<PlanLine>,
    deficits: seq<Deficit>,
    hasProblem: bool)

  /** The crew line: people missing, people in excess, or balanced. */
  function CrewLineOf(onBoard: int, crewSize: int): (c: CrewLine)
    ensures c.AddCrew? <==> onBoard < crewSize
    ensures c.RemoveCrew? <==> onBoard > crewSize
    ensures c.AddCrew? ==> c.missing > 0 && onBoard + c.missing == crewSize
    ensures c.RemoveCrew? ==> c.excess > 0 && crewSize + c.excess == onBoard
    ensures c.CrewBalanced? ==> c.total == onBoard == crewSize
  {
    if onBoard < crewSize then AddCrew(crewSize - onBoard)
    else if onBoard > crewSize then RemoveCrew(onBoard - crewSize)
    else CrewBalanced(onBoard)
  }

  /** Indices from `from` on of habitats holding more people than the
      capacity, in increasing order; none when the capacity is not
      positive. */
  function OverCapacity(assign: seq<int>, capacity: int, from: nat): (r: seq<nat>)
    ensures forall i :: i in r <==> from <= i < |assign| && capacity > 0 && assign[i] > capacity
    ensures forall a, b :: 0 <= a < b < |r| ==> r[a] < r[b]
    ensures forall a :: 0 <= a < |r| ==> r[a] >= from
    decreases |assign| - from
  {
    if from >= |assign| then []
    else
      var rest := OverCapacity(assign, capacity, from + 1);
      if capacity > 0 && assign[from] > capacity then [from] + rest else rest
  }

  /** The habitat line, only for a positive capacity: a request for more
      habitats exactly when the ones there cannot seat the crew. */
  function HabitatLineOf(crewSize: int, capacity: int, count: int): (r: Option<HabitatLine>)
    ensures r.None? <==> capacity <= 0
    ensures r.Some? ==> (r.value.AddHabitats? <==> count * capacity < crewSize)
    ensures r.Some? && r.value.AddHabitats? ==>
      r.value.missing > 0 && (count + r.value.missing) * capacity >= crewSize &&
      (count + r.value.missing - 1) * capacity < crewSize
    ensures r.Some? && !r.value.AddHabitats? ==> r.value == HabitatsEnough(count, capacity)
  {
    if capacity <= 0 then None
    else
      var needed := CeilDiv(crewSize, Max(1, capacity));
      if count < needed then
        MulLe(count, needed - 1, capacity);
        Some(AddHabitats(needed - count))
      else
        MulLe(needed, count, capacity);
        Some(HabitatsEnough(count, capacity))
  }

  /** A kind is short when its placed area is more than 0.1 square metres
      below the need. */
  predicate Short(placed: map<Kind, real>, need: map<Kind, real>, k: Kind)
    requires k in need
  {
    Lookup(placed, k) - need[k] < -0.1
  }

  predicate Listed(ds: seq<Deficit>, k: Kind)
  {
    exists a :: 0 <= a < |ds| && ds[a].kind == k
  }

  lemma IndexOfOrder(i: nat)
    requires i < |Order|
    ensures IndexOf(Order[i]) == i
  {
  }

  /** Kinds listed in strictly increasing catalog position, none before `i`. */
  predicate Ordered(ds: seq<Deficit>, i: int)
  {
    (forall a :: 0 <= a < |ds| ==> IndexOf(ds[a].kind) >= i) &&
    (forall a, b :: 0 <= a < b < |ds| ==> IndexOf(ds[a].kind) < IndexOf(ds[b].kind))
  }

  /** An entry carries its kind's placed and needed area. */
  predicate Recorded(placed: map<Kind, real>, need: map<Kind, real>, d: Deficit)
    requires forall k: Kind :: k in need
  {
    d.got == Lookup(placed, d.kind) && d.need == need[d.kind]
  }

  /** The deficit list over the catalog from position `i` on. */
  function DeficitsFrom(placed: map<Kind, real>, need: map<Kind, real>, i: nat): (r: seq<Deficit>)
    requires forall k: Kind :: k in need
    requires i <= |Order|
    decreases |Order| - i
  {
    if i == |Order| then []
    else
      var k := Order[i];
      var rest := DeficitsFrom(placed, need, i + 1);
      if Short(placed, need, k) then [Deficit(k, Lookup(placed, k), need[k])] + rest else rest
  }

  /** The list follows the catalog order, starting at position `i`, and
      records the placed and needed areas of each kind it names. */
  lemma {:induction false} DeficitsFromOrdered(placed: map<Kind, real>, need: map<Kind, real>, i: nat)
    requires forall k: Kind :: k in need
    requires i <= |Order|
    ensures Ordered(DeficitsFrom(placed, need, i), i)
    ensures forall a :: 0 <= a < |DeficitsFrom(placed, need, i)| ==>
      Recorded(placed, need, DeficitsFrom(placed, need, i)[a])
    decreases |Order| - i
  {
    if i < |Order| {
      DeficitsFromOrdered(placed, need, i + 1);
      IndexOfOrder(i);
      var rest := DeficitsFrom(placed, need, i + 1);
      var r := DeficitsFrom(placed, need, i);
      if Short(placed, need, Order[i]) {
        assert r == [Deficit(Order[i], Lookup(placed, Order[i]), need[Order[i]])] + rest;
        forall a | 1 <= a < |r|
          ensures r[a] == rest[a - 1]
        {
        }
      } else {
        assert r == rest;
      }
    }
  }

  /** A kind is listed after a new head exactly when it is the head's or
      was listed before. */
  lemma ListedCons(d: Deficit, rest: seq<Deficit>, k: Kind)
    ensures Listed([d] + rest, k) <==> d.kind == k || Listed(rest, k)
  {
    var r := [d] + rest;
    if Listed(rest, k) {
      var a :| 0 <= a < |rest| && rest[a].kind == k;
      assert r[a + 1].kind == k;
    }
    if d.kind == k {
      assert r[0].kind == k;
    }
    if Listed(r, k) {
      var a :| 0 <= a < |r| && r[a].kind == k;
      assert a == 0 || rest[a - 1].kind == k;
    }
  }

  /** A kind is listed exactly when it comes at or after position `i` and
      is short. */
  lemma {:induction false} DeficitsFromMembers(placed: map<Kind, real>, need: map<Kind, real>, i: nat, k: Kind)
    requires forall k: Kind :: k in need
    requires i <= |Order|
    ensures Listed(DeficitsFrom(placed, need, i), k) <==> IndexOf(k) >= i && Short(placed, need, k)
    decreases |Order| - i
  {
    if i < |Order| {
      var rest := DeficitsFrom(placed, need, i + 1);
      var r := DeficitsFrom(placed, need, i);
      DeficitsFromMembers(placed, need, i + 1, k);
      IndexOfOrder(i);
      assert k != Order[i] ==> IndexOf(k) != i;
      if Short(placed, need, Order[i]) {
        ListedCons(Deficit(Order[i], Lookup(placed, Order[i]), need[Order[i]]), rest, k);
      } else {
        assert r == rest;
      }
    } else {
      assert IndexOf(k) < |Order|;
    }
  }

  /** The deficit section over the whole catalog. */
  function Deficits(houses: seq<seq<Mod>>, tileMeters: real, crewSize: int, missionDays: real): seq<Deficit>
  {
    DeficitsFrom(PlacedAreas(houses, tileMeters), RequiredAreas(crewSize, missionDays).per, 0)
  }

  /** Kinds are listed in catalog order, each with its placed square metres
      and its need, and a kind is listed exactly when its placed area falls
      more than 0.1 square metres short of the need. */
  lemma DeficitsMeaning(houses: seq<seq<Mod>>, tileMeters: real, crewSize: int, missionDays: real, k: Kind)
    ensures var r := Deficits(houses, tileMeters, crewSize, missionDays);
      (Listed(r, k) <==> HousesKindSum(houses, tileMeters, k) - AreaForModule(k, crewSize, missionDays) < -0.1) &&
      (forall a, b :: 0 <= a < b < |r| ==> IndexOf(r[a].kind) < IndexOf(r[b].kind)) &&
      (forall a :: 0 <= a < |r| ==>
        r[a].got == HousesKindSum(houses, tileMeters, r[a].kind) &&
        r[a].need == AreaForModule(r[a].kind, crewSize, missionDays))
  {
    var placed := PlacedAreas(houses, tileMeters);
    var need := RequiredAreas(crewSize, missionDays).per;
    DeficitsFromOrdered(placed, need, 0);
    DeficitsFromMembers(placed, need, 0, k);
  }

  /** `update`: the report for an assignment, the crew size, the capacity
      of one habitat, the number of habitats, the tile side, the mission
      length, the habitats and the modules placed in each. */
  function Update(assign: seq<int>, crewSize: int, capacity: int, habitatsCount: int,
                  tileMeters: real, missionDays: real,
                  habs: seq<Placement.Habitat>, houses: seq<seq<Mod>>): (r: Report)
    ensures r.hasProblem <==>
      |r.deficits| > 0 || r.crew.AddCrew? || |r.overCapacity| > 0 ||
      (r.habitats.Some? && r.habitats.value.AddHabitats?)
  {
    var crew := CrewLineOf(Sum(assign), crewSize);
    var over := OverCapacity(assign, capacity, 0);
    var hab := HabitatLineOf(crewSize, capacity, habitatsCount);
    var available := EstimateTotalAreaTiles(habs) as real * tileMeters * tileMeters;
    var plan := ModulePlanIssues(available, crewSize, missionDays);
    var deficits := Deficits(houses, tileMeters, crewSize, missionDays);
    var problem := |deficits| > 0 || crew.AddCrew? || |over| > 0 || (hab.Some? && hab.value.AddHabitats?);
    Report(crew, over, hab, plan, deficits, problem)
  }

  /** What drives the problem flag: a deficit, missing crew, an overfull
      habitat or missing habitats raise it; excess crew and a plan-area
      shortfall alone do not. */
  lemma UpdateProblemFlag(assign: seq<int>, crewSize: int, capacity: int, habitatsCount: int,
                          tileMeters: real, missionDays: real,
                          habs: seq<Placement.Habitat>, houses: seq<seq<Mod>>)
    ensures var r := Update(assign, crewSize, capacity, habitatsCount, tileMeters, missionDays, habs, houses);
      r.hasProblem <==>
        |Deficits(houses, tileMeters, crewSize, missionDays)| > 0 ||
        Sum(assign) < crewSize ||
        (capacity > 0 && exists i :: 0 <= i < |assign| && assign[i] > capacity) ||
        (capacity > 0 && habitatsCount * capacity < crewSize)
  {
    var r := Update(assign, crewSize, capacity, habitatsCount, tileMeters, missionDays, habs, houses);
    if capacity > 0 && exists i :: 0 <= i < |assign| && assign[i] > capacity {
      var i :| 0 <= i < |assign| && assign[i] > capacity;
      assert i in r.overCapacity;
    }
    if |r.overCapacity| > 0 {
      assert r.overCapacity[0] in r.overCapacity;
    }
  }

  /** A headcount that satisfies the crew invariant never yields an
      over-capacity line nor an excess-crew line. */
  lemma ValidCrewReportsNoExcess(assign: seq<int>, crewSize: int, capacity: int)
    requires Crew.CrewValid(assign, capacity, crewSize)
    ensures |OverCapacity(assign, capacity, 0)| == 0
    ensures !CrewLineOf(Sum(assign), crewSize).RemoveCrew?
  {
    NoneOverCapacity(assign, capacity, 0);
  }

  lemma {:induction false} NoneOverCapacity(assign: seq<int>, capacity: int, from: nat)
    requires forall k :: 0 <= k < |assign| ==> assign[k] <= capacity
    ensures OverCapacity(assign, capacity, from) == []
    decreases |assign| - from
  {
    if from < |assign| {
      NoneOverCapacity(assign, capacity, from + 1);
    }
  }

  /** The scene built from a configuration has enough habitats for its
      crew whenever the derived count is within the scene's cap of 200. */
  lemma DerivedSceneHasEnoughHabitats(c: Derivation.Config)
    requires Derivation.HabitatsCount(c) <= 200
    ensures var cap := Derivation.HumansPerHabitat(c);
      var count := Placement.SceneCount(Derivation.HabitatsCount(c));
      HabitatLineOf(c.crewSize, cap, count) == Some(HabitatsEnough(count, cap))
  {
  }
}

=== FILE: layout.dfy ===
/** Initial arrangement of the habitats: the area share of one habitat and
    the row-major grid packing of `total` equal footprints. */
module Layout {
  import opened Common

  /** `areaPerHabitat`: ceil(area * crew / max(1, habitats)). The divisor is
      never 0, whatever the configured habitat count. */
  function AreaPerHabitat(area: real, crew: int, habitats: int): (r: int)
    ensures var q := area * crew as real / Max(1, habitats) as real;
      q <= r as real < q + 1.0
  {
    Ceil(area * crew as real / Max(1, habitats) as real)
  }

  datatype GridPlan = GridPlan(cols: int, rows: int, positions: seq<Point>, mapW: int, mapH: int)

  /** Number of columns: ceil(sqrt(total)). */
  function Cols(total: nat): nat
  {
    CeilSqrt(total)
  }

  lemma ColsPositive(total: nat)
    requires total >= 1
    ensures Cols(total) >= 1
  {
  }

  /** Top-left tile of the footprint in row `r`, column `c`. */
  function Slot(r: int, c: int, w: int, h: int, gap: int, margin: int): Point
  {
    Point(margin + c * (w + gap), margin + r * (h + gap))
  }

  /** Inner loop of `gridLayout`: columns `c ..` of row `r`, stopping at the
      end of the row or once `total` positions have been produced. */
  function RowSlots(r: nat, c: nat, cols: nat, total: nat, w: int, h: int, gap: int, margin: int): (s: seq<Point>)
    requires c <= cols
    ensures var n := Max(0, Min(cols, total - r * cols) - c);
      |s| == n && forall i :: 0 <= i < n ==> s[i] == Slot(r, c + i, w, h, gap, margin)
    decreases cols - c
  {
    if c >= cols || r * cols + c >= total then []
    else [Slot(r, c, w, h, gap, margin)] + RowSlots(r, c + 1, cols, total, w, h, gap, margin)
  }

  /** Outer loop of `gridLayout`: rows `r .. rows-1`. */
  function RowsSlots(r: nat, rows: nat, cols: nat, total: nat, w: int, h: int, gap: int, margin: int): (s: seq<Point>)
    decreases rows - r
  {
    if r >= rows then []
    else RowSlots(r, 0, cols, total, w, h, gap, margin) + RowsSlots(r + 1, rows, cols, total, w, h, gap, margin)
  }

  /** `gridLayout(total, w, h, gap, margin)`. */
  function GridLayout(total: nat, w: int, h: int, gap: int, margin: int): GridPlan
    requires total >= 1
  {
    var cols := Cols(total);
    ColsPositive(total);
    var rows := CeilDiv(total, cols);
    GridPlan(cols, rows, RowsSlots(0, rows, cols, total, w, h, gap, margin),
             cols * (w + gap) - gap + 2 * margin,
             rows * (h + gap) - gap + 2 * margin)
  }

  /** The rows `r ..` hold exactly the positions numbered `r*cols ..
      total-1`, position `k` sitting in row `k / cols`, column `k % cols`. */
  lemma {:induction false} RowsSlotsShape(r: nat, rows: nat, cols: nat, total: nat, w: int, h: int, gap: int, margin: int)
    requires cols >= 1 && total <= rows * cols
    ensures var s := RowsSlots(r, rows, cols, total, w, h, gap, margin);
      |s| == Max(0, total - r * cols) &&
      forall i :: 0 <= i < |s| ==> s[i] == Slot((r * cols + i) / cols, (r * cols + i) % cols, w, h, gap, margin)
    decreases rows - r
  {
    var s := RowsSlots(r, rows, cols, total, w, h, gap, margin);
    if r >= rows {
      MulLe(rows, r, cols);
    } else {
      var row := RowSlots(r, 0, cols, total, w, h, gap, margin);
      RowsSlotsShape(r + 1, rows, cols, total, w, h, gap, margin);
      var rest := RowsSlots(r + 1, rows, cols, total, w, h, gap, margin);
      assert s == row + rest;
      assert (r + 1) * cols == r * cols + cols;
      forall i | 0 <= i < |s|
        ensures s[i] == Slot((r * cols + i) / cols, (r * cols + i) % cols, w, h, gap, margin)
      {
        if i < |row| {
          DivModOf(r, i, cols);
        } else {
          var i' := i - |row|;
          assert |row| == cols;
          assert r * cols + i == (r + 1) * cols + i';
        }
      }
    }
  }

  /** `gridLayout` yields exactly `total` positions, the k-th one in column
      `k mod cols` and row `k div cols`, and enough rows for all of them. */
  lemma GridLayoutPositions(total: nat, w: int, h: int, gap: int, margin: int)
    requires total >= 1
    ensures var p := GridLayout(total, w, h, gap, margin);
      p.cols >= 1 && p.rows * p.cols >= total &&
      |p.positions| == total &&
      forall k :: 0 <= k < total ==>
        p.positions[k] == Point(margin + (k % p.cols) * (w + gap), margin + (k / p.cols) * (h + gap))
  {
    var p := GridLayout(total, w, h, gap, margin);
    assert p.rows * p.cols >= total;
    RowsSlotsShape(0, p.rows, p.cols, total, w, h, gap, margin);
  }

  function Footprint(p: Point, w: int, h: int): Rect
  {
    Rect(p.x, p.y, w, h)
  }

  /** Along one axis, a footprint in cell `c` of `n` cells ends inside
      the map. */
  lemma CellInside(c: int, n: int, w: nat, gap: nat, margin: nat)
    requires 0 <= c < n
    ensures margin + c * (w + gap) + w <= n * (w + gap) - gap + 2 * margin
  {
    MulLe(c + 1, n, w + gap);
    assert c * (w + gap) + (w + gap) == (c + 1) * (w + gap);
  }

  /** Along one axis, a footprint in an earlier cell ends before a later
      cell starts. */
  lemma CellsApart(c1: int, c2: int, w: nat, gap: nat)
    requires c1 < c2
    ensures c1 * (w + gap) + w <= c2 * (w + gap)
  {
    MulLe(c1 + 1, c2, w + gap);
    assert c1 * (w + gap) + (w + gap) == (c1 + 1) * (w + gap);
  }

  /** Slot `k` of a `cols`-wide packing with `rows * cols` slots is in a
      row below `rows`. */
  lemma RowInRange(k: nat, cols: nat, rows: nat)
    requires cols >= 1 && k < rows * cols
    ensures k / cols < rows
  {
    var r := k / cols;
    assert r * cols <= k;
    if r >= rows {
      MulLe(rows, r, cols);
    }
  }

  /** The footprint in slot `k` of a `cols`-wide packing with `rows` rows
      ends inside the map. */
  lemma SlotInside(k: nat, cols: nat, rows: nat, w: nat, h: nat, gap: nat, margin: nat)
    requires cols >= 1 && k < rows * cols
    ensures var p := Slot(k / cols, k % cols, w, h, gap, margin);
      0 <= p.x && p.x + w <= cols * (w + gap) - gap + 2 * margin &&
      0 <= p.y && p.y + h <= rows * (h + gap) - gap + 2 * margin
  {
    RowInRange(k, cols, rows);
    CellInside(k % cols, cols, w, gap, margin);
    CellInside(k / cols, rows, h, gap, margin);
  }

  /** Footprints in two different slots share no tile. */
  lemma SlotsDisjoint(k1: nat, k2: nat, cols: nat, w: nat, h: nat, gap: nat, margin: nat)
    requires cols >= 1 && k1 != k2
    ensures Disjoint(Footprint(Slot(k1 / cols, k1 % cols, w, h, gap, margin), w, h),
                     Footprint(Slot(k2 / cols, k2 % cols, w, h, gap, margin), w, h))
  {
    var c1, r1, c2, r2 := k1 % cols, k1 / cols, k2 % cols, k2 / cols;
    assert k1 == r1 * cols + c1 && k2 == r2 * cols + c2;
    if c1 < c2 {
      CellsApart(c1, c2, w, gap);
    } else if c2 < c1 {
      CellsApart(c2, c1, w, gap);
    } else if r1 < r2 {
      CellsApart(r1, r2, h, gap);
    } else {
      assert r2 != r1;
      CellsApart(r2, r1, h, gap);
    }
  }

  /** With a non-negative gap and margin, every footprint lies inside the
      map and no two footprints share a tile. */
  lemma GridLayoutFootprints(total: nat, w: nat, h: nat, gap: nat, margin: nat)
    requires total >= 1
    ensures var p := GridLayout(total, w, h, gap, margin);
      |p.positions| == total &&
      (forall k :: 0 <= k < total ==>
         var f := Footprint(p.positions[k], w, h);
         0 <= f.ox && f.ox + f.w <= p.mapW && 0 <= f.oy && f.oy + f.h <= p.mapH) &&
      (forall k1, k2 :: 0 <= k1 < total && 0 <= k2 < total && k1 != k2 ==>
         Disjoint(Footprint(p.positions[k1], w, h), Footprint(p.positions[k2], w, h)))
  {
    var p := GridLayout(total, w, h, gap, margin);
    GridLayoutPositions(total, w, h, gap, margin);
    assert forall k :: 0 <= k < total ==> p.positions[k] == Slot(k / p.cols, k % p.cols, w, h, gap, margin);
    forall k | 0 <= k < total
      ensures var f := Footprint(p.positions[k], w, h);
         0 <= f.ox && f.ox + f.w <= p.mapW && 0 <= f.oy && f.oy + f.h <= p.mapH
    {
      SlotInside(k, p.cols, p.rows, w, h, gap, margin);
    }
    forall k1, k2 | 0 <= k1 < total && 0 <= k2 < total && k1 != k2
      ensures Disjoint(Footprint(p.positions[k1], w, h), Footprint(p.positions[k2], w, h))
    {
      SlotsDisjoint(k1, k2, p.cols, w, h, gap, margin);
    }
  }
}

=== FILE: modulelayer.dfy ===
/** The module layer of one habitat: rectangular modules placed on the
    habitat's tile footprint, kept inside it, and allowed to overlap one
    another by at most half of the smaller module's area. Positions and
    sizes are in tiles relative to the habitat's top-left tile. */
module ModuleLayer {
  import opened Common
  import opened Catalog

  /** A placed module. The id is an arbitrary fresh number. */
  datatype Mod = Mod(id: nat, key: Kind, tx: int, ty: int, w: int, h: int)

  /** The layer's state: the modules in insertion order, the selected one
      (by index), and the house size seen by the last shrink check. */
  datatype Layer = Layer(mods: seq<Mod>, selected: Option<nat>, last: Size)

  function Box(m: Mod): Rect { Rect(m.tx, m.ty, m.w, m.h) }

  function Area(m: Mod): int { m.w * m.h }

  /** Tiles shared by two rectangles: the clipped width times the clipped
      height of their intersection. */
  function OverlapTiles(a: Rect, b: Rect): (o: int)
    ensures o >= 0
  {
    var x1 := Max(a.ox, b.ox);
    var y1 := Max(a.oy, b.oy);
    var x2 := Min(a.ox + a.w, b.ox + b.w);
    var y2 := Min(a.oy + a.h, b.oy + b.h);
    Max(0, x2 - x1) * Max(0, y2 - y1)
  }

  lemma OverlapSymmetric(a: Rect, b: Rect)
    ensures OverlapTiles(a, b) == OverlapTiles(b, a)
  {
  }

  /** The overlap never exceeds either rectangle's area. */
  lemma OverlapBounded(a: Rect, b: Rect)
    requires a.w >= 0 && a.h >= 0 && b.w >= 0 && b.h >= 0
    ensures OverlapTiles(a, b) <= a.w * a.h
    ensures OverlapTiles(a, b) <= b.w * b.h
  {
    var ow := Max(0, Min(a.ox + a.w, b.ox + b.w) - Max(a.ox, b.ox));
    var oh := Max(0, Min(a.oy + a.h, b.oy + b.h) - Max(a.oy, b.oy));
    assert OverlapTiles(a, b) == ow * oh;
    MulLe(ow, a.w, oh);
    MulLe(oh, a.h, a.w);
    MulLe(ow, b.w, oh);
    MulLe(oh, b.h, b.w);
  }

  /** Two rectangles overlap by a positive number of tiles exactly when
      some tile lies in both. */
  lemma OverlapPositiveIff(a: Rect, b: Rect)
    ensures OverlapTiles(a, b) > 0 <==> exists x, y :: InRect(a, x, y) && InRect(b, x, y)
  {
    var ow := Max(0, Min(a.ox + a.w, b.ox + b.w) - Max(a.ox, b.ox));
    var oh := Max(0, Min(a.oy + a.h, b.oy + b.h) - Max(a.oy, b.oy));
    assert OverlapTiles(a, b) == ow * oh;
    if OverlapTiles(a, b) > 0 {
      assert InRect(a, Max(a.ox, b.ox), Max(a.oy, b.oy)) && InRect(b, Max(a.ox, b.ox), Max(a.oy, b.oy));
    }
    if exists x, y :: InRect(a, x, y) && InRect(b, x, y) {
      var x, y :| InRect(a, x, y) && InRect(b, x, y);
      MulLe(1, ow, oh);
      MulLe(1, oh, 1);
    }
  }

  /** `withinBounds`: the module lies on the house footprint. */
  predicate WithinBounds(m: Mod, ht: Size)
  {
    m.tx >= 0 && m.ty >= 0 && m.tx + m.w <= ht.w && m.ty + m.h <= ht.h
  }

  /** The half-overlap rule for one pair: no overlap, or an overlap of at
      most half the smaller area (`o <= 0.5 * minArea`, doubled). */
  predicate Compatible(a: Mod, b: Mod)
  {
    var o := OverlapTiles(Box(a), Box(b));
    o <= 0 || 2 * o <= Min(Area(a), Area(b))
  }

  lemma CompatibleSymmetric(a: Mod, b: Mod)
    ensures Compatible(a, b) <==> Compatible(b, a)
  {
    OverlapSymmetric(Box(a), Box(b));
  }

  /** `placementAllowed`: `test` is on the footprint and compatible with
      every module except the one at index `skip` (the module itself when
      it is already placed; pass -1 otherwise). */
  predicate Allowed(mods: seq<Mod>, test: Mod, skip: int, ht: Size)
  {
    WithinBounds(test, ht) && forall j :: 0 <= j < |mods| && j != skip ==> Compatible(test, mods[j])
  }

  /** The pair rule as the program states it over numbers: a positive
      overlap is refused when it exceeds half of the smaller area. */
  lemma CompatibleMeaning(a: Mod, b: Mod)
    ensures var o := OverlapTiles(Box(a), Box(b));
      Compatible(a, b) <==> !(o > 0 && o as real > 0.5 * Min(Area(a), Area(b)) as real)
  {
  }

  /** `placementAllowed`'s loop from module `j` on: the first module other
      than `skip` that overlaps the candidate by more than half of the
      smaller area rejects it. */
  function ScanAllowed(mods: seq<Mod>, test: Mod, skip: int, j: nat): (ok: bool)
    requires j <= |mods|
    ensures ok <==> forall i :: j <= i < |mods| && i != skip ==> Compatible(test, mods[i])
    decreases |mods| - j
  {
    if j == |mods| then true
    else if j == skip then ScanAllowed(mods, test, skip, j + 1)
    else
      var o := OverlapTiles(Box(test), Box(mods[j]));
      if o <= 0 then ScanAllowed(mods, test, skip, j + 1)
      else if 2 * o > Min(Area(test), Area(mods[j])) then false
      else ScanAllowed(mods, test, skip, j + 1)
  }

  /** `placementAllowed`: the bounds check, then the loop over the others. */
  function PlacementAllowed(mods: seq<Mod>, test: Mod, skip: int, ht: Size): (ok: bool)
    ensures ok <==> Allowed(mods, test, skip, ht)
  {
    WithinBounds(test, ht) && ScanAllowed(mods, test, skip, 0)
  }

  /** The layer invariant: every module on the footprint, every pair
      compatible. */
  predicate Placed(mods: seq<Mod>, ht: Size)
  {
    (forall i :: 0 <= i < |mods| ==> WithinBounds(mods[i], ht)) &&
    (forall i, j :: 0 <= i < |mods| && 0 <= j < |mods| && i != j ==> Compatible(mods[i], mods[j]))
  }

  predicate SelectionValid(l: Layer)
  {
    l.selected.Some? ==> l.selected.value < |l.mods|
  }

  /** House sizes are never below one tile. */
  predicate HouseSize(ht: Size)
  {
    ht.w >= 1 && ht.h >= 1
  }

  /** Replacing module `i` by one that passes the placement check with itself skipped
      keeps the layer invariant. */
  lemma ReplaceKeepsPlaced(mods: seq<Mod>, i: nat, m: Mod, ht: Size)
    requires i < |mods| && Placed(mods, ht) && Allowed(mods, m, i, ht)
    ensures Placed(mods[i := m], ht)
  {
    var ms := mods[i := m];
    forall a, b | 0 <= a < |ms| && 0 <= b < |ms| && a != b
      ensures Compatible(ms[a], ms[b])
    {
      if b == i {
        CompatibleSymmetric(ms[a], ms[b]);
      }
    }
  }

  /** Appending a module that passes the placement check keeps the layer invariant. */
  lemma AppendKeepsPlaced(mods: seq<Mod>, m: Mod, ht: Size)
    requires Placed(mods, ht) && Allowed(mods, m, -1, ht)
    ensures Placed(mods + [m], ht)
  {
    var ms := mods + [m];
    forall a, b | 0 <= a < |ms| && 0 <= b < |ms| && a != b
      ensures Compatible(ms[a], ms[b])
    {
      if a == |mods| {
        assert ms[b] == mods[b];
      } else if b == |mods| {
        assert ms[a] == mods[a];
        CompatibleSymmetric(ms[a], ms[b]);
      } else {
        assert ms[a] == mods[a] && ms[b] == mods[b];
      }
    }
  }

  // ---------------------------------------------------------------- adding

  function At(m: Mod, c: int, r: int): Mod { m.(tx := c, ty := r) }

  /** The new module `m` could go at column `c`, row `r`. */
  predicate FreeAt(mods: seq<Mod>, m: Mod, c: int, r: int, ht: Size)
  {
    Allowed(mods, At(m, c, r), -1, ht)
  }

  /** The inner search loop: the first free column in `c..maxC` of row `r`. */
  function SearchCols(mods: seq<Mod>, m: Mod, r: int, c: int, maxC: int, ht: Size): (res: Option<int>)
    ensures res.Some? ==> c <= res.value <= maxC && FreeAt(mods, m, res.value, r, ht)
    ensures res.Some? ==> forall c' :: c <= c' < res.value ==> !FreeAt(mods, m, c', r, ht)
    ensures res.None? ==> forall c' :: c <= c' <= maxC ==> !FreeAt(mods, m, c', r, ht)
    decreases maxC - c + 1
  {
    if c > maxC then None
    else if FreeAt(mods, m, c, r, ht) then Some(c)
    else SearchCols(mods, m, r, c + 1, maxC, ht)
  }

  /** The outer search loop: the first free spot in row-major order among
      rows `r..maxR`. */
  function SearchRows(mods: seq<Mod>, m: Mod, r: int, maxR: int, maxC: int, ht: Size): (res: Option<Point>)
    ensures res.Some? ==> r <= res.value.y <= maxR && 0 <= res.value.x <= maxC
    ensures res.Some? ==> FreeAt(mods, m, res.value.x, res.value.y, ht)
    ensures res.Some? ==> forall r', c' :: r <= r' && 0 <= c' <= maxC && (r' < res.value.y || (r' == res.value.y && c' < res.value.x)) ==> !FreeAt(mods, m, c', r', ht)
    ensures res.None? ==> forall r', c' :: r <= r' <= maxR && 0 <= c' <= maxC ==> !FreeAt(mods, m, c', r', ht)
    decreases maxR - r + 1
  {
    if r > maxR then None
    else
      match SearchCols(mods, m, r, 0, maxC, ht)
      case Some(c) => Some(Point(c, r))
      case None => SearchRows(mods, m, r + 1, maxR, maxC, ht)
  }

  /** `addModule`: clamp the size into the house and the position onto the
      footprint; when that spot breaks the rules, take the first spot in
      row-major order that does not. On success the module is appended and
      selected; with no spot left the layer is unchanged. */
  function AddModule(l: Layer, ht: Size, id: nat, key: Kind, tx: int, ty: int, w: int, h: int): (res: Option<Layer>)
    requires HouseSize(ht)
    ensures var cw := ClampHi(w, 1, ht.w);
      var ch := ClampHi(h, 1, ht.h);
      var m0 := Mod(id, key, 0, 0, cw, ch);
      (res.None? <==> forall c, r :: !FreeAt(l.mods, m0, c, r, ht)) &&
      (res.Some? ==>
        |res.value.mods| == |l.mods| + 1 &&
        res.value.mods[..|l.mods|] == l.mods &&
        res.value.selected == Some(|l.mods|) &&
        res.value.last == l.last &&
        var m := res.value.mods[|l.mods|];
        m == At(m0, m.tx, m.ty) &&
        Allowed(l.mods, m, -1, ht) &&
        (FreeAt(l.mods, m0, ClampHi(tx, 0, Max(0, ht.w - cw)), ClampHi(ty, 0, Max(0, ht.h - ch)), ht) ==>
          m.tx == ClampHi(tx, 0, Max(0, ht.w - cw)) && m.ty == ClampHi(ty, 0, Max(0, ht.h - ch))) &&
        (!FreeAt(l.mods, m0, ClampHi(tx, 0, Max(0, ht.w - cw)), ClampHi(ty, 0, Max(0, ht.h - ch)), ht) ==>
          forall c, r :: r < m.ty || (r == m.ty && c < m.tx) ==> !FreeAt(l.mods, m0, c, r, ht)))
  {
    var cw := ClampHi(w, 1, ht.w);
    var ch := ClampHi(h, 1, ht.h);
    var ctx := ClampHi(tx, 0, Max(0, ht.w - cw));
    var cty := ClampHi(ty, 0, Max(0, ht.h - ch));
    var m0 := Mod(id, key, 0, 0, cw, ch);
    if FreeAt(l.mods, m0, ctx, cty, ht) then
      Some(Layer(l.mods + [At(m0, ctx, cty)], Some(|l.mods|), l.last))
    else
      match SearchRows(l.mods, m0, 0, ht.h - ch, ht.w - cw, ht)
      case None => None
      case Some(p) => Some(Layer(l.mods + [At(m0, p.x, p.y)], Some(|l.mods|), l.last))
  }

  /** Adding keeps the layer invariant and selects a valid module. */
  lemma AddModuleKeepsPlaced(l: Layer, ht: Size, id: nat, key: Kind, tx: int, ty: int, w: int, h: int)
    requires HouseSize(ht) && Placed(l.mods, ht)
    ensures var res := AddModule(l, ht, id, key, tx, ty, w, h);
      res.Some? ==> Placed(res.value.mods, ht) && SelectionValid(res.value)
  {
    var res := AddModule(l, ht, id, key, tx, ty, w, h);
    if res.Some? {
      var m := res.value.mods[|l.mods|];
      assert res.value.mods == l.mods + [m];
      AppendKeepsPlaced(l.mods, m, ht);
    }
  }

  // ------------------------------------------------------ selection, drag

  /** Pressing on a module selects it. */
  function Select(l: Layer, i: nat): (r: Layer)
    requires i < |l.mods|
    ensures r.mods == l.mods && r.selected == Some(i) && SelectionValid(r)
  {
    l.(selected := Some(i))
  }

  /** Dragging module `i` toward tile (`dx`, `dy`): the position is clamped
      onto the footprint and kept only when it passes the placement check against
      every other module; otherwise the old position stays. */
  function Drag(l: Layer, ht: Size, i: nat, dx: int, dy: int): (r: Layer)
    requires i < |l.mods|
    ensures r.selected == l.selected && r.last == l.last && |r.mods| == |l.mods|
    ensures forall k :: 0 <= k < |l.mods| && k != i ==> r.mods[k] == l.mods[k]
    ensures var m := l.mods[i];
      r.mods[i] == m || (r.mods[i] == At(m, ClampHi(dx, 0, ht.w - m.w), ClampHi(dy, 0, ht.h - m.h)) && Allowed(l.mods, r.mods[i], i, ht))
    ensures var m := l.mods[i];
      var moved := At(m, ClampHi(dx, 0, ht.w - m.w), ClampHi(dy, 0, ht.h - m.h));
      Allowed(l.mods, moved, i, ht) ==> r.mods[i] == moved
  {
    var m := l.mods[i];
    var moved := At(m, ClampHi(dx, 0, ht.w - m.w), ClampHi(dy, 0, ht.h - m.h));
    if Allowed(l.mods, moved, i, ht) then l.(mods := l.mods[i := moved]) else l
  }

  lemma DragKeepsPlaced(l: Layer, ht: Size, i: nat, dx: int, dy: int)
    requires i < |l.mods| && Placed(l.mods, ht)
    ensures Placed(Drag(l, ht, i, dx, dy).mods, ht)
  {
    var r := Drag(l, ht, i, dx, dy);
    if r.mods != l.mods {
      assert r.mods == l.mods[i := r.mods[i]];
      ReplaceKeepsPlaced(l.mods, i, r.mods[i], ht);
    }
  }

  // ------------------------------------------------------ arrow-key resize

  datatype Key = ArrowRight | ArrowLeft | ArrowDown | ArrowUp | OtherKey

  /** The size the arrow keys ask for: one tile, or two with Shift, clamped
      to at least one tile and at most the room left to the footprint edge. */
  function Resized(m: Mod, ht: Size, key: Key, shift: bool): (n: Mod)
    ensures n.id == m.id && n.key == m.key && n.tx == m.tx && n.ty == m.ty
    ensures WithinBounds(m, ht) && m.w >= 1 && m.h >= 1 ==>
      var step := if shift then 2 else 1;
      WithinBounds(n, ht) &&
      (key == ArrowRight ==> n.h == m.h && m.w <= n.w <= m.w + step && (n.w == m.w + step || m.tx + n.w == ht.w)) &&
      (key == ArrowLeft ==> n.h == m.h && n.w == Max(1, m.w - step)) &&
      (key == ArrowDown ==> n.w == m.w && m.h <= n.h <= m.h + step && (n.h == m.h + step || m.ty + n.h == ht.h)) &&
      (key == ArrowUp ==> n.w == m.w && n.h == Max(1, m.h - step)) &&
      (key == OtherKey ==> n == m)
  {
    var step := if shift then 2 else 1;
    match key
    case ArrowRight => m.(w := ClampHi(m.w + step, 1, ht.w - m.tx))
    case ArrowLeft => m.(w := ClampHi(m.w - step, 1, ht.w - m.tx))
    case ArrowDown => m.(h := ClampHi(m.h + step, 1, ht.h - m.ty))
    case ArrowUp => m.(h := ClampHi(m.h - step, 1, ht.h - m.ty))
    case OtherKey => m
  }

  /** A key press on the selected module: the new size is kept only when it
      passes the placement check; otherwise the old size stays. Nothing happens
      without a selection. */
  function ResizeSelected(l: Layer, ht: Size, key: Key, shift: bool): (r: Layer)
    requires SelectionValid(l)
    ensures r.selected == l.selected && r.last == l.last && |r.mods| == |l.mods|
    ensures l.selected.None? ==> r == l
    ensures l.selected.Some? ==>
      var i := l.selected.value;
      (forall k :: 0 <= k < |l.mods| && k != i ==> r.mods[k] == l.mods[k]) &&
      (r.mods[i] == l.mods[i] || (r.mods[i] == Resized(l.mods[i], ht, key, shift) && Allowed(l.mods, r.mods[i], i, ht))) &&
      (Allowed(l.mods, Resized(l.mods[i], ht, key, shift), i, ht) ==> r.mods[i] == Resized(l.mods[i], ht, key, shift))
  {
    match l.selected
    case None => l
    case Some(i) =>
      var n := Resized(l.mods[i], ht, key, shift);
      if Allowed(l.mods, n, i, ht) then l.(mods := l.mods[i := n]) else l
  }

  lemma ResizeSelectedKeepsPlaced(l: Layer, ht: Size, key: Key, shift: bool)
    requires SelectionValid(l) && Placed(l.mods, ht)
    ensures Placed(ResizeSelected(l, ht, key, shift).mods, ht)
  {
    var r := ResizeSelected(l, ht, key, shift);
    if r.mods != l.mods {
      var i := l.selected.value;
      assert r.mods == l.mods[i := r.mods[i]];
      ReplaceKeepsPlaced(l.mods, i, r.mods[i], ht);
    }
  }

  // --------------------------------------------------------- shrink cascade

  /** Distance between two positions on one axis. */
  function Dist(a: int, b: int): int
  {
    Abs(a - b)
  }

  /** `v` is the position in [lo, hi] closest to `x`. */
  predicate Nearest(v: int, x: int, lo: int, hi: int)
  {
    lo <= v <= hi && forall t :: lo <= t <= hi ==> Dist(v, x) <= Dist(t, x)
  }

  /** Clamping picks the closest position of a non-empty range. */
  lemma ClampNearest(x: int, lo: int, hi: int)
    requires lo <= hi
    ensures Nearest(ClampHi(x, lo, hi), x, lo, hi)
  {
  }

  /** One module after the house changed size: the position is clamped
      using the module's old size, then the size is capped by the house. */
  function Squeeze(m: Mod, ht: Size): (n: Mod)
    ensures WithinBounds(n, ht)
    ensures n.id == m.id && n.key == m.key
    ensures n.w == Min(m.w, ht.w) && n.h == Min(m.h, ht.h)
    ensures Nearest(n.tx, m.tx, 0, Max(0, ht.w - m.w)) && Nearest(n.ty, m.ty, 0, Max(0, ht.h - m.h))
    ensures n.w <= m.w && n.h <= m.h
    ensures WithinBounds(m, ht) ==> n == m
    ensures m.w >= 1 && m.h >= 1 && HouseSize(ht) ==> n.w >= 1 && n.h >= 1
  {
    var ntx := ClampHi(m.tx, 0, Max(0, ht.w - m.w));
    var nty := ClampHi(m.ty, 0, Max(0, ht.h - m.h));
    ClampNearest(m.tx, 0, Max(0, ht.w - m.w));
    ClampNearest(m.ty, 0, Max(0, ht.h - m.h));
    Mod(m.id, m.key, ntx, nty, Min(m.w, ht.w), Min(m.h, ht.h))
  }

  function SqueezeAll(mods: seq<Mod>, ht: Size): (r: seq<Mod>)
    ensures |r| == |mods|
    ensures forall k :: 0 <= k < |mods| ==> r[k] == Squeeze(mods[k], ht)
  {
    if |mods| == 0 then [] else [Squeeze(mods[0], ht)] + SqueezeAll(mods[1..], ht)
  }

  /** The per-frame check: when the house size differs from the one last
      seen, every module is pulled onto the new footprint. The rule about
      overlaps is not re-checked. */
  function OnUpdate(l: Layer, ht: Size): (r: Layer)
    ensures r.selected == l.selected && |r.mods| == |l.mods| && r.last == ht
    ensures ht == l.last ==> r == l
    ensures ht != l.last ==> forall k :: 0 <= k < |r.mods| ==> r.mods[k] == Squeeze(l.mods[k], ht)
    ensures ht != l.last ==> forall k :: 0 <= k < |r.mods| ==> WithinBounds(r.mods[k], ht)
    ensures forall k :: 0 <= k < |r.mods| ==>
      r.mods[k].id == l.mods[k].id && r.mods[k].key == l.mods[k].key &&
      r.mods[k].w <= l.mods[k].w && r.mods[k].h <= l.mods[k].h
  {
    if ht == l.last then l
    else Layer(SqueezeAll(l.mods, ht), l.selected, ht)
  }

  /** Modules that were already on the new footprint are not moved. */
  lemma OnUpdateKeepsFitting(l: Layer, ht: Size, k: nat)
    requires k < |l.mods| && WithinBounds(l.mods[k], ht)
    ensures OnUpdate(l, ht).mods[k] == l.mods[k]
  {
  }

  /** The shrink cascade neither keeps the overlap rule nor undoes itself:
      two 2 x 2 modules side by side in a 4 x 2 house are both pushed to
      the left edge when the house narrows to 2 x 2, where they cover the
      same tiles, and they stay there when the house widens again. */
  lemma ShrinkBreaksPlaced()
    ensures var wide, narrow := Size(4, 2), Size(2, 2);
      var l := Layer([Mod(0, Galley, 0, 0, 2, 2), Mod(1, Galley, 2, 0, 2, 2)], None, wide);
      var l1 := OnUpdate(l, narrow);
      Placed(l.mods, wide) && !Placed(l1.mods, narrow) &&
      OnUpdate(l1, wide).mods != l.mods
  {
    var wide, narrow := Size(4, 2), Size(2, 2);
    var a, b := Mod(0, Galley, 0, 0, 2, 2), Mod(1, Galley, 2, 0, 2, 2);
    var l := Layer([a, b], None, wide);
    assert OverlapTiles(Box(a), Box(b)) == 0;
    assert OverlapTiles(Box(b), Box(a)) == 0;
    var l1 := OnUpdate(l, narrow);
    assert l1.mods[1] == Mod(1, Galley, 0, 0, 2, 2);
    assert OverlapTiles(Box(l1.mods[1]), Box(l1.mods[0])) == 4;
    assert !Compatible(l1.mods[1], l1.mods[0]);
    assert OnUpdate(l1, wide).mods[1] == l1.mods[1];
  }

  // --------------------------------------------------------------- removal

  /** `findIndex` on the id: the first module carrying it. */
  function FindId(mods: seq<Mod>, id: nat): (r: Option<nat>)
    ensures r.Some? ==> r.value < |mods| && mods[r.value].id == id
    ensures r.Some? ==> forall k :: 0 <= k < r.value ==> mods[k].id != id
    ensures r.None? ==> forall k :: 0 <= k < |mods| ==> mods[k].id != id
  {
    if |mods| == 0 then None
    else if mods[0].id == id then Some(0)
    else match FindId(mods[1..], id)
      case None => None
      case Some(k) => Some(k + 1)
  }

  /** Delete the module at `i`; a selection of it is cleared, a selection
      of another module keeps pointing at that module. */
  function RemoveAt(l: Layer, i: nat): (r: Layer)
    requires i < |l.mods| && SelectionValid(l)
    ensures |r.mods| == |l.mods| - 1 && r.last == l.last && SelectionValid(r)
    ensures forall k :: 0 <= k < i ==> r.mods[k] == l.mods[k]
    ensures forall k :: i <= k < |r.mods| ==> r.mods[k] == l.mods[k + 1]
    ensures l.selected == Some(i) ==> r.selected.None?
    ensures l.selected.None? ==> r.selected.None?
    ensures l.selected.Some? && l.selected.value != i ==>
      r.selected.Some? && r.mods[r.selected.value] == l.mods[l.selected.value]
  {
    var sel := match l.selected
      case None => None
      case Some(s) => if s == i then None else if s > i then Some(s - 1) else Some(s);
    Layer(l.mods[..i] + l.mods[i + 1..], sel, l.last)
  }

  /** `remove(id)`: delete the first module carrying `id`, if any. */
  function Remove(l: Layer, id: nat): (r: Layer)
    requires SelectionValid(l)
    ensures SelectionValid(r) && r.last == l.last
    ensures FindId(l.mods, id).None? ==> r == l
    ensures FindId(l.mods, id).Some? ==> r == RemoveAt(l, FindId(l.mods, id).value)
  {
    match FindId(l.mods, id)
    case None => l
    case Some(i) => RemoveAt(l, i)
  }

  /** Ids are unique among the modules. */
  predicate UniqueIds(mods: seq<Mod>)
  {
    forall i, j :: 0 <= i < j < |mods| ==> mods[i].id != mods[j].id
  }

  /** With unique ids, `remove(id)` leaves no module with that id and
      removes nothing else. */
  lemma RemoveOnlyThatId(l: Layer, id: nat)
    requires SelectionValid(l) && UniqueIds(l.mods)
    ensures var r := Remove(l, id);
      (forall k :: 0 <= k < |r.mods| ==> r.mods[k].id != id) &&
      (forall k :: 0 <= k < |l.mods| && l.mods[k].id != id ==> l.mods[k] in r.mods) &&
      (|r.mods| == |l.mods| - 1 <==> exists k :: 0 <= k < |l.mods| && l.mods[k].id == id)
  {
    var r := Remove(l, id);
    match FindId(l.mods, id)
    case None =>
    case Some(i) =>
      forall k | 0 <= k < |l.mods| && l.mods[k].id != id
        ensures l.mods[k] in r.mods
      {
        if k < i {
          assert r.mods[k] == l.mods[k];
        } else {
          assert r.mods[k - 1] == l.mods[k];
        }
      }
  }

  /** Removing a module keeps the layer invariant. */
  lemma RemoveAtKeepsPlaced(l: Layer, i: nat, ht: Size)
    requires i < |l.mods| && SelectionValid(l) && Placed(l.mods, ht)
    ensures Placed(RemoveAt(l, i).mods, ht)
  {
    var r := RemoveAt(l, i);
    forall a | 0 <= a < |r.mods|
      ensures r.mods[a] == l.mods[if a < i then a else a + 1]
    {
    }
  }

  /** Delete/Backspace: remove the selected module and clear the selection. */
  function RemoveSelected(l: Layer): (r: Layer)
    requires SelectionValid(l)
    ensures l.selected.None? ==> r == l
    ensures l.selected.Some? ==> r.selected.None? && r.mods == RemoveAt(l, l.selected.value).mods
  {
    match l.selected
    case None => l
    case Some(i) => RemoveAt(l, i)
  }
}

=== FILE: occupancy.dfy ===
/** The occupancy grid: one integer flag per world tile, 0 for free and
    non-zero for covered by a habitat footprint. */
module Occupancy {
  import opened Common

  type Grid = seq<seq<int>>

  /** A grid has at least one row and all rows share the first row's width
      (the program reads the width from row 0). */
  predicate IsGrid(g: Grid)
  {
    |g| > 0 && forall y :: 0 <= y < |g| ==> |g[y]| == |g[0]|
  }

  function Width(g: Grid): int
    requires IsGrid(g)
  {
    |g[0]|
  }

  /** The bounds test at the head of `rectFree`. */
  predicate InBounds(g: Grid, r: Rect)
    requires IsGrid(g)
  {
    r.ox >= 0 && r.oy >= 0 && r.oy + r.h <= |g| && r.ox + r.w <= Width(g)
  }

  predicate OnGrid(g: Grid, x: int, y: int)
  {
    0 <= y < |g| && 0 <= x < |g[y]|
  }

  /** `makeGrid(w, h)`: `h` rows of `w` zeros. */
  function MakeGrid(w: nat, h: nat): (g: Grid)
    ensures |g| == h
    ensures forall y :: 0 <= y < h ==> |g[y]| == w
    ensures forall y, x :: 0 <= y < h && 0 <= x < w ==> g[y][x] == 0
    ensures h > 0 ==> IsGrid(g) && Width(g) == w
  {
    seq(h, _ => seq(w, _ => 0))
  }

  /** Scan of one row: true iff cells `x .. x1-1` are all 0. */
  function RowFree(row: seq<int>, x: int, x1: int): (r: bool)
    requires 0 <= x && x1 <= |row|
    ensures r <==> forall i :: x <= i < x1 ==> row[i] == 0
    decreases x1 - x
  {
    if x >= x1 then true
    else if row[x] != 0 then false
    else RowFree(row, x + 1, x1)
  }

  /** Scan of rows `y .. y1-1`, columns `x0 .. x1-1`. */
  function RowsFree(g: Grid, y: int, y1: int, x0: int, x1: int): (r: bool)
    requires 0 <= y && y1 <= |g| && 0 <= x0
    requires forall j :: y <= j < y1 ==> x1 <= |g[j]|
    ensures r <==> forall j, i :: y <= j < y1 && x0 <= i < x1 ==> g[j][i] == 0
    decreases y1 - y
  {
    if y >= y1 then true
    else if !RowFree(g[y], x0, x1) then false
    else RowsFree(g, y + 1, y1, x0, x1)
  }

  /** `rectFree`: false when the rectangle leaves the grid, otherwise true
      iff every covered cell is 0. */
  function RectFree(g: Grid, r: Rect): (free: bool)
    requires IsGrid(g)
    ensures !InBounds(g, r) ==> !free
    ensures InBounds(g, r) ==>
      (free <==> forall y, x :: InRect(r, x, y) ==> g[y][x] == 0)
  {
    if !InBounds(g, r) then false
    else RowsFree(g, r.oy, r.oy + r.h, r.ox, r.ox + r.w)
  }

  /** One row of `markRect`: cells `x .. x1-1` become `val`. */
  function MarkRow(row: seq<int>, x: int, x1: int, val: int): (r: seq<int>)
    requires 0 <= x && x1 <= |row|
    ensures |r| == |row|
    ensures forall i :: 0 <= i < |row| ==> r[i] == (if x <= i < x1 then val else row[i])
    decreases x1 - x
  {
    if x >= x1 then row
    else MarkRow(row[x := val], x + 1, x1, val)
  }

  /** Rows `y .. y1-1` of `markRect`. */
  function MarkRows(g: Grid, y: int, y1: int, x0: int, x1: int, val: int): (r: Grid)
    requires 0 <= y && y1 <= |g| && 0 <= x0
    requires forall j :: y <= j < y1 ==> x1 <= |g[j]|
    ensures |r| == |g|
    ensures forall j :: 0 <= j < |g| ==> |r[j]| == |g[j]|
    ensures forall j, i :: 0 <= j < |g| && 0 <= i < |g[j]| ==>
      r[j][i] == (if y <= j < y1 && x0 <= i < x1 then val else g[j][i])
    decreases y1 - y
  {
    if y >= y1 then g
    else MarkRows(g[y := MarkRow(g[y], x0, x1, val)], y + 1, y1, x0, x1, val)
  }

  /** `markRect`: every covered cell becomes `val`, every other cell keeps
      its value. The caller guarantees the rectangle is on the grid. */
  function MarkRect(g: Grid, r: Rect, val: int): (g': Grid)
    requires IsGrid(g) && InBounds(g, r)
    ensures IsGrid(g') && |g'| == |g| && Width(g') == Width(g)
    ensures forall y, x :: OnGrid(g, x, y) ==>
      g'[y][x] == (if InRect(r, x, y) then val else g[y][x])
  {
    MarkRows(g, r.oy, r.oy + r.h, r.ox, r.ox + r.w, val)
  }

  /** Marking a non-empty rectangle with a non-zero flag makes it not free;
      marking it with 0 makes it free. */
  lemma MarkThenFree(g: Grid, r: Rect, val: int)
    requires IsGrid(g) && InBounds(g, r)
    ensures r.w > 0 && r.h > 0 && val != 0 ==> !RectFree(MarkRect(g, r, val), r)
    ensures val == 0 ==> RectFree(MarkRect(g, r, val), r)
  {
    var g' := MarkRect(g, r, val);
    if r.w > 0 && r.h > 0 && val != 0 {
      assert InRect(r, r.ox, r.oy) && OnGrid(g, r.ox, r.oy);
      assert g'[r.oy][r.ox] == val;
    }
  }

  /** Every on-grid rectangle of a fresh grid is free. */
  lemma FreshGridFree(w: nat, h: nat, r: Rect)
    requires h > 0 && InBounds(MakeGrid(w, h), r)
    ensures RectFree(MakeGrid(w, h), r)
  {
  }
}

=== FILE: placement.dfy ===
/** Habitats on the world grid: the terrain slope rule, the invariant that
    ties the occupancy grid to the habitat footprints, the move rule with
    its commit or rollback, and the initial scene. */
module Placement {
  import opened Common
  import opened Occupancy
  import opened Terrain
  import Layout

  /** A placed habitat: top-left tile, current size and its fixed area
      budget in tiles. */
  datatype Habitat = Habitat(origin: Point, w: int, h: int, areaTiles: int)

  function Foot(hb: Habitat): Rect
  {
    Rect(hb.origin.x, hb.origin.y, hb.w, hb.h)
  }

  /** Largest allowed height spread under a w x h footprint, in metres. */
  function SlopeLimit(w: int, h: int, tileMeters: real): real
  {
    0.05 * Max(w, h) as real * tileMeters
  }

  /** `terrainOK`: the height spread under the rectangle is within the limit. */
  predicate TerrainOK(m: HeightMap, r: Rect, tileMeters: real)
  {
    RectSlope(m, r) as real <= SlopeLimit(r.w, r.h, tileMeters)
  }

  /** With a non-negative limit, the terrain rule holds iff no two tiles
      under the rectangle differ in height by more than the limit. */
  lemma TerrainOKMeaning(m: HeightMap, r: Rect, tileMeters: real)
    requires tileMeters >= 0.0 && Max(r.w, r.h) >= 0
    ensures TerrainOK(m, r, tileMeters) <==>
      forall y1, x1, y2, x2 ::
        InRect(r, x1, y1) && OnMap(m, x1, y1) && InRect(r, x2, y2) && OnMap(m, x2, y2) ==>
          (m[y1][x1] - m[y2][x2]) as real <= SlopeLimit(r.w, r.h, tileMeters)
  {
    var s := RectSlope(m, r);
    var limit := SlopeLimit(r.w, r.h, tileMeters);
    if s as real <= limit {
      forall y1, x1, y2, x2 | InRect(r, x1, y1) && OnMap(m, x1, y1) && InRect(r, x2, y2) && OnMap(m, x2, y2)
        ensures (m[y1][x1] - m[y2][x2]) as real <= limit
      {
        assert m[y1][x1] - m[y2][x2] <= s;
      }
    }
    if exists y, x :: InRect(r, x, y) && OnMap(m, x, y) {
      var y1, x1, y2, x2 :| InRect(r, x1, y1) && OnMap(m, x1, y1) && InRect(r, x2, y2) && OnMap(m, x2, y2) &&
        m[y1][x1] - m[y2][x2] == s;
    } else {
      assert s == 0;
    }
  }

  /** 1 when the habitat covers the tile, else 0. */
  function Cov(hb: Habitat, x: int, y: int): int
  {
    if InRect(Foot(hb), x, y) then 1 else 0
  }

  function Covers(habs: seq<Habitat>, x: int, y: int): (s: seq<int>)
    ensures |s| == |habs| && forall k :: 0 <= k < |habs| ==> s[k] == Cov(habs[k], x, y)
  {
    seq(|habs|, k requires 0 <= k < |habs| => Cov(habs[k], x, y))
  }

  /** Number of habitats whose footprint covers the tile. */
  function CoverCount(habs: seq<Habitat>, x: int, y: int): int
  {
    Sum(Covers(habs, x, y))
  }

  /** The same count with habitat `i` left out. */
  function Others(habs: seq<Habitat>, i: int, x: int, y: int): int
    requires 0 <= i < |habs|
  {
    CoverCount(habs, x, y) - Cov(habs[i], x, y)
  }

  /** Every footprint lies on the grid. */
  predicate Fits(g: Grid, habs: seq<Habitat>)
  {
    IsGrid(g) && forall k :: 0 <= k < |habs| ==> InBounds(g, Foot(habs[k]))
  }

  /** The scene invariant: each grid cell holds the number of habitats
      covering it, and that number is at most 1 (footprints never overlap). */
  ghost predicate Consistent(g: Grid, habs: seq<Habitat>)
  {
    Fits(g, habs) &&
    forall y, x :: OnGrid(g, x, y) ==> g[y][x] == CoverCount(habs, x, y) <= 1
  }

  /** The invariant while habitat `i` is lifted off the grid (its footprint
      freed during a move or a resize gesture). */
  ghost predicate Lifted(g: Grid, habs: seq<Habitat>, i: int)
  {
    Fits(g, habs) && 0 <= i < |habs| &&
    forall y, x :: OnGrid(g, x, y) ==> g[y][x] == Others(habs, i, x, y) <= 1
  }

  /** No habitat other than `i` shares a tile with `r`. */
  ghost predicate Clear(habs: seq<Habitat>, i: int, r: Rect)
  {
    forall j, y, x :: 0 <= j < |habs| && j != i && InRect(r, x, y) ==> !InRect(Foot(habs[j]), x, y)
  }

  /** The count is never negative, and counts habitat `k` when it covers the tile. */
  lemma CoverCountBounds(habs: seq<Habitat>, k: int, x: int, y: int)
    requires 0 <= k < |habs|
    ensures CoverCount(habs, x, y) >= Cov(habs[k], x, y) >= 0
  {
    SumAtLeast(Covers(habs, x, y), k);
  }

  /** Replacing habitat `i` changes each tile's count by the difference of
      the old and new coverage. */
  lemma CoverCountUpdate(habs: seq<Habitat>, i: int, hb: Habitat, x: int, y: int)
    requires 0 <= i < |habs|
    ensures CoverCount(habs[i := hb], x, y) == CoverCount(habs, x, y) - Cov(habs[i], x, y) + Cov(hb, x, y)
  {
    assert Covers(habs[i := hb], x, y) == Covers(habs, x, y)[i := Cov(hb, x, y)];
    SumUpdate(Covers(habs, x, y), i, Cov(hb, x, y));
  }

  /** The count without `i` is 0 exactly when no other habitat covers the
      tile, and otherwise at least 1. */
  lemma OthersMeaning(habs: seq<Habitat>, i: int, x: int, y: int)
    requires 0 <= i < |habs|
    ensures Others(habs, i, x, y) >= 0
    ensures Others(habs, i, x, y) == 0 <==>
      forall j :: 0 <= j < |habs| && j != i ==> !InRect(Foot(habs[j]), x, y)
  {
    var s := Covers(habs, x, y);
    SumUpdate(s, i, 0);
    var s' := s[i := 0];
    SumNonNeg(s');
    if forall j :: 0 <= j < |habs| && j != i ==> !InRect(Foot(habs[j]), x, y) {
      SumConst(s', 0);
    } else {
      var j :| 0 <= j < |habs| && j != i && InRect(Foot(habs[j]), x, y);
      SumAtLeast(s', j);
    }
  }

  /** Under the invariant no tile is covered by two habitats. */
  lemma ConsistentNoOverlap(g: Grid, habs: seq<Habitat>, i: int, j: int, x: int, y: int)
    requires Consistent(g, habs)
    requires 0 <= i < |habs| && 0 <= j < |habs| && i != j
    requires InRect(Foot(habs[i]), x, y)
    ensures !InRect(Foot(habs[j]), x, y)
  {
    assert OnGrid(g, x, y);
    SumAtLeastTwo(Covers(habs, x, y), i, j);
  }

  /** Freeing the footprint of habitat `i` lifts it. */
  lemma FreeLifts(g: Grid, habs: seq<Habitat>, i: int)
    requires Consistent(g, habs) && 0 <= i < |habs|
    ensures Lifted(MarkRect(g, Foot(habs[i]), 0), habs, i)
  {
    var g1 := MarkRect(g, Foot(habs[i]), 0);
    forall y, x | OnGrid(g1, x, y)
      ensures g1[y][x] == Others(habs, i, x, y) <= 1
    {
      assert OnGrid(g, x, y);
      CoverCountBounds(habs, i, x, y);
    }
  }

  /** While `i` is lifted, a rectangle is free iff it is on the grid and
      no other habitat shares a tile with it. */
  lemma LiftedFree(g: Grid, habs: seq<Habitat>, i: int, r: Rect)
    requires Lifted(g, habs, i)
    ensures RectFree(g, r) <==> InBounds(g, r) && Clear(habs, i, r)
  {
    if InBounds(g, r) {
      if RectFree(g, r) {
        forall j, y, x | 0 <= j < |habs| && j != i && InRect(r, x, y)
          ensures !InRect(Foot(habs[j]), x, y)
        {
          assert OnGrid(g, x, y);
          OthersMeaning(habs, i, x, y);
        }
      }
      if Clear(habs, i, r) {
        forall y, x | InRect(r, x, y) ensures g[y][x] == 0 {
          assert OnGrid(g, x, y);
          OthersMeaning(habs, i, x, y);
        }
      }
    }
  }

  /** Putting the lifted habitat down on a free rectangle restores the invariant. */
  lemma PlaceRestores(g: Grid, habs: seq<Habitat>, i: int, hb: Habitat)
    requires Lifted(g, habs, i) && RectFree(g, Foot(hb))
    ensures Consistent(MarkRect(g, Foot(hb), 1), habs[i := hb])
  {
    var g' := MarkRect(g, Foot(hb), 1);
    var habs' := habs[i := hb];
    forall y, x | OnGrid(g', x, y)
      ensures g'[y][x] == CoverCount(habs', x, y) <= 1
    {
      assert OnGrid(g, x, y);
      CoverCountUpdate(habs, i, hb, x, y);
    }
  }

  /** Putting the lifted habitat back where it was gives back the grid it
      was lifted from. */
  lemma RestoreIsIdentity(g: Grid, habs: seq<Habitat>, i: int)
    requires Consistent(g, habs) && 0 <= i < |habs|
    ensures MarkRect(MarkRect(g, Foot(habs[i]), 0), Foot(habs[i]), 1) == g
  {
    var g2 := MarkRect(MarkRect(g, Foot(habs[i]), 0), Foot(habs[i]), 1);
    forall y | 0 <= y < |g| ensures g2[y] == g[y] {
      forall x | 0 <= x < |g[y]| ensures g2[y][x] == g[y][x] {
        assert OnGrid(g, x, y);
        CoverCountBounds(habs, i, x, y);
      }
    }
  }

  datatype MoveOutcome = Moved | RejectedTerrain | RejectedOccupied

  datatype MoveResult = MoveResult(grid: Grid, habs: seq<Habitat>, outcome: MoveOutcome)

  /** The drop callback of a habitat drag: free the old footprint, test the
      target for occupancy and slope, then commit the new origin or re-mark
      the old footprint. A slope failure is reported as such even when the
      target is also occupied. */
  function MoveHabitat(g: Grid, m: HeightMap, tileMeters: real, habs: seq<Habitat>, i: int, to: Point): (r: MoveResult)
    requires Fits(g, habs) && 0 <= i < |habs|
    ensures r.outcome == RejectedTerrain <==> !TerrainOK(m, Foot(habs[i].(origin := to)), tileMeters)
    ensures r.outcome == Moved ==> r.habs == habs[i := habs[i].(origin := to)]
    ensures r.outcome != Moved ==> r.habs == habs
    ensures IsGrid(r.grid) && |r.grid| == |g| && Width(r.grid) == Width(g)
  {
    var old_ := Foot(habs[i]);
    var moved := habs[i].(origin := to);
    var g1 := MarkRect(g, old_, 0);
    var free := RectFree(g1, Foot(moved));
    var terrain := TerrainOK(m, Foot(moved), tileMeters);
    if free && terrain then
      MoveResult(MarkRect(g1, Foot(moved), 1), habs[i := moved], Moved)
    else
      MoveResult(MarkRect(g1, old_, 1), habs, if !terrain then RejectedTerrain else RejectedOccupied)
  }

  /** On a consistent scene a move is accepted iff the target is on the
      grid, touches no other habitat and passes the slope rule; the scene
      stays consistent, and a rejected move leaves the grid as it was. */
  lemma MoveHabitatSound(g: Grid, m: HeightMap, tileMeters: real, habs: seq<Habitat>, i: int, to: Point)
    requires Consistent(g, habs) && 0 <= i < |habs|
    ensures var r := MoveHabitat(g, m, tileMeters, habs, i, to);
      var target := Foot(habs[i].(origin := to));
      (r.outcome == Moved <==> InBounds(g, target) && Clear(habs, i, target) && TerrainOK(m, target, tileMeters)) &&
      Consistent(r.grid, r.habs) &&
      (r.outcome != Moved ==> r.grid == g)
  {
    var moved := habs[i].(origin := to);
    var g1 := MarkRect(g, Foot(habs[i]), 0);
    FreeLifts(g, habs, i);
    LiftedFree(g1, habs, i, Foot(moved));
    RestoreIsIdentity(g, habs, i);
    if RectFree(g1, Foot(moved)) {
      PlaceRestores(g1, habs, i, moved);
    }
  }

  /** Marks the footprints `habs[k ..]` with 1, in order. */
  function MarkAll(g: Grid, habs: seq<Habitat>, k: nat): (g': Grid)
    requires Fits(g, habs) && k <= |habs|
    ensures IsGrid(g') && |g'| == |g| && Width(g') == Width(g)
    decreases |habs| - k
  {
    if k == |habs| then g
    else MarkAll(MarkRect(g, Foot(habs[k]), 1), habs, k + 1)
  }

  /** No two footprints share a tile. */
  predicate PairwiseApart(habs: seq<Habitat>)
  {
    forall i, j :: 0 <= i < |habs| && 0 <= j < |habs| && i != j ==> Disjoint(Foot(habs[i]), Foot(habs[j]))
  }

  /** Marking the footprints one after another on a grid that counts the
      first `k` of them yields a grid that counts them all. */
  lemma {:induction false} MarkAllCounts(g: Grid, habs: seq<Habitat>, k: nat)
    requires Fits(g, habs) && k <= |habs| && PairwiseApart(habs)
    requires forall y, x :: OnGrid(g, x, y) ==> g[y][x] == CoverCount(habs[..k], x, y) <= 1
    ensures Consistent(MarkAll(g, habs, k), habs)
    decreases |habs| - k
  {
    if k == |habs| {
      assert habs[..k] == habs;
    } else {
      var g' := MarkRect(g, Foot(habs[k]), 1);
      forall y, x | OnGrid(g', x, y)
        ensures g'[y][x] == CoverCount(habs[..k + 1], x, y) <= 1
      {
        assert OnGrid(g, x, y);
        var s := Covers(habs[..k + 1], x, y);
        assert s[..k] == Covers(habs[..k], x, y);
        if InRect(Foot(habs[k]), x, y) {
          forall j | 0 <= j < k ensures Covers(habs[..k], x, y)[j] == 0 {
            DisjointNoCommonTile(Foot(habs[k]), Foot(habs[j]), x, y);
          }
          SumConst(Covers(habs[..k], x, y), 0);
        }
      }
      MarkAllCounts(g', habs, k + 1);
    }
  }

  /** Gap and margin of the initial packing, in tiles. */
  const Gap: nat := 1
  const Margin: nat := 2

  datatype Scene = Scene(grid: Grid, heights: HeightMap, habs: seq<Habitat>, worldW: int, worldH: int)

  /** Number of habitats the scene creates: the derived count clamped to [1, 200]. */
  function SceneCount(habitatsCount: int): (n: nat)
    ensures 1 <= n <= 200
    ensures 1 <= habitatsCount <= 200 ==> n == habitatsCount
  {
    ClampLo(habitatsCount, 1, 200)
  }

  /** One habitat per packed position, each with the full footprint as its area budget. */
  function Habitats(ps: seq<Point>, wT: int, hT: int): (habs: seq<Habitat>)
    ensures |habs| == |ps|
    ensures forall k :: 0 <= k < |ps| ==> habs[k] == Habitat(ps[k], wT, hT, wT * hT)
  {
    seq(|ps|, k requires 0 <= k < |ps| => Habitat(ps[k], wT, hT, wT * hT))
  }

  /** The world of the scene's `create`: the packed map, widened to the
      screen's `minX` x `minY` tiles. */
  function WorldSize(count: nat, wT: nat, hT: nat, minX: int, minY: int): (d: Size)
    requires count >= 1
    ensures d.w >= minX && d.h >= minY
    ensures d.w >= wT + 2 * Margin && d.h >= hT + 2 * Margin
  {
    var plan := Layout.GridLayout(count, wT, hT, Gap, Margin);
    PackingSize(count, wT, hT);
    Size(Max(plan.mapW, minX), Max(plan.mapH, minY))
  }

  /** The scene's `create`: world at least as large as the packing and the
      screen (`minX` x `minY` tiles), a free grid, flat terrain, and every
      habitat marked at its packed position. */
  function InitialScene(habitatsCount: int, wT: nat, hT: nat, minX: int, minY: int): (s: Scene)
    ensures |s.habs| == SceneCount(habitatsCount)
    ensures s.worldW >= minX && s.worldH >= minY && s.worldH >= 1
    ensures |s.grid| == s.worldH && |s.heights| == s.worldH
    ensures forall y, x :: OnMap(s.heights, x, y) ==> s.heights[y][x] == 0
    ensures forall k :: 0 <= k < |s.habs| ==> s.habs[k].w == wT && s.habs[k].h == hT
  {
    var count := SceneCount(habitatsCount);
    var plan := Layout.GridLayout(count, wT, hT, Gap, Margin);
    var world := WorldSize(count, wT, hT, minX, minY);
    var g0 := MakeGrid(world.w, world.h);
    var habs := Habitats(plan.positions, wT, hT);
    InitialFits(count, wT, hT, minX, minY);
    Scene(MarkAll(g0, habs, 0), MakeHeightMap(world.w, world.h, 0), habs, world.w, world.h)
  }

  /** The packing is at least one footprint plus the margins in each direction. */
  lemma PackingSize(count: nat, wT: nat, hT: nat)
    requires count >= 1
    ensures var plan := Layout.GridLayout(count, wT, hT, Gap, Margin);
      plan.mapW >= wT + 2 * Margin && plan.mapH >= hT + 2 * Margin
  {
    var plan := Layout.GridLayout(count, wT, hT, Gap, Margin);
    Layout.GridLayoutPositions(count, wT, hT, Gap, Margin);
    if plan.rows < 1 {
      MulLe(plan.rows, 0, plan.cols);
    }
    MulLe(1, plan.cols, wT + Gap);
    MulLe(1, plan.rows, hT + Gap);
  }

  /** The packed footprints fit the initial world. */
  lemma InitialFits(count: nat, wT: nat, hT: nat, minX: int, minY: int)
    requires count >= 1
    ensures var plan := Layout.GridLayout(count, wT, hT, Gap, Margin);
      var world := WorldSize(count, wT, hT, minX, minY);
      |plan.positions| == count &&
      Fits(MakeGrid(world.w, world.h), Habitats(plan.positions, wT, hT)) &&
      PairwiseApart(Habitats(plan.positions, wT, hT))
  {
    var plan := Layout.GridLayout(count, wT, hT, Gap, Margin);
    Layout.GridLayoutFootprints(count, wT, hT, Gap, Margin);
    PackingSize(count, wT, hT);
    var habs := Habitats(plan.positions, wT, hT);
    assert forall k :: 0 <= k < |habs| ==> Foot(habs[k]) == Layout.Footprint(plan.positions[k], wT, hT);
  }

  /** The initial scene satisfies the scene invariant. */
  lemma InitialSceneConsistent(habitatsCount: int, wT: nat, hT: nat, minX: int, minY: int)
    ensures var s := InitialScene(habitatsCount, wT, hT, minX, minY);
      Consistent(s.grid, s.habs)
  {
    var count := SceneCount(habitatsCount);
    var plan := Layout.GridLayout(count, wT, hT, Gap, Margin);
    InitialFits(count, wT, hT, minX, minY);
    var world := WorldSize(count, wT, hT, minX, minY);
    var g0 := MakeGrid(world.w, world.h);
    var habs := Habitats(plan.positions, wT, hT);
    assert habs[..0] == [];
    MarkAllCounts(g0, habs, 0);
  }
}

=== FILE: resize.dfy ===
/** Resizing a habitat under a fixed area budget: choosing the paired side
    for a dragged edge, the preview each drag produces, and the gesture's
    commit or rollback on release. All geometry is in whole tiles. */
module Resize {
  import opened Common
  import opened Occupancy
  import opened Terrain
  import opened Placement

  /** Smallest side a resized habitat may have. */
  const MinSide: int := 3

  /** `AREA_MAX`: the habitat's area budget in tiles, at least 1. */
  function AreaMax(areaTiles: int): (a: int)
    ensures a >= 1 && (areaTiles >= 1 ==> a == areaTiles)
  {
    Max(1, areaTiles)
  }

  /** `while (other * s > budget && s > MIN_SIDE) s--`: the largest side not
      above `s` that fits the budget next to `other`, but never below the minimum. */
  function Shrink(s: int, other: int, budget: int): (r: int)
    requires s >= MinSide
    ensures MinSide <= r <= s
    ensures other * r <= budget || r == MinSide
    ensures r < s ==> other * (r + 1) > budget
    ensures other * s <= budget ==> r == s
    decreases s
  {
    if other * s > budget && s > MinSide then Shrink(s - 1, other, budget) else s
  }

  /** `while (other * (s + 1) <= budget && s + 1 <= max) s++`: grow the side
      while the next step still fits both the budget and the world. */
  function Grow(s: int, other: int, budget: int, max: int): (r: int)
    ensures r >= s
    ensures other * (r + 1) > budget || r + 1 > max
    ensures other * s <= budget ==> other * r <= budget
    ensures r > s ==> r <= max
    decreases max - s
  {
    if other * (s + 1) <= budget && s + 1 <= max then Grow(s + 1, other, budget, max) else s
  }

  /** After shrinking `b` next to `a` and then `a` next to the result, the
      pair fits any budget of at least 3 x 3. */
  lemma ShrinkBothFits(a: int, b: int, budget: int)
    requires a >= MinSide && b >= MinSide && budget >= MinSide * MinSide
    ensures var b' := Shrink(b, a, budget);
      Shrink(a, b', budget) * b' <= budget
  {
    var b' := Shrink(b, a, budget);
    var a' := Shrink(a, b', budget);
    if b' * a' > budget && b' != MinSide {
      MulLe(a', a, b');
    }
  }

  /** When `budget / s` is below the minimum, `max(MIN_SIDE, floor(budget / MIN_SIDE))`
      is no larger than `s`. */
  lemma FallbackSmaller(s: int, budget: int)
    requires s >= MinSide && budget >= 1 && budget / s < MinSide
    ensures Max(MinSide, budget / MinSide) <= s
  {
    assert budget == s * (budget / s) + budget % s;
    MulLe(budget / s + 1, MinSide, s);
    assert budget < MinSide * s;
  }

  /** A side `t` with `t * (budget / t)` at most the budget. */
  lemma QuotientFits(t: int, budget: int)
    requires t >= 1
    ensures t * (budget / t) <= budget
  {
  }

  /** The first guess of both choosers for the dragged side `s` and the
      paired side `o`: clamp the request into [MIN_SIDE, min(max, budget)],
      give the paired side what the budget allows, and when that is below
      the minimum fall back to `max(MIN_SIDE, floor(budget / MIN_SIDE))`. */
  function FirstGuess(target: int, budget: int, maxS: int): (r: (int, int))
    requires budget >= 1
    ensures MinSide <= r.0 <= Max(MinSide, Min(maxS, budget))
    ensures MinSide <= target <= maxS && MinSide * target <= budget ==>
      r.0 == target && r.1 >= MinSide && target * r.1 <= budget
  {
    var s0 := ClampLo(target, MinSide, Min(maxS, budget));
    var o0 := budget / s0;
    assert o0 < MinSide ==> Max(MinSide, budget / MinSide) <= s0 by {
      if o0 < MinSide { FallbackSmaller(s0, budget); }
    }
    assert MinSide <= target <= maxS && MinSide * target <= budget ==> o0 >= MinSide && target * o0 <= budget by {
      if MinSide <= target <= maxS && MinSide * target <= budget {
        MulLe(MinSide, o0, target);
        QuotientFits(target, budget);
      }
    }
    if o0 < MinSide then
      var s1 := Max(MinSide, budget / MinSide);
      (s1, budget / s1)
    else (s0, o0)
  }

  /** The closing loops of both choosers: shrink the paired side `o`, then
      the dragged side `s`, until the budget holds, then grow the paired
      side while it still fits the budget and `maxO`. */
  function Settle(s: int, o: int, budget: int, maxO: int): (r: (int, int))
    requires s >= MinSide && o >= MinSide
    ensures MinSide <= r.0 <= s && r.1 >= MinSide && r.1 <= Max(o, maxO)
    ensures budget >= MinSide * MinSide ==> r.0 * r.1 <= budget
    ensures r.0 * (r.1 + 1) > budget || r.1 + 1 > maxO
    ensures s * o <= budget ==> r.0 == s
  {
    var o1 := Shrink(o, s, budget);
    var s1 := Shrink(s, o1, budget);
    assert budget >= MinSide * MinSide ==> s1 * o1 <= budget by {
      if budget >= MinSide * MinSide { ShrinkBothFits(s, o, budget); }
    }
    assert s * o <= budget ==> o1 * s <= budget;
    (s1, Grow(o1, s1, budget, maxO))
  }

  /** Capping a paired side that fits next to `target` keeps it fitting. */
  lemma CapFits(target: int, o: int, maxO: int, budget: int)
    requires target >= 0 && o >= MinSide && maxO >= MinSide && target * o <= budget
    ensures target * Min(o, maxO) <= budget
  {
    MulLe(Min(o, maxO), o, target);
  }

  /** The sides both choosers settle from: the first guess, the paired
      side capped by the world, and both raised to the minimum. */
  function Start(target: int, budget: int, maxS: int, maxO: int): (r: (int, int))
    requires budget >= 1
    ensures MinSide <= r.0 <= Max(MinSide, Min(maxS, budget))
    ensures MinSide <= r.1 <= Max(MinSide, maxO)
    ensures MinSide <= target <= maxS && MinSide * target <= budget && maxO >= MinSide ==>
      r.0 == target && r.0 * r.1 <= budget
  {
    var guess := FirstGuess(target, budget, maxS);
    var o2 := Min(guess.1, maxO);
    assert MinSide <= target <= maxS && MinSide * target <= budget && maxO >= MinSide ==>
      Max(MinSide, o2) == o2 && target * o2 <= budget by {
      if MinSide <= target <= maxS && MinSide * target <= budget && maxO >= MinSide {
        CapFits(target, guess.1, maxO, budget);
      }
    }
    (Max(MinSide, guess.0), Max(MinSide, o2))
  }

  /** Both choosers, for the dragged side `s` (at most `maxS`) and the
      paired side `o` (at most `maxO`). */
  function Choose(target: int, budget: int, maxS: int, maxO: int): (r: (int, int))
    requires budget >= 1
    ensures r.0 >= MinSide && r.1 >= MinSide
    ensures budget >= MinSide * MinSide ==> r.0 * r.1 <= budget
    ensures r.0 * (r.1 + 1) > budget || r.1 + 1 > maxO
    ensures r.0 <= Max(MinSide, Min(maxS, budget)) && r.1 <= Max(MinSide, maxO)
    ensures MinSide <= target <= maxS && MinSide * target <= budget && maxO >= MinSide ==> r.0 == target
  {
    var st := Start(target, budget, maxS, maxO);
    Settle(st.0, st.1, budget, maxO)
  }

  /** `chooseByTargetW`: clamp the requested width, take the height the
      budget allows (with the narrower fallback), cap the height by the
      world, raise both to the minimum, shrink until the budget holds, then
      grow the height while it still fits. */
  function ChooseByTargetW(target: int, budget: int, maxW: int, maxH: int): (d: Size)
    requires budget >= 1
    ensures d.w >= MinSide && d.h >= MinSide
    ensures budget >= MinSide * MinSide ==> d.w * d.h <= budget
    ensures d.w * (d.h + 1) > budget || d.h + 1 > maxH
    ensures d.w <= Max(MinSide, Min(maxW, budget)) && d.h <= Max(MinSide, maxH)
    ensures MinSide <= target <= maxW && MinSide * target <= budget && maxH >= MinSide ==> d.w == target
  {
    var r := Choose(target, budget, maxW, maxH);
    Size(r.0, r.1)
  }

  /** `chooseByTargetH`: the same procedure with the roles of width and
      height exchanged (the width is shrunk first, then the height, and the
      width is grown at the end). */
  function ChooseByTargetH(target: int, budget: int, maxW: int, maxH: int): (d: Size)
    requires budget >= 1
    ensures d.w >= MinSide && d.h >= MinSide
    ensures budget >= MinSide * MinSide ==> d.h * d.w <= budget
    ensures d.h * (d.w + 1) > budget || d.w + 1 > maxW
    ensures d.h <= Max(MinSide, Min(maxH, budget)) && d.w <= Max(MinSide, maxW)
    ensures MinSide <= target <= maxH && MinSide * target <= budget && maxW >= MinSide ==> d.h == target
  {
    var r := Choose(target, budget, maxH, maxW);
    Size(r.1, r.0)
  }

  /** The two choosers are mirror images: choosing by height in a W x H
      world is choosing by width in an H x W world, sides exchanged. */
  lemma ChooseMirror(target: int, budget: int, maxW: int, maxH: int)
    requires budget >= 1
    ensures var dh := ChooseByTargetH(target, budget, maxW, maxH);
      var dw := ChooseByTargetW(target, budget, maxH, maxW);
      dh.w == dw.h && dh.h == dw.w
  {
  }

  /** Worked example: a 36-tile budget and a requested width of 10 give a
      10 x 3 habitat in any world at least 10 wide and 3 high. */
  lemma ChooseExample(maxW: int, maxH: int)
    requires maxW >= 10 && maxH >= 3
    ensures ChooseByTargetW(10, 36, maxW, maxH) == Size(10, 3)
  {
    assert Shrink(3, 10, 36) == 3;
    assert Shrink(10, 3, 36) == 10;
    assert Grow(3, 10, 36, maxH) == 3;
  }

  /** Why a preview is refused: the slope rule is reported first. */
  datatype Reason = Ok | Occupied | TerrainSlope

  /** What one drag step of a resize handle proposes. */
  datatype Preview = Preview(ok: bool, nOx: int, nOy: int, newW: int, newH: int, reason: Reason)

  function PreviewRect(p: Preview): Rect
  {
    Rect(p.nOx, p.nOy, p.newW, p.newH)
  }

  /** The verdict on a proposed rectangle: accepted iff it is free and
      passes the slope rule; the reason names the slope rule when it
      fails, otherwise occupancy. */
  function Judge(g: Grid, m: HeightMap, tileMeters: real, r: Rect): (p: Preview)
    requires IsGrid(g)
    ensures PreviewRect(p) == r
    ensures p.ok <==> RectFree(g, r) && TerrainOK(m, r, tileMeters)
    ensures p.reason == TerrainSlope <==> !TerrainOK(m, r, tileMeters)
    ensures p.reason == Occupied <==> TerrainOK(m, r, tileMeters) && !RectFree(g, r)
    ensures p.reason == Ok <==> p.ok
  {
    var free := RectFree(g, r);
    var terrain := TerrainOK(m, r, tileMeters);
    Preview(free && terrain, r.ox, r.oy, r.w, r.h,
            if !terrain then TerrainSlope else if !free then Occupied else Ok)
  }

  /** Width asked for by a horizontal drag: the dragged edge moves to
      `edge`, the other edge stays. */
  function RequestedW(cur: Rect, draggedLeft: bool, edge: int): int
  {
    if draggedLeft then cur.ox + cur.w - edge else edge - cur.ox
  }

  /** `resizeHorizontal`: the world is the grid. The new width comes from
      `chooseByTargetW`; dragging the left edge keeps the right edge, and the
      result is clamped into the world before it is judged. */
  function ResizeHorizontal(g: Grid, m: HeightMap, tileMeters: real, cur: Rect,
                            draggedLeft: bool, edge: int, budget: int): (p: Preview)
    requires IsGrid(g) && budget >= 1
    ensures p.ok <==> RectFree(g, PreviewRect(p)) && TerrainOK(m, PreviewRect(p), tileMeters)
    ensures p.reason == TerrainSlope <==> !TerrainOK(m, PreviewRect(p), tileMeters)
    ensures p.reason == Ok <==> p.ok
    ensures p.newW >= MinSide && p.newH >= MinSide
    ensures budget >= MinSide * MinSide ==> p.newW * p.newH <= budget
    ensures Width(g) >= MinSide && |g| >= MinSide ==> InBounds(g, PreviewRect(p))
    ensures var want := RequestedW(cur, draggedLeft, edge);
      MinSide <= want <= Width(g) && MinSide * want <= budget && |g| >= MinSide ==> p.newW == want
    ensures !draggedLeft && 0 <= cur.ox <= Width(g) - p.newW ==> p.nOx == cur.ox
    ensures draggedLeft && 0 <= cur.ox + cur.w - p.newW <= Width(g) - p.newW ==>
      p.nOx + p.newW == cur.ox + cur.w
    ensures 0 <= cur.oy <= |g| - p.newH ==> p.nOy == cur.oy
  {
    var worldW, worldH := Width(g), |g|;
    var want := Max(MinSide, RequestedW(cur, draggedLeft, edge));
    var pick := ChooseByTargetW(want, budget, worldW, worldH);
    var newLeft := if draggedLeft then cur.ox + cur.w - pick.w else cur.ox;
    var nOx := ClampLo(newLeft, 0, worldW - pick.w);
    var nOy := ClampLo(cur.oy, 0, worldH - pick.h);
    Judge(g, m, tileMeters, Rect(nOx, nOy, pick.w, pick.h))
  }

  /** Height asked for by a vertical drag. */
  function RequestedH(cur: Rect, draggedTop: bool, edge: int): int
  {
    if draggedTop then cur.oy + cur.h - edge else edge - cur.oy
  }

  /** `resizeVertical`: the mirror of `resizeHorizontal`. */
  function ResizeVertical(g: Grid, m: HeightMap, tileMeters: real, cur: Rect,
                          draggedTop: bool, edge: int, budget: int): (p: Preview)
    requires IsGrid(g) && budget >= 1
    ensures p.ok <==> RectFree(g, PreviewRect(p)) && TerrainOK(m, PreviewRect(p), tileMeters)
    ensures p.reason == TerrainSlope <==> !TerrainOK(m, PreviewRect(p), tileMeters)
    ensures p.reason == Ok <==> p.ok
    ensures p.newW >= MinSide && p.newH >= MinSide
    ensures budget >= MinSide * MinSide ==> p.newW * p.newH <= budget
    ensures Width(g) >= MinSide && |g| >= MinSide ==> InBounds(g, PreviewRect(p))
    ensures var want := RequestedH(cur, draggedTop, edge);
      MinSide <= want <= |g| && MinSide * want <= budget && Width(g) >= MinSide ==> p.newH == want
    ensures !draggedTop && 0 <= cur.oy <= |g| - p.newH ==> p.nOy == cur.oy
    ensures draggedTop && 0 <= cur.oy + cur.h - p.newH <= |g| - p.newH ==>
      p.nOy + p.newH == cur.oy + cur.h
    ensures 0 <= cur.ox <= Width(g) - p.newW ==> p.nOx == cur.ox
  {
    var worldW, worldH := Width(g), |g|;
    var want := Max(MinSide, RequestedH(cur, draggedTop, edge));
    var pick := ChooseByTargetH(want, budget, worldW, worldH);
    var newTop := if draggedTop then cur.oy + cur.h - pick.h else cur.oy;
    var nOy := ClampLo(newTop, 0, worldH - pick.h);
    var nOx := ClampLo(cur.ox, 0, worldW - pick.w);
    Judge(g, m, tileMeters, Rect(nOx, nOy, pick.w, pick.h))
  }

  datatype Handle = LeftEdge | RightEdge | TopEdge | BottomEdge

  /** One pointer move while a handle is held: which handle, and the tile
      edge the pointer snapped to. */
  datatype DragStep = DragStep(handle: Handle, edge: int)

  function StepPreview(g: Grid, m: HeightMap, tileMeters: real, cur: Rect, d: DragStep, budget: int): (p: Preview)
    requires IsGrid(g) && budget >= 1
    ensures p.ok <==> RectFree(g, PreviewRect(p)) && TerrainOK(m, PreviewRect(p), tileMeters)
    ensures p.newW >= MinSide && p.newH >= MinSide
    ensures budget >= MinSide * MinSide ==> p.newW * p.newH <= budget
  {
    match d.handle
    case LeftEdge => ResizeHorizontal(g, m, tileMeters, cur, true, d.edge, budget)
    case RightEdge => ResizeHorizontal(g, m, tileMeters, cur, false, d.edge, budget)
    case TopEdge => ResizeVertical(g, m, tileMeters, cur, true, d.edge, budget)
    case BottomEdge => ResizeVertical(g, m, tileMeters, cur, false, d.edge, budget)
  }

  /** The drag events of one gesture: each preview replaces the last, and
      the container takes the previewed geometry before the next event. */
  function RunDrags(g: Grid, m: HeightMap, tileMeters: real, cur: Rect, drags: seq<DragStep>,
                    budget: int, last: Option<Preview>): (p: Option<Preview>)
    requires IsGrid(g) && budget >= 1
    ensures |drags| == 0 ==> p == last
    ensures |drags| > 0 ==>
      p.Some? && (p.value.ok <==> RectFree(g, PreviewRect(p.value)) && TerrainOK(m, PreviewRect(p.value), tileMeters))
    ensures |drags| > 0 ==>
      p.value.newW >= MinSide && p.value.newH >= MinSide &&
      (budget >= MinSide * MinSide ==> p.value.newW * p.value.newH <= budget)
    decreases |drags|
  {
    if |drags| == 0 then last
    else
      var p := StepPreview(g, m, tileMeters, cur, drags[0], budget);
      RunDrags(g, m, tileMeters, PreviewRect(p), drags[1..], budget, Some(p))
  }

  /** A preview that can be committed on the grid `g`. */
  predicate Committable(g: Grid, p: Option<Preview>)
    requires IsGrid(g)
  {
    p.Some? && p.value.ok && InBounds(g, PreviewRect(p.value))
  }

  /** `end`: an accepted preview becomes the habitat's origin and size and
      is marked; otherwise the habitat keeps its origin and size and its
      footprint is marked again. The area budget never changes. */
  function End(g: Grid, habs: seq<Habitat>, i: int, preview: Option<Preview>): (r: (Grid, seq<Habitat>))
    requires Fits(g, habs) && 0 <= i < |habs|
    requires preview.Some? && preview.value.ok ==> InBounds(g, PreviewRect(preview.value))
    ensures |r.1| == |habs| && r.1[i].areaTiles == habs[i].areaTiles
    ensures forall k :: 0 <= k < |habs| && k != i ==> r.1[k] == habs[k]
    ensures preview.Some? && preview.value.ok ==>
      Foot(r.1[i]) == PreviewRect(preview.value) && r.0 == MarkRect(g, PreviewRect(preview.value), 1)
    ensures !(preview.Some? && preview.value.ok) ==> r.1 == habs && r.0 == MarkRect(g, Foot(habs[i]), 1)
  {
    if preview.Some? && preview.value.ok then
      var p := preview.value;
      var hb := habs[i].(origin := Point(p.nOx, p.nOy), w := p.newW, h := p.newH);
      (MarkRect(g, PreviewRect(p), 1), habs[i := hb])
    else
      (MarkRect(g, Foot(habs[i]), 1), habs)
  }

  /** One resize gesture as the program runs it: `start` frees the
      footprint, each drag replaces the preview, and `end` commits the
      latest preview. The preview is not cleared at `start`, so a gesture
      without any drag commits whatever `stale` preview an earlier gesture
      left behind. */
  function ResizeGestureAsWritten(g: Grid, m: HeightMap, tileMeters: real, habs: seq<Habitat>, i: int,
                                  stale: Option<Preview>, drags: seq<DragStep>): (r: (Grid, seq<Habitat>))
    requires Fits(g, habs) && 0 <= i < |habs|
    requires stale.Some? && stale.value.ok ==> InBounds(g, PreviewRect(stale.value))
    ensures |r.1| == |habs| && r.1[i].areaTiles == habs[i].areaTiles
    ensures |drags| == 0 && Committable(g, stale) ==> Foot(r.1[i]) == PreviewRect(stale.value)
  {
    var g1 := MarkRect(g, Foot(habs[i]), 0);
    var p := RunDrags(g1, m, tileMeters, Foot(habs[i]), drags, AreaMax(habs[i].areaTiles), stale);
    assert p.Some? && p.value.ok ==> InBounds(g1, PreviewRect(p.value));
    End(g1, habs, i, p)
  }

  /** The same gesture with the preview cleared at `start`: only a preview
      judged during this gesture can be committed. */
  function ResizeGesture(g: Grid, m: HeightMap, tileMeters: real, habs: seq<Habitat>, i: int,
                         drags: seq<DragStep>): (r: (Grid, seq<Habitat>))
    requires Fits(g, habs) && 0 <= i < |habs|
    ensures |r.1| == |habs| && r.1[i].areaTiles == habs[i].areaTiles
    ensures forall k :: 0 <= k < |habs| && k != i ==> r.1[k] == habs[k]
    ensures |drags| == 0 ==> r.1 == habs
    ensures r.1 != habs ==> (r.1[i].w >= MinSide && r.1[i].h >= MinSide &&
      (habs[i].areaTiles >= MinSide * MinSide ==> r.1[i].w * r.1[i].h <= habs[i].areaTiles))
  {
    var g1 := MarkRect(g, Foot(habs[i]), 0);
    var p := RunDrags(g1, m, tileMeters, Foot(habs[i]), drags, AreaMax(habs[i].areaTiles), None);
    End(g1, habs, i, p)
  }

  /** The corrected gesture keeps the scene consistent; a resized habitat
      passes the slope rule, and a gesture that commits nothing gives back
      the grid it started from. */
  lemma ResizeGestureSound(g: Grid, m: HeightMap, tileMeters: real, habs: seq<Habitat>, i: int,
                           drags: seq<DragStep>)
    requires Consistent(g, habs) && 0 <= i < |habs|
    ensures var r := ResizeGesture(g, m, tileMeters, habs, i, drags);
      Consistent(r.0, r.1) &&
      (r.1 != habs ==> TerrainOK(m, Foot(r.1[i]), tileMeters)) &&
      (r.1 != habs ==> (r.1[i].w >= MinSide && r.1[i].h >= MinSide &&
        (habs[i].areaTiles >= MinSide * MinSide ==> r.1[i].w * r.1[i].h <= habs[i].areaTiles))) &&
      (r.1 == habs ==> r.0 == g)
  {
    var g1 := MarkRect(g, Foot(habs[i]), 0);
    var p := RunDrags(g1, m, tileMeters, Foot(habs[i]), drags, AreaMax(habs[i].areaTiles), None);
    FreeLifts(g, habs, i);
    RestoreIsIdentity(g, habs, i);
    if p.Some? && p.value.ok {
      var q := p.value;
      var hb := habs[i].(origin := Point(q.nOx, q.nOy), w := q.newW, h := q.newH);
      assert Foot(hb) == PreviewRect(q);
      PlaceRestores(g1, habs, i, hb);
    }
  }

  lemma SumPair(a: int, b: int)
    ensures Sum([a, b]) == a + b
  {
    assert [a, b][..1] == [a];
    assert [a][..0] == [];
    assert Sum([a]) == Sum([a][..0]) + a;
  }

  /** The scene of the example below: habitats 0 and 1 side by side on a
      10 x 3 grid with a free gap between them. */
  function StaleGrid(): Grid
  {
    MarkRect(MarkRect(MakeGrid(10, 3), Rect(0, 0, 3, 3), 1), Rect(6, 0, 3, 3), 1)
  }

  function StaleHabs(): seq<Habitat>
  {
    [Habitat(Point(0, 0), 3, 3, 9), Habitat(Point(6, 0), 3, 3, 9)]
  }

  /** The example's starting scene is consistent. */
  lemma StaleSceneConsistent()
    ensures Consistent(StaleGrid(), StaleHabs())
  {
    var g, habs := StaleGrid(), StaleHabs();
    forall y, x | OnGrid(g, x, y) ensures g[y][x] == CoverCount(habs, x, y) <= 1 {
      assert Covers(habs, x, y) == [Cov(habs[0], x, y), Cov(habs[1], x, y)];
      SumPair(Cov(habs[0], x, y), Cov(habs[1], x, y));
    }
  }

  /** After the handle click, tile (6, 0) is covered twice. */
  lemma StaleGestureClashes()
    ensures var r := ResizeGestureAsWritten(StaleGrid(), MakeHeightMap(10, 3, 0), 1.0, StaleHabs(), 0,
                                           Some(Preview(true, 6, 0, 3, 3, Ok)), []);
      !Consistent(r.0, r.1)
  {
    var r := ResizeGestureAsWritten(StaleGrid(), MakeHeightMap(10, 3, 0), 1.0, StaleHabs(), 0,
                                    Some(Preview(true, 6, 0, 3, 3, Ok)), []);
    assert r.1[0] == Habitat(Point(6, 0), 3, 3, 9) && r.1[1] == StaleHabs()[1];
    assert Covers(r.1, 6, 0) == [1, 1];
    SumPair(1, 1);
    assert CoverCount(r.1, 6, 0) == 2;
    assert OnGrid(r.0, 6, 0);
  }

  /** The program's gesture breaks the invariant: habitat 0 holds a stale
      accepted preview for the tiles habitat 1 now occupies, and a click on
      a handle without dragging puts habitat 0 on top of habitat 1. */
  lemma StalePreviewOverlaps()
    ensures var g := MarkRect(MarkRect(MakeGrid(10, 3), Rect(0, 0, 3, 3), 1), Rect(6, 0, 3, 3), 1);
      var habs := [Habitat(Point(0, 0), 3, 3, 9), Habitat(Point(6, 0), 3, 3, 9)];
      var stale := Some(Preview(true, 6, 0, 3, 3, Ok));
      var r := ResizeGestureAsWritten(g, MakeHeightMap(10, 3, 0), 1.0, habs, 0, stale, []);
      Consistent(g, habs) && !Consistent(r.0, r.1)
  {
    StaleSceneConsistent();
    StaleGestureClashes();
  }
}

=== FILE: router.dfy ===
/** The scene's port-to-port router, shared by corridors and footpaths:
    every link runs from a port on one habitat's edge to a port on
    another's, through user-placed waypoints, each segment rasterised with
    Bresenham's line algorithm and accepted only when every step between
    neighbouring tiles is within the walking-slope limit. Also the eraser,
    which removes one link by index, and the tool switch. */
module Router {
  import opened Common
  import opened Terrain
  import opened Steps
  import Placement

  datatype Side = Top | Right | Bottom | Left

  /** A port: a habitat, by its index in the scene, and one of its sides. */
  datatype PortRef = PortRef(house: nat, side: Side)

  /** The tile under the centre of a port's rectangle: the middle of the
      named edge, on the habitat's own border tiles. */
  function PortCenter(hb: Placement.Habitat, side: Side): (p: Point)
    ensures hb.w >= 1 && hb.h >= 1 ==> InRect(Placement.Foot(hb), p.x, p.y)
    ensures side == Top ==> p.y == hb.origin.y
    ensures side == Bottom ==> p.y == hb.origin.y + hb.h - 1
    ensures side == Left ==> p.x == hb.origin.x
    ensures side == Right ==> p.x == hb.origin.x + hb.w - 1
    ensures (side == Top || side == Bottom) ==> p.x == hb.origin.x + FloorDiv(hb.w, 2)
    ensures (side == Left || side == Right) ==> p.y == hb.origin.y + FloorDiv(hb.h, 2)
  {
    var ox := hb.origin.x;
    var oy := hb.origin.y;
    match side
    case Top => Point(ox + hb.w / 2, oy)
    case Right => Point(ox + hb.w - 1, oy + hb.h / 2)
    case Bottom => Point(ox + hb.w / 2, oy + hb.h - 1)
    case Left => Point(ox, oy + hb.h / 2)
  }

  // ---------------------------------------------------------------------
  // Bresenham rasterisation

  /** The loop state of the rasteriser at tile `cur`, heading for `b`:
      `rx` and `ry` steps remain on each axis, the steps go towards `b`,
      and the error term is determined by what remains. */
  predicate LineInv(cur: Point, b: Point, dx: int, dy: int, sx: int, sy: int, err: int)
  {
    var rx := Abs(b.x - cur.x);
    var ry := Abs(b.y - cur.y);
    0 <= rx <= dx && 0 <= ry <= dy &&
    (sx == 1 || sx == -1) && (sy == 1 || sy == -1) &&
    (sx == 1 ==> cur.x <= b.x) && (sx == -1 ==> cur.x >= b.x) &&
    (sy == 1 ==> cur.y <= b.y) && (sy == -1 ==> cur.y >= b.y) &&
    err == dx - dy + dy * rx - dx * ry
  }

  /** One pass of the loop body: both moves are decided on the error term
      before either update. */
  function Advance(cur: Point, dx: int, dy: int, sx: int, sy: int, err: int): (Point, int)
  {
    var e2 := 2 * err;
    var mx := e2 > -dy;
    var my := e2 < dx;
    (Point(if mx then cur.x + sx else cur.x, if my then cur.y + sy else cur.y),
     err - (if mx then dy else 0) + (if my then dx else 0))
  }

  /** The arithmetic heart of the rasteriser: an axis with no steps left
      is never stepped, and some axis is always stepped. */
  lemma BresenhamMoves(dx: int, dy: int, rx: int, ry: int, err: int)
    requires 0 <= rx <= dx && 0 <= ry <= dy && rx + ry > 0
    requires err == dx - dy + dy * rx - dx * ry
    ensures 2 * err > -dy ==> rx > 0
    ensures 2 * err < dx ==> ry > 0
    ensures 2 * err > -dy || 2 * err < dx
  {
    if rx == 0 {
      MulLe(1, ry, dx);
      assert dx * ry >= dx;
    }
    if ry == 0 {
      MulLe(1, rx, dy);
      assert dy * rx >= dy;
    }
  }

  /** A king's move that gets no farther from `b` on either axis. */
  predicate KingStep(p: Point, q: Point, b: Point)
  {
    p != q && Abs(q.x - p.x) <= 1 && Abs(q.y - p.y) <= 1 &&
    Abs(b.x - q.x) <= Abs(b.x - p.x) && Abs(b.y - q.y) <= Abs(b.y - p.y)
  }

  /** One axis of a loop step: a step goes one tile towards the target
      and uses up one remaining step. */
  lemma AxisStep(c: int, t: int, sgn: int, moved: bool)
    requires sgn == 1 || sgn == -1
    requires (sgn == 1 ==> c <= t) && (sgn == -1 ==> c >= t)
    requires moved ==> c != t
    ensures var c' := if moved then c + sgn else c;
      Abs(t - c') == (if moved then Abs(t - c) - 1 else Abs(t - c)) &&
      (sgn == 1 ==> c' <= t) && (sgn == -1 ==> c' >= t) && Abs(c' - c) <= 1
  {
  }

  /** The error term after a step matches the steps that remain. */
  lemma ErrStep(dx: int, dy: int, rx: int, ry: int, err: int, mx: bool, my: bool)
    requires err == dx - dy + dy * rx - dx * ry
    ensures var rx' := if mx then rx - 1 else rx;
      var ry' := if my then ry - 1 else ry;
      err - (if mx then dy else 0) + (if my then dx else 0) == dx - dy + dy * rx' - dx * ry'
  {
    var rx' := if mx then rx - 1 else rx;
    var ry' := if my then ry - 1 else ry;
    assert dy * rx' == dy * rx - (if mx then dy else 0);
    assert dx * ry' == dx * ry - (if my then dx else 0);
  }

  /** The loop body keeps the loop state, makes a king's move towards `b`
      and strictly shortens the remaining distance. */
  lemma AdvanceKeepsInv(cur: Point, b: Point, dx: int, dy: int, sx: int, sy: int, err: int)
    requires LineInv(cur, b, dx, dy, sx, sy, err) && cur != b
    ensures var n := Advance(cur, dx, dy, sx, sy, err);
      LineInv(n.0, b, dx, dy, sx, sy, n.1) && KingStep(cur, n.0, b) &&
      Abs(b.x - n.0.x) + Abs(b.y - n.0.y) < Abs(b.x - cur.x) + Abs(b.y - cur.y)
  {
    var rx := Abs(b.x - cur.x);
    var ry := Abs(b.y - cur.y);
    BresenhamMoves(dx, dy, rx, ry, err);
    var mx := 2 * err > -dy;
    var my := 2 * err < dx;
    AxisStep(cur.x, b.x, sx, mx);
    AxisStep(cur.y, b.y, sy, my);
    ErrStep(dx, dy, rx, ry, err, mx, my);
  }

  /** The rasterisation loop from `cur` to `b`. */
  function Walk(cur: Point, b: Point, dx: int, dy: int, sx: int, sy: int, err: int): (pts: seq<Point>)
    requires LineInv(cur, b, dx, dy, sx, sy, err)
    ensures |pts| >= 1 && pts[0] == cur && pts[|pts| - 1] == b
    ensures forall i :: 1 <= i < |pts| ==> KingStep(pts[i - 1], pts[i], b)
    decreases Abs(b.x - cur.x) + Abs(b.y - cur.y)
  {
    if cur == b then [cur]
    else
      AdvanceKeepsInv(cur, b, dx, dy, sx, sy, err);
      var n := Advance(cur, dx, dy, sx, sy, err);
      var rest := Walk(n.0, b, dx, dy, sx, sy, n.1);
      assert KingStep(cur, rest[0], b);
      [cur] + rest
  }

  /** The tiles Bresenham's algorithm visits from `a` to `b`. */
  function Line(a: Point, b: Point): (pts: seq<Point>)
    ensures |pts| >= 1 && pts[0] == a && pts[|pts| - 1] == b
    ensures forall i :: 1 <= i < |pts| ==> KingStep(pts[i - 1], pts[i], b)
  {
    var dx := Abs(b.x - a.x);
    var dy := Abs(b.y - a.y);
    Walk(a, b, dx, dy, if a.x < b.x then 1 else -1, if a.y < b.y then 1 else -1, dx - dy)
  }

  /** `p` lies in the box spanned by `a` and `b`. */
  predicate InBox(p: Point, a: Point, b: Point)
  {
    Min(a.x, b.x) <= p.x <= Max(a.x, b.x) && Min(a.y, b.y) <= p.y <= Max(a.y, b.y)
  }

  /** Along a chain of king's moves towards `b` that starts at `a`, every
      point stays in the box spanned by `a` and `b`. */
  lemma {:induction false} ChainInBox(pts: seq<Point>, a: Point, b: Point, j: nat)
    requires |pts| >= 1 && pts[0] == a && j < |pts|
    requires forall i :: 1 <= i < |pts| ==> KingStep(pts[i - 1], pts[i], b)
    ensures InBox(pts[j], a, b)
  {
    if j > 0 {
      ChainInBox(pts, a, b, j - 1);
      assert KingStep(pts[j - 1], pts[j], b);
    }
  }

  /** A rasterised line never leaves the box spanned by its ends, and a
      line from a tile to itself is that one tile. */
  lemma LineStaysInBox(a: Point, b: Point)
    ensures forall i :: 0 <= i < |Line(a, b)| ==> InBox(Line(a, b)[i], a, b)
    ensures a == b ==> Line(a, b) == [a]
  {
    var pts := Line(a, b);
    forall i | 0 <= i < |pts| ensures InBox(pts[i], a, b) {
      ChainInBox(pts, a, b, i);
    }
  }

  // ---------------------------------------------------------------------
  // Segments and polylines

  /** `_segmentOK`: a segment passes exactly when every step between
      consecutive tiles of its rasterisation is within the limit. */
  function SegmentOK(m: HeightMap, tileMeters: real, a: Point, b: Point): (ok: bool)
    ensures ok <==> Walkable(m, StepLimit(tileMeters), Line(a, b))
  {
    ScanFrom(m, StepLimit(tileMeters), Line(a, b), 1)
  }

  /** The checking loop of `_materializePolyline` from segment `i` on. */
  function PolyFrom(m: HeightMap, tileMeters: real, poly: seq<Point>, i: nat): (ok: bool)
    requires i >= 1
    ensures ok <==> forall j :: i <= j < |poly| ==> SegmentOK(m, tileMeters, poly[j - 1], poly[j])
    decreases |poly| - i
  {
    if i >= |poly| then true
    else if !SegmentOK(m, tileMeters, poly[i - 1], poly[i]) then false
    else PolyFrom(m, tileMeters, poly, i + 1)
  }

  /** `_materializePolyline`: the start port, the waypoints and the end
      port, when every segment between consecutive points passes. */
  function Materialize(m: HeightMap, tileMeters: real, a: Point, wps: seq<Point>, b: Point): (r: Option<seq<Point>>)
    ensures r.Some? ==> r.value == [a] + wps + [b]
    ensures r.None? <==>
      (exists i :: 1 <= i < |wps| + 2 && !SegmentOK(m, tileMeters, ([a] + wps + [b])[i - 1], ([a] + wps + [b])[i]))
  {
    var poly := [a] + wps + [b];
    if PolyFrom(m, tileMeters, poly, 1) then Some(poly) else None
  }

  /** A materialised polyline starts at the start port, keeps every
      waypoint in order, ends at the end port, and every tile step of
      every rasterised segment of it is within the slope limit. */
  lemma MaterializeWalkable(m: HeightMap, tileMeters: real, a: Point, wps: seq<Point>, b: Point)
    requires Materialize(m, tileMeters, a, wps, b).Some?
    ensures var p := Materialize(m, tileMeters, a, wps, b).value;
      |p| == |wps| + 2 && p[0] == a && p[|p| - 1] == b &&
      (forall k :: 0 <= k < |wps| ==> p[k + 1] == wps[k]) &&
      (forall i :: 1 <= i < |p| ==> Walkable(m, StepLimit(tileMeters), Line(p[i - 1], p[i])))
  {
    var p := Materialize(m, tileMeters, a, wps, b).value;
    forall i | 1 <= i < |p| ensures Walkable(m, StepLimit(tileMeters), Line(p[i - 1], p[i])) {
      assert SegmentOK(m, tileMeters, p[i - 1], p[i]);
    }
  }

  // ---------------------------------------------------------------------
  // Links and the drawing state

  /** What the routes are laid over: the habitats, the terrain heights and
      the tile size in metres. */
  datatype World = World(houses: seq<Placement.Habitat>, heights: HeightMap, tileMeters: real)

  /** A committed corridor or path: its two habitats and sides, the
      waypoints it was drawn through, and its current polyline. */
  datatype Link = Link(aIdx: nat, bIdx: nat, aSide: Side, bSide: Side, waypoints: seq<Point>, poly: seq<Point>)

  /** One router's state: whether its tool is on, the port a link is being
      drawn from, the waypoints placed so far, and the committed links. */
  datatype Router = Router(active: bool, start: Option<PortRef>, wps: seq<Point>, list: seq<Link>)

  datatype LinkKind = CorridorLink | PathLink

  /** A link the eraser picked: which list, and the position in it. */
  datatype Hit = Hit(kind: LinkKind, index: nat)

  /** Both routers and whether the eraser is on. */
  datatype Network = Network(corr: Router, path: Router, eraser: bool)

  /** A pointer press: whether it is over the tool bar, whether Alt is
      held, the link nearest to it within the pick distance, the port under
      it (the first habitat and side whose port rectangle contains it), its
      tile, and whether the right button is down. */
  datatype Press = Press(overUI: bool, alt: bool, near: Option<Hit>, port: Option<PortRef>, tile: Point, right: bool)

  function Center(w: World, r: PortRef): Point
    requires r.house < |w.houses|
  {
    PortCenter(w.houses[r.house], r.side)
  }

  /** Re-validate one link against the current habitats and terrain: a
      link whose habitats exist and whose route still materialises gets
      the new polyline; any other link keeps its previous one. */
  function Revalidate(w: World, l: Link): (r: Link)
  {
    if l.aIdx < |w.houses| && l.bIdx < |w.houses| then
      match Materialize(w.heights, w.tileMeters, Center(w, PortRef(l.aIdx, l.aSide)), l.waypoints, Center(w, PortRef(l.bIdx, l.bSide)))
      case Some(p) => l.(poly := p)
      case None => l
    else l
  }

  /** `_redrawCorridors` / `_redrawPaths`: re-validate every link. */
  function Redraw(w: World, links: seq<Link>): (r: seq<Link>)
    ensures |r| == |links|
    ensures forall i :: 0 <= i < |links| ==> r[i] == Revalidate(w, links[i])
  {
    seq(|links|, i requires 0 <= i < |links| => Revalidate(w, links[i]))
  }

  /** Redrawing changes nothing but polylines: a link keeps its ends and
      waypoints, takes the freshly materialised polyline when there is
      one, and keeps its previous polyline otherwise; redrawing twice is
      redrawing once. */
  lemma RedrawMeaning(w: World, links: seq<Link>)
    ensures var r := Redraw(w, links);
      (forall i :: 0 <= i < |links| ==> r[i] == links[i].(poly := r[i].poly)) &&
      (forall i :: 0 <= i < |links| ==>
        var l := links[i];
        (l.aIdx < |w.houses| && l.bIdx < |w.houses| &&
         Materialize(w.heights, w.tileMeters, Center(w, PortRef(l.aIdx, l.aSide)), l.waypoints, Center(w, PortRef(l.bIdx, l.bSide))).Some?
         ==> r[i].poly == [Center(w, PortRef(l.aIdx, l.aSide))] + l.waypoints + [Center(w, PortRef(l.bIdx, l.bSide))]) &&
        (l.aIdx >= |w.houses| || l.bIdx >= |w.houses| ||
         Materialize(w.heights, w.tileMeters, Center(w, PortRef(l.aIdx, l.aSide)), l.waypoints, Center(w, PortRef(l.bIdx, l.bSide))).None?
         ==> r[i] == l)) &&
      Redraw(w, r) == r
  {
    var r := Redraw(w, links);
    assert forall i :: 0 <= i < |r| ==> Revalidate(w, r[i]) == r[i];
  }

  /** Every link joins existing habitats. */
  predicate LinksRefer(links: seq<Link>, n: nat)
  {
    forall i :: 0 <= i < |links| ==> links[i].aIdx < n && links[i].bIdx < n
  }

  /** The port a press picked and the port being drawn from exist. */
  predicate Refers(w: World, r: Router, p: Press)
  {
    (r.start.Some? ==> r.start.value.house < |w.houses|) &&
    (p.port.Some? ==> p.port.value.house < |w.houses|)
  }

  /** The last point placed: the last waypoint, or the start port. */
  function LastPoint(w: World, r: Router): Point
    requires r.start.Some? && r.start.value.house < |w.houses|
  {
    if |r.wps| > 0 then r.wps[|r.wps| - 1] else Center(w, r.start.value)
  }

  /** The drawing part of the click handler, once the tool is on, the
      press is off the tool bar and no Alt-erase happened. Not drawing: a
      press on a port starts a link there. Drawing, on another port: commit
      the link if its polyline materialises, otherwise nothing. Drawing, on
      bare ground: add the tile as a waypoint if the segment from the last
      point passes and the tile differs from it. Drawing, on the start
      port itself: nothing. */
  function Draw(w: World, r: Router, p: Press): (r': Router)
    requires Refers(w, r, p)
    ensures r'.active == r.active
  {
    if r.start.None? then
      if p.port.None? then r else r.(start := p.port, wps := [])
    else if p.port.Some? && p.port != r.start then
      var s := r.start.value;
      var e := p.port.value;
      match Materialize(w.heights, w.tileMeters, Center(w, s), r.wps, Center(w, e))
      case None => r
      case Some(poly) =>
        Router(r.active, None, [], Redraw(w, r.list + [Link(s.house, e.house, s.side, e.side, r.wps, poly)]))
    else if p.port.None? then
      var last := LastPoint(w, r);
      if !SegmentOK(w.heights, w.tileMeters, last, p.tile) then r
      else if last != p.tile then r.(wps := r.wps + [p.tile])
      else r
    else r
  }

  /** What a drawing press does: a link is committed, and the drawing
      reset, exactly when the press is on a different port and the
      polyline materialises, and the new link is the last one, carries the
      waypoints and that polyline while the other links are only
      re-validated; a waypoint is added exactly when the press is on bare
      ground, the segment from the last point passes and the tile is new;
      in every other case nothing changes. */
  lemma DrawMeaning(w: World, r: Router, p: Press)
    requires Refers(w, r, p) && r.start.Some?
    ensures var r' := Draw(w, r, p);
      var s := r.start.value;
      var commit := p.port.Some? && p.port != r.start &&
        Materialize(w.heights, w.tileMeters, Center(w, s), r.wps, Center(w, p.port.value)).Some?;
      var add := p.port.None? && SegmentOK(w.heights, w.tileMeters, LastPoint(w, r), p.tile) &&
        LastPoint(w, r) != p.tile;
      (commit <==> |r'.list| == |r.list| + 1) &&
      (commit ==> (r'.start.None? && r'.wps == [] &&
        r'.list[|r.list|] == Link(s.house, p.port.value.house, s.side, p.port.value.side, r.wps,
          [Center(w, s)] + r.wps + [Center(w, p.port.value)]) &&
        forall i :: 0 <= i < |r.list| ==> r'.list[i] == Revalidate(w, r.list[i]))) &&
      (add <==> r'.wps == r.wps + [p.tile]) &&
      (add ==> r' == r.(wps := r.wps + [p.tile])) &&
      (!commit && !add ==> r' == r)
  {
    var r' := Draw(w, r, p);
    var s := r.start.value;
    if p.port.Some? && p.port != r.start {
      var e := p.port.value;
      var mat := Materialize(w.heights, w.tileMeters, Center(w, s), r.wps, Center(w, e));
      if mat.Some? {
        var l := Link(s.house, e.house, s.side, e.side, r.wps, mat.value);
        var ls := r.list + [l];
        assert r'.list == Redraw(w, ls);
        assert ls[|r.list|] == l;
        assert Revalidate(w, l) == l;
        forall i | 0 <= i < |r.list| ensures r'.list[i] == Revalidate(w, r.list[i]) {
          assert ls[i] == r.list[i];
        }
      }
    }
  }

  /** `_pathRightHandler` / `_corrRightHandler`: while drawing, a right
      press drops the last waypoint, if any. */
  function DropLast(r: Router, p: Press): (r': Router)
    ensures r.active && r.start.Some? && p.right ==>
      r' == r.(wps := if |r.wps| > 0 then r.wps[..|r.wps| - 1] else [])
    ensures !(r.active && r.start.Some? && p.right) ==> r' == r
  {
    if !r.active || r.start.None? then r
    else if p.right then r.(wps := if |r.wps| > 0 then r.wps[..|r.wps| - 1] else [])
    else r
  }

  /** Removing a dropped last waypoint and re-adding it gets the drawing
      back. */
  lemma RightUndoesAdd(w: World, r: Router, p: Press)
    requires Refers(w, r, p) && r.active && r.start.Some? && p.right
    requires Draw(w, r, p).wps == r.wps + [p.tile]
    ensures DropLast(Draw(w, r, p), p) == r
  {
    DrawMeaning(w, r, p);
    assert (r.wps + [p.tile])[..|r.wps|] == r.wps;
  }

  function Get(net: Network, k: LinkKind): Router
  {
    if k == CorridorLink then net.corr else net.path
  }

  function Put(net: Network, k: LinkKind, r: Router): Network
  {
    if k == CorridorLink then net.(corr := r) else net.(path := r)
  }

  /** `splice(index, 1)`: remove the entry at `index`; an index past the
      end removes nothing. */
  function EraseAt<T>(s: seq<T>, index: nat): (r: seq<T>)
    ensures index < |s| ==> (|r| == |s| - 1 &&
      (forall k :: 0 <= k < index ==> r[k] == s[k]) &&
      (forall k :: index <= k < |r| ==> r[k] == s[k + 1]))
    ensures index >= |s| ==> r == s
  {
    if index < |s| then s[..index] + s[index + 1..] else s
  }

  /** Erasing removes exactly the one entry at the index. */
  lemma EraseAtRemovesOne<T>(s: seq<T>, index: nat)
    requires index < |s|
    ensures multiset(EraseAt(s, index)) + multiset{s[index]} == multiset(s)
  {
    assert s == s[..index] + [s[index]] + s[index + 1..];
  }

  /** `_eraseTryAt` after a hit: remove the hit link from its list and
      re-validate that list. */
  function Erase(w: World, net: Network, hit: Hit): (n: Network)
    ensures n.eraser == net.eraser
    ensures Get(n, hit.kind) == Get(net, hit.kind).(list := Redraw(w, EraseAt(Get(net, hit.kind).list, hit.index)))
    ensures hit.kind == CorridorLink ==> n.path == net.path
    ensures hit.kind == PathLink ==> n.corr == net.corr
  {
    var r := Get(net, hit.kind);
    Put(net, hit.kind, r.(list := Redraw(w, EraseAt(r.list, hit.index))))
  }

  /** `_corrClickHandler` / `_pathClickHandler`: a press while the tool is
      on and off the tool bar either erases the link under an Alt-press or
      continues the drawing. */
  function Click(w: World, net: Network, k: LinkKind, p: Press): (n: Network)
    requires Refers(w, Get(net, k), p)
    ensures n.eraser == net.eraser
  {
    var r := Get(net, k);
    if !r.active || p.overUI then net
    else if p.alt && p.near.Some? then Erase(w, net, p.near.value)
    else Put(net, k, Draw(w, r, p))
  }

  /** A press as the scene dispatches it while a drawing tool is on: both
      the click listener and the right-button listener are registered for
      the same pointer-down event, in that order, and both run. */
  function DispatchAsWritten(w: World, net: Network, k: LinkKind, p: Press): (n: Network)
    requires Refers(w, Get(net, k), p)
    ensures n.eraser == net.eraser
  {
    var n1 := Click(w, net, k, p);
    Put(n1, k, DropLast(Get(n1, k), p))
  }

  /** A press as evidently intended: a right press only drops the last
      waypoint; any other press is a click. */
  function Dispatch(w: World, net: Network, k: LinkKind, p: Press): (n: Network)
    requires Refers(w, Get(net, k), p)
    ensures n.eraser == net.eraser
  {
    if p.right then Put(net, k, DropLast(Get(net, k), p)) else Click(w, net, k, p)
  }

  /** With the intended dispatch a right press while drawing drops exactly
      the last waypoint and touches nothing else. */
  lemma RightPressPops(w: World, net: Network, k: LinkKind, p: Press)
    requires Refers(w, Get(net, k), p)
    requires Get(net, k).active && Get(net, k).start.Some? && p.right && |Get(net, k).wps| > 0
    ensures var r := Get(net, k);
      Get(Dispatch(w, net, k, p), k) == r.(wps := r.wps[..|r.wps| - 1])
    ensures Dispatch(w, net, k, p).eraser == net.eraser
  {
  }

  /** As written, a right press on bare ground, off the tool bar, whose
      tile extends the drawing first adds that tile as a waypoint and then
      drops it again: the waypoint the press was meant to remove stays. */
  lemma RightPressAsWrittenKeepsWaypoints(w: World, net: Network, k: LinkKind, p: Press)
    requires Refers(w, Get(net, k), p)
    requires var r := Get(net, k);
      r.active && r.start.Some? && p.right && !p.overUI && !p.alt && p.port.None? &&
      SegmentOK(w.heights, w.tileMeters, LastPoint(w, r), p.tile) && LastPoint(w, r) != p.tile
    ensures Get(DispatchAsWritten(w, net, k, p), k) == Get(net, k)
  {
    var r := Get(net, k);
    DrawMeaning(w, r, p);
    RightUndoesAdd(w, r, p);
  }

  /** A concrete case: drawing from the bottom port of a 2 x 2 habitat at
      the origin with one waypoint at (1, 3) on flat ground, a right press
      at (2, 3) leaves the waypoint in place as written, while the
      intended dispatch removes it. */
  lemma RightPressExample()
    ensures var w := World([Placement.Habitat(Point(0, 0), 2, 2, 4)], [], 1.0);
      var r := Router(true, Some(PortRef(0, Bottom)), [Point(1, 3)], []);
      var net := Network(r, Router(false, None, [], []), false);
      var p := Press(false, false, None, None, Point(2, 3), true);
      DispatchAsWritten(w, net, CorridorLink, p).corr.wps == [Point(1, 3)] &&
      Dispatch(w, net, CorridorLink, p).corr.wps == []
  {
    var w := World([Placement.Habitat(Point(0, 0), 2, 2, 4)], [], 1.0);
    var r := Router(true, Some(PortRef(0, Bottom)), [Point(1, 3)], []);
    var net := Network(r, Router(false, None, [], []), false);
    var p := Press(false, false, None, None, Point(2, 3), true);
    var line := Line(Point(1, 3), Point(2, 3));
    forall i | 1 <= i < |line| ensures StepOK(w.heights, StepLimit(w.tileMeters), line[i - 1], line[i]) {
    }
    RightPressAsWrittenKeepsWaypoints(w, net, CorridorLink, p);
  }

  /** `_eraseClickHandler`: with the eraser on, a press off the tool bar
      removes the nearest link, if one is within reach. */
  function EraserClick(w: World, net: Network, p: Press): (n: Network)
    ensures !net.eraser || p.overUI || p.near.None? ==> n == net
    ensures n.eraser == net.eraser
  {
    if !net.eraser || p.overUI then net
    else match p.near
      case None => net
      case Some(hit) => Erase(w, net, hit)
  }

  /** An eraser press that hits a link removes exactly that one link and
      leaves the other list and both drawings alone. */
  lemma EraserClickRemovesOne(w: World, net: Network, p: Press)
    requires net.eraser && !p.overUI && p.near.Some?
    requires p.near.value.index < |Get(net, p.near.value.kind).list|
    ensures var hit := p.near.value;
      var n := EraserClick(w, net, p);
      |Get(n, hit.kind).list| == |Get(net, hit.kind).list| - 1 &&
      Get(n, hit.kind).start == Get(net, hit.kind).start &&
      Get(n, hit.kind).wps == Get(net, hit.kind).wps &&
      multiset(Get(n, hit.kind).list) <= multiset(Redraw(w, Get(net, hit.kind).list)) &&
      (hit.kind == CorridorLink ==> n.path == net.path) &&
      (hit.kind == PathLink ==> n.corr == net.corr)
  {
    var hit := p.near.value;
    var ls := Get(net, hit.kind).list;
    var rest := EraseAt(ls, hit.index);
    var all := Redraw(w, ls);
    var kept := Redraw(w, rest);
    EraseAtRemovesOne(all, hit.index);
    assert kept == EraseAt(all, hit.index);
  }

  // ---------------------------------------------------------------------
  // The tool switch

  datatype Tool = MouseTool | BrushTool | CorridorTool | PathTool | EraseTool

  /** `_activateCorridors` / `_activatePaths`: turn the tool on; on again
      does nothing. */
  function Activate(r: Router): (r': Router)
    ensures r'.active && r'.list == r.list && r'.start == r.start && r'.wps == r.wps
  {
    if r.active then r else r.(active := true)
  }

  /** `_deactivateCorridors` / `_deactivatePaths`: turn the tool off and
      drop the drawing in progress; off again does nothing. */
  function Deactivate(r: Router): (r': Router)
    ensures !r.active ==> r' == r
    ensures r.active ==> !r'.active && r'.start.None? && r'.wps == [] && r'.list == r.list
  {
    if !r.active then r else Router(false, None, [], r.list)
  }

  /** The tool-change handler: the chosen drawing tool or the eraser is
      turned on and the others off. */
  function SetTool(net: Network, t: Tool): (n: Network)
    ensures n.corr.active <==> t == CorridorTool
    ensures n.path.active <==> t == PathTool
    ensures n.eraser <==> t == EraseTool
    ensures n.corr.list == net.corr.list && n.path.list == net.path.list
  {
    match t
    case CorridorTool => Network(Activate(net.corr), Deactivate(net.path), false)
    case PathTool => Network(Deactivate(net.corr), Activate(net.path), false)
    case EraseTool => Network(Deactivate(net.corr), Deactivate(net.path), true)
    case _ => Network(Deactivate(net.corr), Deactivate(net.path), false)
  }

  /** An idle router holds no drawing, and every port and link it refers
      to belongs to an existing habitat. */
  predicate Quiet(r: Router, n: nat)
  {
    (!r.active ==> r.start.None? && r.wps == []) &&
    (r.start.Some? ==> r.start.value.house < n) &&
    LinksRefer(r.list, n)
  }

  predicate Tidy(net: Network, n: nat)
  {
    Quiet(net.corr, n) && Quiet(net.path, n)
  }

  /** Starting a tool never resumes a stale drawing: on a tidy network the
      router that a tool switch turns on starts with no port and no
      waypoints. */
  lemma SetToolStartsClean(net: Network, t: Tool, n: nat)
    requires Tidy(net, n)
    ensures var m := SetTool(net, t);
      Tidy(m, n) &&
      (t == CorridorTool && !net.corr.active ==> m.corr.start.None? && m.corr.wps == []) &&
      (t == PathTool && !net.path.active ==> m.path.start.None? && m.path.wps == [])
  {
  }

  /** Every press keeps the network tidy. */
  lemma PressKeepsTidy(w: World, net: Network, k: LinkKind, p: Press)
    requires Tidy(net, |w.houses|) && (p.port.Some? ==> p.port.value.house < |w.houses|)
    ensures Tidy(Dispatch(w, net, k, p), |w.houses|)
    ensures Tidy(DispatchAsWritten(w, net, k, p), |w.houses|)
    ensures Tidy(EraserClick(w, net, p), |w.houses|)
  {
    ClickKeepsTidy(w, net, k, p);
    if p.near.Some? {
      EraseKeepsTidy(w, net, p.near.value);
    }
  }

  lemma EraseKeepsTidy(w: World, net: Network, hit: Hit)
    requires Tidy(net, |w.houses|)
    ensures Tidy(Erase(w, net, hit), |w.houses|)
  {
    var r := Get(net, hit.kind);
    var rest := EraseAt(r.list, hit.index);
    assert LinksRefer(rest, |w.houses|);
  }

  lemma ClickKeepsTidy(w: World, net: Network, k: LinkKind, p: Press)
    requires Tidy(net, |w.houses|) && (p.port.Some? ==> p.port.value.house < |w.houses|)
    ensures Tidy(Click(w, net, k, p), |w.houses|)
  {
    var r := Get(net, k);
    if r.active && !p.overUI {
      if p.alt && p.near.Some? {
        EraseKeepsTidy(w, net, p.near.value);
      } else if r.start.Some? {
        DrawMeaning(w, r, p);
      }
    }
  }
}

=== FILE: rules.dfy ===
/** Area requirements derived from the catalog: the area each module kind
    needs for a crew and mission length, their total, the recommended
    number of waste-collection units, and the three plan lines of the
    issues report. */
module Rules {
  import opened Common
  import opened Catalog

  /** Area a kind needs: its base area plus its per-crew area for every
      crew member. */
  function AreaForModule(k: Kind, crew: int, days: real): (a: real)
    ensures crew >= 0 && days >= 0.0 ==> a >= Spec(k).baseArea > 0.0
    ensures crew == 0 ==> a == Spec(k).baseArea
  {
    Spec(k).baseArea + PerCrewArea(Spec(k).perCrew, days) * crew as real
  }

  lemma MulLeReal(a: real, b: real, c: real)
    requires a <= b && c >= 0.0
    ensures a * c <= b * c
  {
    assert b * c - a * c == (b - a) * c;
  }

  /** More crew never needs less area, for a non-negative mission length. */
  lemma AreaMonotoneInCrew(k: Kind, c1: int, c2: int, days: real)
    requires c1 <= c2 && days >= 0.0
    ensures AreaForModule(k, c1, days) <= AreaForModule(k, c2, days)
  {
    PerCrewAreaMonotone(k, 0.0, days);
    var p := PerCrewArea(Spec(k).perCrew, days);
    assert p >= 0.0;
    MulLeReal(c1 as real, c2 as real, p);
    assert p * (c1 as real) <= p * (c2 as real);
    assert AreaForModule(k, c1, days) == Spec(k).baseArea + p * (c1 as real);
    assert AreaForModule(k, c2, days) == Spec(k).baseArea + p * (c2 as real);
  }

  /** A longer mission never needs less area, for a non-negative crew. */
  lemma AreaMonotoneInDays(k: Kind, crew: int, d1: real, d2: real)
    requires crew >= 0 && 0.0 <= d1 <= d2
    ensures AreaForModule(k, crew, d1) <= AreaForModule(k, crew, d2)
  {
    PerCrewAreaMonotone(k, d1, d2);
    var p1, p2 := PerCrewArea(Spec(k).perCrew, d1), PerCrewArea(Spec(k).perCrew, d2);
    MulLeReal(p1, p2, crew as real);
    assert AreaForModule(k, crew, d1) == Spec(k).baseArea + p1 * (crew as real);
    assert AreaForModule(k, crew, d2) == Spec(k).baseArea + p2 * (crew as real);
  }

  /** Reference total: the needed area summed over a list of kinds. */
  function TotalOver(ks: seq<Kind>, crew: int, days: real): real
  {
    if |ks| == 0 then 0.0 else AreaForModule(ks[0], crew, days) + TotalOver(ks[1..], crew, days)
  }

  /** The entries of `per` summed over a list of kinds. */
  function SumEntries(per: map<Kind, real>, ks: seq<Kind>): real
    requires forall i :: 0 <= i < |ks| ==> ks[i] in per
  {
    if |ks| == 0 then 0.0 else per[ks[0]] + SumEntries(per, ks[1..])
  }

  /** One pass of the requirement loop over `ks`: record each kind's area
      and add it to the running total. */
  function Accumulate(ks: seq<Kind>, crew: int, days: real, per: map<Kind, real>, total: real): (r: (map<Kind, real>, real))
  {
    if |ks| == 0 then (per, total)
    else
      var a := AreaForModule(ks[0], crew, days);
      Accumulate(ks[1..], crew, days, per[ks[0] := a], total + a)
  }

  /** The loop records every visited kind's area, keeps every other entry,
      and adds exactly the reference total. */
  lemma {:induction false} AccumulateMeaning(ks: seq<Kind>, crew: int, days: real, per: map<Kind, real>, total: real)
    ensures var r := Accumulate(ks, crew, days, per, total);
      r.1 == total + TotalOver(ks, crew, days) &&
      (forall k :: k in ks ==> k in r.0 && r.0[k] == AreaForModule(k, crew, days)) &&
      (forall k :: k !in ks ==> (k in r.0 <==> k in per) && (k in per ==> r.0[k] == per[k]))
    decreases |ks|
  {
    if |ks| > 0 {
      var a := AreaForModule(ks[0], crew, days);
      AccumulateMeaning(ks[1..], crew, days, per[ks[0] := a], total + a);
      forall k | k in ks
        ensures k == ks[0] || k in ks[1..]
      {
        var i :| 0 <= i < |ks| && ks[i] == k;
        if i > 0 {
          assert ks[1..][i - 1] == k;
        }
      }
    }
  }

  /** When every entry is the kind's needed area, summing the entries is
      the reference total. */
  lemma {:induction false} SumEntriesIsTotal(per: map<Kind, real>, ks: seq<Kind>, crew: int, days: real)
    requires forall k: Kind :: k in per && per[k] == AreaForModule(k, crew, days)
    ensures SumEntries(per, ks) == TotalOver(ks, crew, days)
    decreases |ks|
  {
    if |ks| > 0 {
      SumEntriesIsTotal(per, ks[1..], crew, days);
    }
  }

  datatype Requirements = Requirements(per: map<Kind, real>, total: real)

  /** `requiredAreas`: every kind's needed area, and their sum. */
  function RequiredAreas(crew: int, days: real): (r: Requirements)
    ensures forall k: Kind :: k in r.per && r.per[k] == AreaForModule(k, crew, days)
    ensures r.total == SumEntries(r.per, Order)
    ensures r.total == TotalOver(Order, crew, days)
  {
    var acc := Accumulate(Order, crew, days, map[], 0.0);
    AccumulateMeaning(Order, crew, days, map[], 0.0);
    OrderIsEnumeration();
    var r := Requirements(acc.0, acc.1);
    SumEntriesIsTotal(r.per, Order, crew, days);
    r
  }

  /** The total grows with the crew. */
  lemma {:induction false} TotalMonotoneInCrew(ks: seq<Kind>, c1: int, c2: int, days: real)
    requires c1 <= c2 && days >= 0.0
    ensures TotalOver(ks, c1, days) <= TotalOver(ks, c2, days)
    decreases |ks|
  {
    if |ks| > 0 {
      AreaMonotoneInCrew(ks[0], c1, c2, days);
      TotalMonotoneInCrew(ks[1..], c1, c2, days);
    }
  }

  /** The total grows with the mission length. */
  lemma {:induction false} TotalMonotoneInDays(ks: seq<Kind>, crew: int, d1: real, d2: real)
    requires crew >= 0 && 0.0 <= d1 <= d2
    ensures TotalOver(ks, crew, d1) <= TotalOver(ks, crew, d2)
    decreases |ks|
  {
    if |ks| > 0 {
      AreaMonotoneInDays(ks[0], crew, d1, d2);
      TotalMonotoneInDays(ks[1..], crew, d1, d2);
    }
  }

  /** Required areas, entry by entry and in total, never shrink when the
      crew or the mission grows. */
  lemma RequiredAreasMonotone(c1: int, c2: int, d1: real, d2: real)
    requires 0 <= c1 <= c2 && 0.0 <= d1 <= d2
    ensures forall k: Kind :: RequiredAreas(c1, d1).per[k] <= RequiredAreas(c2, d2).per[k]
    ensures RequiredAreas(c1, d1).total <= RequiredAreas(c2, d2).total
  {
    forall k: Kind ensures AreaForModule(k, c1, d1) <= AreaForModule(k, c2, d2) {
      AreaMonotoneInCrew(k, c1, c2, d1);
      AreaMonotoneInDays(k, c2, d1, d2);
    }
    TotalMonotoneInCrew(Order, c1, c2, d1);
    TotalMonotoneInDays(Order, c2, d1, d2);
  }

  /** `recommendedCounts`: at least one waste-collection unit, one more
      for every full three crew members. */
  function RecommendedWcs(crew: int): (n: int)
    ensures n >= 1
    ensures crew >= 3 ==> 3 * n <= crew < 3 * n + 3
    ensures crew < 6 ==> n == 1
  {
    Max(1, FloorDiv(crew, 3))
  }

  datatype PlanLine =
    | NeedArea(total: real, available: real)
    | Shortfall(amount: real)
    | AreaSufficient
    | WcsAtLeast(count: int)

  /** `modulePlanIssues`: the needed total against the available area, then
      a shortfall line exactly when the area does not suffice, then the
      waste-collection recommendation. */
  function ModulePlanIssues(available: real, crew: int, days: real): (lines: seq<PlanLine>)
    ensures |lines| == 3
    ensures lines[0] == NeedArea(RequiredAreas(crew, days).total, available)
    ensures lines[1].Shortfall? <==> available < RequiredAreas(crew, days).total
    ensures lines[1].Shortfall? ==> lines[1].amount > 0.0 && available + lines[1].amount == RequiredAreas(crew, days).total
    ensures !lines[1].Shortfall? ==> lines[1] == AreaSufficient
    ensures lines[2] == WcsAtLeast(RecommendedWcs(crew)) && lines[2].count >= 1
  {
    var total := RequiredAreas(crew, days).total;
    var diff := available - total;
    [NeedArea(total, available), if diff < 0.0 then Shortfall(RAbs(diff)) else AreaSufficient, WcsAtLeast(RecommendedWcs(crew))]
  }
}

=== FILE: steps.dfy ===
/** The walking-slope rule both corridor routers share: the height of a
    tile, with tiles off the map reading as ground level, and the largest
    height step allowed between two neighbouring tiles of a route. */
module Steps {
  import opened Common
  import opened Terrain

  /** `3 * (tileMeters || 1)`: three metres of height per tile edge, with a
      zero tile size falling back to one metre. */
  function StepLimit(tileMeters: real): (l: real)
    ensures tileMeters > 0.0 ==> l > 0.0
    ensures tileMeters == 0.0 ==> l == 3.0
  {
    3.0 * (if tileMeters != 0.0 then tileMeters else 1.0)
  }

  /** `heightMap?.[y]?.[x] ?? 0`: a tile off the map reads as height 0. */
  function TileH(m: HeightMap, p: Point): (h: int)
    ensures !OnMap(m, p.x, p.y) ==> h == 0
  {
    if OnMap(m, p.x, p.y) then m[p.y][p.x] else 0
  }

  /** One step of a route: the height difference is within the limit. */
  predicate StepOK(m: HeightMap, limit: real, p: Point, q: Point)
  {
    (Abs(TileH(m, p) - TileH(m, q)) as real) <= limit
  }

  /** Every pair of consecutive tiles of `pts` is a step within the limit. */
  ghost predicate Walkable(m: HeightMap, limit: real, pts: seq<Point>)
  {
    forall i :: 1 <= i < |pts| ==> StepOK(m, limit, pts[i - 1], pts[i])
  }

  /** The checking loop over a rasterised run of tiles, from pair
      (i - 1, i) onwards, stopping at the first step that is too steep. */
  function ScanFrom(m: HeightMap, limit: real, pts: seq<Point>, i: nat): (ok: bool)
    requires i >= 1
    ensures ok <==> forall j :: i <= j < |pts| ==> StepOK(m, limit, pts[j - 1], pts[j])
    decreases |pts| - i
  {
    if i >= |pts| then true
    else if !StepOK(m, limit, pts[i - 1], pts[i]) then false
    else ScanFrom(m, limit, pts, i + 1)
  }

  /** A step is as good in one direction as in the other. */
  lemma StepSymmetric(m: HeightMap, limit: real, p: Point, q: Point)
    ensures StepOK(m, limit, p, q) <==> StepOK(m, limit, q, p)
  {
  }
}

=== FILE: terrain.dfy ===
/** The terrain height map: one integer elevation per world tile, painted
    one tile at a time and queried for the height spread under a rectangle. */
module Terrain {
  import opened Common

  type HeightMap = seq<seq<int>>

  /** A tile that exists in the map; every other read is "undefined" in
      the program and is skipped. Rows may in principle differ in length. */
  predicate OnMap(m: HeightMap, x: int, y: int)
  {
    0 <= y < |m| && 0 <= x < |m[y]|
  }

  predicate InRow(row: seq<int>, i: int)
  {
    0 <= i < |row|
  }

  /** `makeHeightMap(w, h, init)`: `h` rows of `w` cells, all `init`. */
  function MakeHeightMap(w: nat, h: nat, init: int): (m: HeightMap)
    ensures |m| == h
    ensures forall y :: 0 <= y < h ==> |m[y]| == w
    ensures forall y, x :: OnMap(m, x, y) ==> m[y][x] == init
  {
    seq(h, _ => seq(w, _ => init))
  }

  datatype PaintResult = PaintResult(ok: bool, heights: HeightMap)

  /** `paintHeight`: rounds and clamps `value` into [minH, maxH] and stores
      it at (tx, ty); an off-map tile is refused and nothing changes. */
  function PaintHeight(m: HeightMap, tx: int, ty: int, value: real, minH: int, maxH: int): (r: PaintResult)
    ensures !OnMap(m, tx, ty) ==> !r.ok && r.heights == m
    ensures OnMap(m, tx, ty) ==> r.ok
    ensures |r.heights| == |m| && forall y :: 0 <= y < |m| ==> |r.heights[y]| == |m[y]|
    ensures OnMap(m, tx, ty) ==> r.heights[ty][tx] == ClampLo(Round(value), minH, maxH)
    ensures OnMap(m, tx, ty) && minH <= maxH ==> minH <= r.heights[ty][tx] <= maxH
    ensures forall y, x :: OnMap(m, x, y) && (x != tx || y != ty) ==> r.heights[y][x] == m[y][x]
  {
    if !OnMap(m, tx, ty) then PaintResult(false, m)
    else
      var v := Max(minH, Min(maxH, Round(value)));
      PaintResult(true, m[ty := m[ty][tx := v]])
  }

  /** Lowest and highest elevation seen. */
  datatype Span = Span(lo: int, hi: int)

  function Join(a: Option<Span>, b: Option<Span>): Option<Span>
  {
    if a.None? then b
    else if b.None? then a
    else Some(Span(Min(a.value.lo, b.value.lo), Max(a.value.hi, b.value.hi)))
  }

  /** Spread of the cells `x .. x1-1` of one row that exist. */
  function RowSpan(row: seq<int>, x: int, x1: int): (r: Option<Span>)
    ensures r.None? <==> forall i :: x <= i < x1 ==> !InRow(row, i)
    ensures r.Some? ==> r.value.lo <= r.value.hi
    ensures r.Some? ==> forall i :: x <= i < x1 && InRow(row, i) ==> r.value.lo <= row[i] <= r.value.hi
    ensures r.Some? ==> exists i :: x <= i < x1 && InRow(row, i) && row[i] == r.value.lo
    ensures r.Some? ==> exists i :: x <= i < x1 && InRow(row, i) && row[i] == r.value.hi
    decreases x1 - x
  {
    if x >= x1 then None
    else
      var rest := RowSpan(row, x + 1, x1);
      if InRow(row, x) then Join(Some(Span(row[x], row[x])), rest) else rest
  }

  /** Spread of the existing cells of rows `y .. y1-1`, columns `x0 .. x1-1`. */
  function RectSpan(m: HeightMap, y: int, y1: int, x0: int, x1: int): (r: Option<Span>)
    ensures r.None? <==> forall j, i :: y <= j < y1 && x0 <= i < x1 ==> !OnMap(m, i, j)
    ensures r.Some? ==> r.value.lo <= r.value.hi
    ensures r.Some? ==> forall j, i :: y <= j < y1 && x0 <= i < x1 && OnMap(m, i, j) ==>
      r.value.lo <= m[j][i] <= r.value.hi
    ensures r.Some? ==> exists j, i :: y <= j < y1 && x0 <= i < x1 && OnMap(m, i, j) && m[j][i] == r.value.lo
    ensures r.Some? ==> exists j, i :: y <= j < y1 && x0 <= i < x1 && OnMap(m, i, j) && m[j][i] == r.value.hi
    decreases y1 - y
  {
    if y >= y1 then None
    else
      var rest := RectSpan(m, y + 1, y1, x0, x1);
      if 0 <= y < |m| then
        var row := RowSpan(m[y], x0, x1);
        assert row.None? ==> forall i :: x0 <= i < x1 ==> !OnMap(m, i, y) by {
          if row.None? {
            forall i | x0 <= i < x1 ensures !OnMap(m, i, y) {
              assert !InRow(m[y], i);
            }
          }
        }
        assert row.Some? ==> exists i :: x0 <= i < x1 && OnMap(m, i, y) by {
          if row.Some? {
            var i :| x0 <= i < x1 && InRow(m[y], i) && m[y][i] == row.value.lo;
            assert OnMap(m, i, y);
          }
        }
        Join(row, rest)
      else rest
  }

  /** `rectSlope`: the highest minus the lowest elevation among the tiles of
      the rectangle that lie on the map; 0 when none do. */
  function RectSlope(m: HeightMap, r: Rect): (s: int)
    ensures s >= 0
    ensures (forall y, x :: InRect(r, x, y) ==> !OnMap(m, x, y)) ==> s == 0
    ensures forall y1, x1, y2, x2 ::
      InRect(r, x1, y1) && OnMap(m, x1, y1) && InRect(r, x2, y2) && OnMap(m, x2, y2) ==>
        m[y1][x1] - m[y2][x2] <= s
    ensures (exists y, x :: InRect(r, x, y) && OnMap(m, x, y)) ==>
      exists y1, x1, y2, x2 ::
        InRect(r, x1, y1) && OnMap(m, x1, y1) && InRect(r, x2, y2) && OnMap(m, x2, y2) &&
        m[y1][x1] - m[y2][x2] == s
  {
    var sp := RectSpan(m, r.oy, r.oy + r.h, r.ox, r.ox + r.w);
    if sp.None? then 0 else sp.value.hi - sp.value.lo
  }

  /** On a map of constant elevation every rectangle has slope 0. */
  lemma FlatSlope(m: HeightMap, r: Rect, c: int)
    requires forall y, x :: OnMap(m, x, y) ==> m[y][x] == c
    ensures RectSlope(m, r) == 0
  {
    var s := RectSlope(m, r);
    if exists y, x :: InRect(r, x, y) && OnMap(m, x, y) {
      var y1, x1, y2, x2 :| InRect(r, x1, y1) && OnMap(m, x1, y1) && InRect(r, x2, y2) && OnMap(m, x2, y2) &&
        m[y1][x1] - m[y2][x2] == s;
    }
  }
}
